=== FILE: README.md ===
# lst in Dafny

A model of the core of `lst`, an `ls`-style directory lister written in
C++. The repository holds two trees: `source/` is the current version and
`Source/` an older, Windows-only snapshot. Between the calls that fetch file
metadata and the calls that print, `lst` decides how names are decoded,
measured, decorated, classified, sorted, matched and laid out, and how the
command line becomes a configuration. That logic is modelled here, one
Dafny module per concern:

| file | module | models |
|---|---|---|
| `common.dfy` | `Common` | bytes, `Option`, signed `char` and 32-bit `int` conversions, the ASCII character classes |
| `options.dfy` | `Options` | the option enumerations (`SortMode`, `QuoteMode`, `NongraphicMode`) |
| `unicode.dfy` | `Unicode` | `utf8_to_codepoint`, the width table, `display_width`, `padding_offset` and `CodepointIterator` (a class whose cursor the loops advance) |
| `natural_sort.dfy` | `NaturalSort` | `compare_non_digit` and `natural_compare` as written, with the comparison they evidently intend beside them |
| `frills.dfy` | `Frills` | `add_frills` (quote choice and the loop that builds the output) and `escape_nongraphic` |
| `files.dfy` | `Files` | `file_type`, `file_indicator`, `file_name_width`, `int_len`, the `rwx` and octal permission texts, and the width pass of `print_long` |
| `sorting.dfy` | `Sorting` | path order, `case_insensitive_compare`, the comparator of each sort mode and `sort_files` |
| `columns.dfy` | `Grid` | `Column` and `Columns` (classes holding the cells): `add`, `total_width`, `new_column_count`, `reorder`, `next`, `print` |
| `match.dfy` | `Glob` | `range_match` and `match` |
| `args.dfy` | `Args` | `parse_long_format`, `handle_short_opt`, `handle_long_opt` and `parse_args`, the last three as methods of a class holding the `Arguments` globals |
| `legacy.dfy` | `Legacy` | the snapshot's `Quote`, `SortDir` (in place on an array) and the type, size and hidden-flag derivation of the `FileInfo` constructor |

Loops of the source are methods with loop invariants, each proved against a
function that states what it computes; the properties are lemmas about
those functions. Where the source has a defect, the model keeps the code as
written and puts the evidently intended definition beside it, with a lemma
showing an input on which they differ (see "Findings").

Conventions:
- Bytes are `Byte` (0 to 255). Where the source compares `char`s, they are
  taken as signed 8-bit values, as on x86-64.
- A command-line argument is a view into a NUL-terminated C string: reading
  one byte past its end reads the NUL. A `$` at the end of a `--format`
  template and `--` followed by nothing rely on this.
- Command-line arguments and `--format` templates are `string`s (sequences
  of `char`). Every test `parse_args` and `parse_long_format` make is on
  ASCII characters, so this agrees with the bytes of `argv`.
- Whether standard output is a terminal (`G_is_a_tty`), the terminal width
  and the option values are parameters; nothing reads the system.
- Where a source function reads past the end of its input (a name ending in
  a truncated UTF-8 sequence, an unclosed `[`, equal prefixes without digits
  in `natural_compare`), the model takes the well-defined inputs as a
  precondition or returns `None` for the undefined case.

Behaviour of the code that the model keeps:
- `compare_non_digit` ranks `~` above every other character
  (source/natural_sort.cc:6-7).
- `Columns::add` adds at most one row per file: one width test, one
  `reorder` (source/columns.cc:33-37).
- `natural_compare` returns the differences it computes, and the
  difference of two digit runs passes through a 32-bit `int`
  (source/natural_sort.cc:34-51).
- `add_frills` forces quoting only for `QuoteMode::double_`
  (source/lst.cc:112), and writes a lone backslash in place of the chosen
  quote character inside the name (source/lst.cc:164-165).
- The UTF-8 decoder and the iterator step over as many bytes as the lead
  byte announces, whatever follows (source/unicode.cc:21-26, 40-67).
- `--sort` accepts only `none`, `extension`, `size`, `time` and `version`
  (source/args.cc:131-154).
- `sort_files` returns at once for `SortMode::none`, before the regrouping
  of `--group-directories-first` (source/lst.cc:511-512).
- The `SortMode::time` case sets the time comparator and falls through
  into the `SortMode::version` case, whose comparator answers `true` for
  every pair and is the one kept (source/lst.cc:548-557).
- `Files.FileIndicator` and the widths that use it follow `classify`, which
  is on by default and turned off by `-F` and `--no-classify`
  (source/args.cc:13, 46, 96).

## Model

| member | source | states |
|---|---|---|
| Unicode.LeadSize | source/unicode.cc:21-26 | a lead byte announces 1 to 4 bytes, and 1 exactly for ASCII bytes |
| Unicode.Utf8ToCodepoint | source/unicode.cc:40-67 | the size is the one the lead byte announces; a one-byte codepoint is the byte itself; two bytes give a codepoint below U+0800; every result is below 2^21 |
| Unicode.DecodeEncode | source/unicode.cc:40-67 | decoding the UTF-8 encoding (RFC 3629) of any scalar value gives back that scalar and the encoding's length, whatever follows it |
| Unicode.CodepointsOfEncoding | source/unicode.cc:6-33 | iterating over a well-formed UTF-8 string lands exactly on its end and visits each encoded scalar once, in order |
| Unicode.CharWidthTable | source/unicode.cc:74-91 | a codepoint is 0 columns wide exactly when it is NUL, 2 exactly inside the East Asian wide ranges, otherwise 1 |
| Unicode.CharWidth | source/unicode.cc:74-91 | a codepoint takes at most 2 columns, none exactly when it is NUL, and at most one below U+1100 |
| Unicode.Width | source/unicode.cc:93-100 | a string is never wider in columns than it is long in bytes |
| Unicode.Padding | source/unicode.cc:102-115 | bytes minus columns over the non-NUL codepoints; never negative (`Unicode.PaddingNonNegative`) and the complement of the width (`Unicode.WidthPlusPadding`) |
| Unicode.WidthIsSumOverCodepoints | source/unicode.cc:93-100 | the width of a string is the sum of the widths of the codepoints the iterator visits |
| Unicode.WidthOfEncoding | source/unicode.cc:93-100 | the width of a well-formed string is the sum of the widths of the scalars it encodes |
| Unicode.WidthAppend | source/unicode.cc:93-100 | widths of whole-codepoint strings add up over concatenation |
| Unicode.WidthPlusPadding | source/unicode.cc:93-115 | for a string with no NUL codepoint, display width plus padding offset equals the byte length (what a printf field width needs) |
| Unicode.PaddingNonNegative | source/unicode.cc:102-115 | the padding offset is never negative: no codepoint is wider than its encoding is long |
| Unicode.AsciiWidth | source/unicode.cc:93-115 | an ASCII string needs no padding offset, and without NUL bytes its width is its length |
| Unicode.Utf8ToCodepointAt | source/unicode.cc:40-67 | decoding at an offset of a buffer returns the codepoint and stores its size, as the pure decoder defines them |
| Unicode.CodepointIterator.constructor | source/unicode.cc:6-9 | a fresh iterator points at the start of the string |
| Unicode.CodepointIterator.Current | source/unicode.cc:16-19 | dereferencing decodes the codepoint under the cursor and records its size |
| Unicode.CodepointIterator.Advance | source/unicode.cc:21-26 | stepping moves the cursor by exactly the size the lead byte announces |
| Unicode.DisplayWidth | source/unicode.cc:93-100 | the iterating loop computes the string's width (the sum over its codepoints) |
| Unicode.PaddingOffset | source/unicode.cc:102-115 | the iterating loop computes bytes minus columns summed over the non-NUL codepoints |
| NaturalSort.CharOrder | source/natural_sort.cc:3-11 | the character comparison is antisymmetric, zero exactly on equal characters, puts `~` above everything and punctuation above the rest, and otherwise follows the signed `char` value |
| NaturalSort.CompareNonDigitChar | source/natural_sort.cc:3-11 | the character comparison is zero exactly for equal characters |
| NaturalSort.CharOrderTransitive | source/natural_sort.cc:3-11 | the character order is transitive |
| NaturalSort.CompareNonDigit | source/natural_sort.cc:13-24 | two non-digit runs compare equal exactly when they are equal |
| NaturalSort.CompareNonDigitTransitive | source/natural_sort.cc:13-24 | the order on non-digit runs is transitive |
| NaturalSort.CompareNonDigitProps | source/natural_sort.cc:13-24 | two non-digit runs compare equal exactly when they are equal, and swapping them flips the sign |
| NaturalSort.ShorterPrefixIsSmaller | source/natural_sort.cc:13-24 | a run that is a proper prefix of another compares below it |
| NaturalSort.FirstDigit | source/natural_sort.cc:41-42 | the position of the first digit, or the whole length when there is none: nothing before it is a digit |
| NaturalSort.Strtoull | source/natural_sort.cc:48-49 | the digit run's value, saturated at ULLONG_MAX |
| NaturalSort.NaturalOrder | source/natural_sort.cc:26-58 | the intended comparison returns only -1, 0 or 1 |
| NaturalSort.EmptyFirst | source/natural_sort.cc:33-35 | the empty name sorts before every other name, in the code and in the intended order |
| NaturalSort.DotFirst | source/natural_sort.cc:36-38 | a dotfile sorts before a name that does not start with `.`, in the code and in the intended order |
| NaturalSort.NaturalOrderAntisymmetric | source/natural_sort.cc:26-58 | swapping the names flips the sign of the intended comparison |
| NaturalSort.NaturalOrderReflexive | source/natural_sort.cc:26-58 | every name compares equal to itself |
| NaturalSort.NaturalOrderTransitive | source/natural_sort.cc:26-58 | the intended order is transitive, and strictly so when either step is strict |
| NaturalSort.TailOrderTransitive | source/natural_sort.cc:45-57 | transitivity of the intended order from the first digit run on |
| NaturalSort.NaturalOrderEquivalent | source/natural_sort.cc:26-58 | comparing equal is transitive, so with antisymmetry and transitivity the intended order is a strict weak order |
| NaturalSort.NaturalCompare | source/natural_sort.cc:26-58 | `natural_compare` as written, on the inputs where it is defined; it agrees in sign with the intended order while digit runs are below 2^31 (`NaturalSort.AsWrittenAgreesWhenSmall`) and not beyond (`NaturalSort.TruncatedDifference`) |
| NaturalSort.Defined | source/natural_sort.cc:33-55 | the inputs on which `natural_compare` does not read past a name: not both empty, and equal non-digit prefixes always followed by digits in both names, at every level of the recursion |
| NaturalSort.NumericRuns | source/natural_sort.cc:40-51 | after equal non-digit prefixes, names are ordered by the numeric value of the following digit runs |
| NaturalSort.NumericRunsAsWritten | source/natural_sort.cc:40-51 | the code returns the 32-bit conversion of the difference of the two digit runs |
| NaturalSort.Img2BeforeImg10 | source/natural_sort.cc:26-58 | "img2" sorts before "img10", in the code and in the intended order |
| NaturalSort.TruncatedDifference | source/natural_sort.cc:48-51 | "a2147483648" and "a0" each compare below the other in the code |
| NaturalSort.UntruncatedOrder | source/natural_sort.cc:26-58 | the intended order puts "a0" before "a2147483648" |
| NaturalSort.DefinedSymmetric | source/natural_sort.cc:41-47 | the conditions under which the code is defined do not depend on the order of the names |
| NaturalSort.AsWrittenAgreesWhenSmall | source/natural_sort.cc:26-58 | while every digit run is below 2^31, the code's result has the sign of the intended order |
| NaturalSort.AsWrittenAntisymmetricWhenSmall | source/natural_sort.cc:26-58 | while every digit run is below 2^31, swapping the names flips the sign of the code's result |
| Frills.ChooseQuote | source/lst.cc:112-151 | the pre-pass picks the quote character of the quoting rules: `"` when double quoting is forced, else `'` for a name with a `"`, `"` for a name with a `'`, `'` for a name the shell would misread, none otherwise |
| Frills.QuoteChar | source/lst.cc:112-151 | the quote is `'`, `"` or none; none exactly when double quoting is not forced and the name has no quote and nothing shell-special; the chosen quote occurs in the name only when the name holds both kinds |
| Frills.NeedsQuoting | source/lst.cc:123-148 | whether the shell would misread the name: a space, a backtick or a vertical bar or one of `!$&()*;<=>[^` anywhere, `#` or `~` first, or the name `{` or `}`; the quoting rules of `Frills.ChooseQuote` and `Frills.PlainNameUnchanged` use it |
| Frills.EscapeNongraphic | source/lst.cc:61-106 | an escape is 4, 6 or 10 bytes long and starts with a backslash; `Frills.EscapeNongraphicDecodes` reads the codepoint back from it |
| Frills.Render | source/lst.cc:163-187 | the rendering of one codepoint that `Frills.PushRendered` appends |
| Frills.Body | source/lst.cc:161-188 | the rendering of the whole name that `Frills.PushBody` builds; `Frills.EscapedBodyRoundTrip` reads it back |
| Frills.Frilled | source/lst.cc:109-192 | `add_frills` as written, which `Frills.AddFrills` appends; `Frills.QuoteCharDropped` shows two names it confuses |
| Frills.FrilledEscaped | source/lst.cc:109-192 | `add_frills` with the quote kept after its backslash; `Frills.FrilledEscapedRoundTrip` reads the name back from it |
| Frills.EscapeNongraphicDecodes | source/lst.cc:61-106 | an escape is a backslash, then `x`, `u` or `U` by the size of the codepoint, then 2, 4 or 8 hexadecimal digits whose value is the codepoint |
| Frills.PushRendered | source/lst.cc:163-187 | one step of the main loop appends the rendering of one codepoint: the quote character as a backslash, a non-printable ASCII codepoint by the nongraphic mode, everything else byte for byte |
| Frills.PushBody | source/lst.cc:161-188 | the main loop appends the rendering of every codepoint of the name, in order |
| Frills.PushUnit | source/lst.cc:163-187 | one round of the loop: the codepoint at the cursor is rendered and the cursor moves past its whole UTF-8 sequence, staying inside the name |
| Frills.AddFrills | source/lst.cc:109-192 | the output is the old output followed by the decorated name: quote, rendered body, quote (or the body alone when no quoting is chosen) |
| Frills.PrintableBodyUnchanged | source/lst.cc:161-188 | without a quote character, a printable ASCII name passes through the main loop unchanged |
| Frills.PlainNameUnchanged | source/lst.cc:109-192 | a printable ASCII name with no quotes and nothing shell-special is shown as it is |
| Frills.QuoteCharDropped | source/lst.cc:165-166 | the names `a"b'c` and `a"b\c` are displayed identically by the code, and differently once the quote character is kept |
| Frills.EscapedBodyRoundTrip | source/lst.cc:161-188 | with the quote character kept after its backslash, unescaping the rendering of a well-formed name (nongraphic shown) gives the name back |
| Frills.FrilledEscapedRoundTrip | source/lst.cc:109-192 | the corrected decoration is framed by the chosen quote character, and stripping it and unescaping gives the well-formed name back |
| Files.Classification | source/lst.cc:443-473 | the long-listing type letter names exactly the kind the system reported, and the `*` indicator appears exactly for regular files with an execute bit; only directories, links, fifos, sockets and executables get an indicator |
| Files.FileTypeOf | source/lst.cc:443-473 | `file_type`: the kind the system reports, with a regular file with an execute bit made executable; `Files.Classification` states the correspondence |
| Files.FileIndicator | source/lst.cc:598-609 | an indicator is appended exactly for directories, links, fifos, sockets and executables |
| Files.TypeLetter | source/lst.hh:22 | the first character of a long-listing line, from `file_type_letters`; `Files.Classification` shows it names the reported kind |
| Files.ExecBits | source/lst.cc:451-453 | testing the three execute bits one by one is testing the mask of all three |
| Files.FixedWidthIsPrintedWidth | source/lst.cc:626-687 | the corrected name width is the display width of what `print_file_name` writes: name, indicator, and for a link ` -> ` and the target with its own indicator |
| Files.LinkWidthOvercounts | source/lst.cc:639-640 | a link `l` to a plain file `f`, listed with classification on (the default; `-F` / `--no-classify` turn it off), is measured one column wider than the `l@ -> f` that is printed |
| Files.FileNameWidth | source/lst.cc:626-645 | `file_name_width` as written; `Files.LinkWidthOvercounts` shows it measuring a link one column wider than printed |
| Files.FileNameWidthFixed | source/lst.cc:626-645 | the corrected name width, which `Files.FixedWidthIsPrintedWidth` proves equal to the printed width |
| Files.IndicatorWidth | source/lst.cc:657-670 | the printed indicator takes the width of the indicator character with classification on (the default; `-F` / `--no-classify` turn it off) and nothing otherwise |
| Files.DecoratedWidth | source/lst.cc:629-632 | a name with its indicator is as wide as the name plus the indicator character with classification on (the default; `-F` / `--no-classify` turn it off) |
| Files.IntLenCountsDigits | source/lst.cc:690-708 | `int_len` is the number of decimal digits below 10^15 and 18 from there on |
| Files.IntLen | source/lst.cc:690-708 | `int_len` is between 1 and 18, and never 16 or 17 |
| Files.RwxPerms | source/lst.cc:825-837 | the permission text has nine characters |
| Files.OctPerms | source/lst.cc:839-855 | the octal text has three characters |
| Files.OctalMatchesRwx | source/lst.cc:825-855 | each octal digit is 4 for a shown `r`, 2 for a shown `w` and 1 for a shown `x` of the matching `rwx` triple |
| Files.RwxDistinguishesPerms | source/lst.cc:825-837 | two permission sets give the same `rwx` text exactly when their low nine bits agree |
| Files.NeededAll | source/lst.cc:792-804 | what each listed file needs in a column, one entry per file, in order |
| Files.LongWidths | source/lst.cc:786-804 | after the width pass each padded column is the largest of its starting width (0 for the name, 1 for the others) and what every file needs in it; the name column stays 0 when it is the last column |
| Files.WidenFor | source/lst.cc:795-803 | one iteration widens every column so that the widths fit the files seen so far |
| Files.Widen | source/lst.cc:796-803 | `std::max` keeps the column the largest of its starting width and the needs of the files seen so far |
| Sorting.PathLessIrreflexive | source/lst.cc:521-523 | no name sorts before itself under the case-sensitive `<` |
| Sorting.PathLessTransitive | source/lst.cc:521-523 | the case-sensitive `<` on names is transitive |
| Sorting.PathLessTotal | source/lst.cc:521-523 | of two distinct names one always sorts before the other |
| Sorting.PathLess | source/lst.cc:521-523 | `<` on paths, bytes taken as unsigned; a strict total order by `Sorting.PathLessIrreflexive`, `Sorting.PathLessTransitive` and `Sorting.PathLessTotal` |
| Sorting.LastDot | source/lst.cc:533 | the position found holds the last `.` of the name, and none is found only when the name has no `.` |
| Sorting.Extension | source/lst.cc:533-539 | the extension is a suffix of the name that starts at its last `.`; it is empty exactly for an empty name, `..`, or a name whose only `.` is its first character |
| Sorting.Folded | source/lst.cc:495-496 | folding keeps the length and folds each unit on its own |
| Sorting.CaseInsensitiveCompare | source/lst.cc:485-504 | the loop returns the case-insensitive order of the two names |
| Sorting.CaseInsensitiveOrderProps | source/lst.cc:485-504 | for names shorter than 2^31 bytes the comparison is 0 exactly when both names are equal after folding, and swapping the names flips the sign |
| Sorting.CaseInsensitiveOrder | source/lst.cc:485-504 | the result fits a 32-bit `int`, and equal names compare 0 |
| Sorting.Comes | source/lst.cc:511-562 | the comparator of each sort mode; `Sorting.CaseInsensitiveComparatorIsEquality` and `Sorting.TimeComparatorIgnoresTime` show the two that are no strict weak order |
| Sorting.Insert | source/lst.cc:564 | one step of the list sort: the result is the input with the new file added, as a multiset |
| Sorting.CaseInsensitiveComparatorIsEquality | source/lst.cc:525-528 | the case-insensitive name comparator holds exactly for names equal after folding, so it holds for every file compared with itself and is no strict order |
| Sorting.TimeComparatorIgnoresTime | source/lst.cc:548-557 | sorting by time falls through into the version comparator, which holds for every pair in both directions |
| Sorting.ListSort | source/lst.cc:564 | the list sort returns a reordering of its input |
| Sorting.SortFiles | source/lst.cc:507-570 | the result is always a reordering of the input, and `SortMode::none` leaves the list as it is |
| Sorting.DirsFirstRegroups | source/lst.cc:566-569 | regrouping gives the directories in their order, then the other files in theirs |
| Sorting.SortFilesGroupsDirectories | source/lst.cc:564-569 | with `--group-directories-first` every directory precedes every other file and each group keeps the order of the mode's sort |
| Sorting.ListSortSorted | source/lst.cc:564 | sorting with a strict order leaves no element after one it should precede |
| Sorting.SortByNameOrdersNames | source/lst.cc:519-523 | case-sensitive name sorting without `--reverse` or regrouping gives the names in increasing byte order |
| Sorting.SortBySizeOrdersSizes | source/lst.cc:543-547 | size sorting without `--reverse` or regrouping gives non-decreasing sizes |
| Grid.Net | source/columns.hh:32-33 | the width a cell claims is its width less one for quotes, in 32-bit unsigned arithmetic |
| Grid.MaxNet | source/columns.hh:29-41 | the widest claim among the cells: at least every cell's and equal to one of them (0 for none) |
| Grid.Column.constructor | source/columns.hh:25-27 | a new column is empty and 0 wide |
| Grid.Column.Add | source/columns.hh:29-34 | the cell is appended and the column widens to it, never narrows, and keeps the widest claim |
| Grid.Column.Emplace | source/columns.hh:36-41 | the same effect as `add` on the cell built from the parts |
| Grid.Deal | source/columns.cc:91-120 | dealing into `n` columns yields exactly `n` columns |
| Grid.DealFlatten | source/columns.cc:91-120 | dealing loses nothing: the columns read in order, then the leftover, give back the cells |
| Grid.LeftoverCapacity | source/columns.cc:91-120 | every cell fits exactly when there is room for all of them |
| Grid.DealIntoOpen | source/columns.cc:17-28 | a cell added to the first column with room lands at the end of that column |
| Grid.DealIntoNew | source/columns.cc:21-24 | a cell added when every column is full opens a new column of its own |
| Grid.FullOverflows | source/columns.cc:17-24 | when every column is full one more cell does not fit |
| Grid.DealPosition | source/columns.cc:112-120 | the cell at row `r` of column `c` is cell number `c * rows + r`, and it exists exactly when there are that many cells |
| Grid.ColumnWidths | source/columns.hh:29-34 | one width per column, each the widest claim among that column's cells |
| Grid.GridWidth | source/columns.cc:72-79 | `total_width()` in 64-bit unsigned arithmetic: below 2^64, and a single column is exactly as wide as its widest cell |
| Grid.NewColumnCount | source/columns.cc:81-89 | `new_column_count()` with the `float` ceiling taken exactly; its bounds are those of `Grid.NewColumnCountBounds` |
| Grid.ElementFor | source/columns.cc:11-15 | the cell `add` makes for a file, as `Grid.Columns.CellFor` computes it |
| Grid.OldCapacityCovers | source/columns.cc:83-87 | the old capacity is never below the capacity of half the columns, so the `unsigned` difference does not wrap |
| Grid.NewColumnCountBounds | source/columns.cc:81-89 | the new column count is `o - o / rows`: never more columns than before, and enough to hold every cell the old columns could |
| Grid.NewCapacityCovers | source/columns.cc:81-110 | every cell that fitted the old columns of one row fewer fits the new ones |
| Grid.Columns.Widths | source/columns.cc:75-76 | one cached width per column, in order |
| Grid.Columns.constructor | source/columns.cc:3-7 | a new grid has no columns, one row and no quoted cell |
| Grid.Columns.FirstOpen | source/columns.cc:17-19 | the index found is the first column holding fewer than `rows` cells, or the column count when all are full |
| Grid.Columns.TotalWidth | source/columns.cc:72-79 | the loop computes the sum of the column widths plus the gaps between columns, one wider with a quoted cell |
| Grid.Columns.Print | source/columns.cc:40-70 | `rows` lines, each holding what every column shows in that row |
| Grid.Columns.Next | source/columns.cc:112-120 | the next position is one further in column-major order, moving to the top of the next column after the last row |
| Grid.Columns.Add | source/columns.cc:9-38 | the file's cell is appended to the cells in reading order and the quoted flag is kept up; the grid gains one row exactly when the width of the columns after placing (their widest cells, the gaps, one more with a quoted cell) reaches the terminal width, and the column count is then `new_column_count()` of the columns after placing, and otherwise that count; the grid stays valid |
| Grid.Columns.CellFor | source/columns.cc:11-15 | the cell built for a file is the one `add` defines: display width plus one for an indicator with classification on (the default; `-F` / `--no-classify` turn it off), quoted under default quoting when the name starts and ends with the same quote |
| Grid.Columns.GrowIfWide | source/columns.cc:33-37 | a row is added, and the cells dealt again, exactly when the grid is at least as wide as the terminal; otherwise nothing changes |
| Grid.Columns.WidthsOfValid | source/columns.cc:72-79 | the cached column widths of a valid grid are the widest cells of its dealt columns |
| Grid.Columns.Grow | source/columns.cc:33-37 | growing adds one row and deals every cell again into `new_column_count()` columns, keeping the cells and the grid valid |
| Grid.Columns.Place | source/columns.cc:17-28 | placing appends the cell to the grid's cells and keeps it valid; the column count grows by one exactly when every column was full |
| Grid.Columns.AppendColumn | source/columns.cc:21-24 | with every column full, one new column holding only the cell is added after the unchanged old ones, keeping the grid valid |
| Grid.Columns.NewColumn | source/columns.cc:23 | `emplace_back().add(...)` yields a fresh column holding exactly the cell, with its width cached |
| Grid.Columns.AddToColumn | source/columns.cc:25-28 | the cell goes at the end of the first column with room, keeping the same columns and the grid valid |
| Grid.Columns.Reorder | source/columns.cc:91-110 | every cell is dealt again, in reading order, into `new_column_count()` fresh columns of `rows` cells, keeping the grid valid |
| Grid.Columns.Redeal | source/columns.cc:95-107 | `n` fresh columns hold every cell dealt in reading order into columns of `rows` |
| Grid.Columns.DealAll | source/columns.cc:99-107 | the nested loops deal every old cell, in reading order, into the new columns |
| Grid.Columns.DealColumn | source/columns.cc:102-106 | the inner loop deals the cells of one old column, in order |
| Grid.Columns.DealCell | source/columns.cc:104-105 | one cell goes to the current position, which then moves on |
| Grid.Columns.NewColumns | source/columns.cc:95-97 | `n` fresh, empty columns |
| Grid.PrintShowsCells | source/columns.cc:44-69 | row `r` of column `c` shows cell number `c * rows + r` when there is one; a missing cell shows nothing except `...` in the last row of the last column; every column but the last is padded to at least the cell's width and followed by the separator |
| Glob.RangeScan | source/match.cc:15-33 | when the member loop stops it stops on a `]` at or after where it started |
| Glob.RangeResult | source/match.cc:3-36 | a non-zero result points just past a `]` of the bracket |
| Glob.RangeMatch | source/match.cc:3-36 | the loop returns 0 for a byte the bracket rejects and the offset past the `]` for one it accepts, as the scan defines them |
| Glob.SkipStars | source/match.cc:56-57 | the index past the run of `*`: everything skipped is `*` and the byte after is not |
| Glob.Match | source/match.cc:38-96 | the loop answers whether the whole string matches the pattern |
| Glob.Matches | source/match.cc:38-96 | `match`: whether the whole string matches, or nothing where the matcher would read past a terminator; `Glob.Match` computes it by the loop |
| Glob.MatchFrom | source/match.cc:40-95 | the main loop from one pattern index and one string index; `Glob.NoMatchPastEnd` and `Glob.MatchConsumesAll` bound it |
| Glob.StarLoop | source/match.cc:60-66 | the `*` search, which `Glob.StarSearch` and `Glob.StarLoopSearches` characterise as an existential over start indices |
| Glob.MatchStar | source/match.cc:60-66 | the `*` loop answers whether the rest of the pattern matches some suffix of the string starting before its end |
| Glob.SingleItemsMatch | source/match.cc:45-52 | a pattern of `?` and plain bytes matches exactly the strings of its length that agree with it at every plain byte |
| Glob.LiteralMatchesItself | source/match.cc:83-92 | a pattern of plain bytes matches exactly itself |
| Glob.TrailingStarsMatchAnyRest | source/match.cc:54-59 | after single-byte items, a run of trailing `*` accepts whatever is left of the string, even nothing |
| Glob.StarSearch | source/match.cc:54-67 | a non-trailing `*` matches exactly when the pattern after the stars matches the string from some index between the current one and the last byte |
| Glob.StarLoopSearches | source/match.cc:60-66 | the `*` loop succeeds exactly when the rest matches from some index between `m` and the last byte |
| Glob.EscapedMatchesItself | source/match.cc:85-86 | a backslash makes the next byte literal: a pattern with every byte escaped matches only the bytes it spells |
| Glob.BracketMembers | source/match.cc:3-36 | handed the view from the `[`, a bracket of plain members accepts its members and the `[` itself, and a match advances past the `]` |
| Glob.BracketMatchesOneByte | source/match.cc:70-81 | as written, a bracket of plain members matches one byte that is a member or `[` |
| Glob.BracketRange | source/match.cc:19-24 | a range `a-c` accepts the bytes between its ends as signed `char`s; as written `[` and the first end are members too |
| Glob.NegationNeverFires | source/match.cc:9-13 | as written `[!a]` matches `a`, `!` and `[`, and not `b` |
| Glob.IntendedBracket | source/match.cc:3-36 | handed the view after the `[`, a bracket of plain members matches one byte that is a member, or one that is not when it opens with `!` or `^` |
| Glob.IntendedRange | source/match.cc:3-36 | handed the view after the `[`, the bracket accepts exactly its members, complemented by a leading `!` or `^` |
| Glob.NoMatchPastEnd | source/match.cc:38-96 | once the string index is past the end no match can succeed |
| Glob.MatchConsumesAll | source/match.cc:95 | a pattern without `*` that matches a string does not match it with one more byte: the whole string must be consumed |
| Args.IndexOf | source/args.cc:263 | `find('$', i)`: the first `$` at or after `i`, or the end when there is none |
| Args.FieldIndex | source/args.cc:234-235 | the index of a field letter in `field_chars`, found exactly when the letter is one |
| Args.FieldCharsDistinct | source/args.hh:50 | the field letters are all different, so a letter names one field |
| Args.ParseFromSuffix | source/args.cc:230-269 | the index-stepping loop appends to what it was given exactly the columns the parse of the rest yields, and succeeds when that does |
| Args.ParseLongFormat | source/args.cc:227-271 | the method succeeds exactly when the format parses, and appends the columns of the parse, including those before a failing `$` |
| Args.ParseColumns | source/args.cc:227-271 | the template parse, which `Args.ParseIsRenderInverse` proves the inverse of rendering |
| Args.ParseRoundTrip | source/args.cc:227-271 | every successful parse is canonical (known fields at most once each, maximal `$`-free texts) and renders back to the format it came from |
| Args.FieldRoundTrip | source/args.cc:232-260 | the round trip for a format that starts with `$` |
| Args.TextRoundTrip | source/args.cc:261-268 | the round trip for a format that starts with text |
| Args.RenderParses | source/args.cc:227-271 | a canonical column list is what parsing its rendering gives back |
| Args.ParseIsRenderInverse | source/args.cc:227-271 | the template language is a bijection: a format parses to `cols` exactly when `cols` is canonical and renders to the format |
| Args.SuccessMeansKnownFields | source/args.cc:234-251 | in a format that parses every `$` is followed by a field letter: an unknown letter, `$$` or a trailing `$` makes parsing fail |
| Args.FailureKeepsPrefix | source/args.cc:227-271 | when parsing fails, the columns already appended render the format up to the offending `$`, which comes next |
| Args.NoDollarIsOneText | source/args.cc:261-268 | a format without `$` is one text column, and the empty format no column |
| Args.RepeatedFieldRejected | source/args.cc:252-257 | a field letter used twice makes the format fail, wherever the two copies stand |
| Args.FieldColumnAt | source/args.cc:232-260 | a `$` at some offset of a rendered canonical list begins a field column, whose letter is the next byte |
| Args.Arguments.constructor | source/args.cc:7-24 | the settings start at the initial values of the globals |
| Args.Apply | source/args.cc:37-66 | an option that takes no argument changes the one setting it names: the sort mode only for a sort option, and never the width, the format columns or the colour |
| Args.ShortOptKnowsFlags | source/args.cc:37-66 | a letter is rejected exactly when it is not one of the twenty known ones; a known letter changes the sort mode exactly when it is one of `vSXtUn`, to the mode it names |
| Args.ShortOpt | source/args.cc:37-66 | `handle_short_opt` on values: `Args.ShortOptKnowsFlags` states which letters it accepts and which set the sort mode |
| Args.ShortCluster | source/args.cc:209-214 | a cluster of short letters in order: `Args.ClusterSortMode` and `Args.ClusterRejectsUnknown` state its outcome |
| Args.ClusterSortMode | source/args.cc:209-214 | a cluster of known letters succeeds, and the sort mode is the one the last sort letter in it names |
| Args.ClusterRejectsUnknown | source/args.cc:209-214 | a cluster fails exactly when one of its letters is unknown |
| Args.StrToUL | source/args.cc:159 | `strtoul` yields a value below 2^64 and consumes at most the argument, nothing when the value is 0 for lack of digits |
| Args.StrToULDecimal | source/args.cc:159 | `strtoul` reads the decimal spelling of a number below 2^64 back whole and exactly |
| Args.SplitLong | source/args.cc:70-73 | the option name holds no `=` |
| Args.SplitAtEquals | source/args.cc:70-73 | `--name=arg` splits into `name` and `arg`, and `--name` into `name` and nothing |
| Args.DecimalWidth | source/args.cc:155-171 | `--width=N` with `N` in decimal stores `N` cut to 32 bits, and fails exactly when that is 0 |
| Args.MinusOneWraps | source/args.cc:159 | `strtoul` reads `-1` whole as 2^64 - 1 |
| Args.NegativeWidthWraps | source/args.cc:155-171 | `--width=-1` is accepted, as the largest 32-bit width |
| Args.WidthNeedsWholeArgument | source/args.cc:161-170 | `--width` fails when `strtoul` leaves part of its argument unread |
| Args.SortOptionValues | source/args.cc:131-154 | `--sort` succeeds exactly for `none`, `extension`, `size`, `time` and `version`; `name` is refused |
| Args.ColorOptionValues | source/args.cc:110-130 | `--color` succeeds exactly for nothing, `always`, `yes`, `never`, `no`, `auto` and `tty`, turning colour on for the first three, off for the next two and to the terminal test for the last two; bare `--color` turns it on |
| Args.FlagIgnoresArgument | source/args.cc:93-108 | a long option that takes no argument does the same with `=arg` as without it |
| Args.FormatOptionAppends | source/args.cc:172-177 | `--format` succeeds exactly when the template parses, appends its columns after those of earlier `--format` options, and what it appended renders back to the template |
| Args.LongOpt | source/args.cc:68-186 | `handle_long_opt` on values: the `--sort`, `--color`, `--width` and `--format` lemmas above state what it accepts and sets |
| Args.ScanFromSuffix | source/args.cc:195-222 | the index-stepping scan appends to what it was given exactly the file arguments the whole scan lists |
| Args.FilesAreOperands | source/args.cc:195-222 | with `--` dropped, a command line that parses yields exactly its operands (arguments not starting with `-` before `--`, everything after it) as file arguments |
| Args.ScanArgs | source/args.cc:188-225 | the option loop and the copying loop of `parse_args` on values: `Args.FilesAreOperands`, `Args.SeparatorBecomesFile` and `Args.NoOptionsAllFiles` state which arguments it lists |
| Args.SeparatorBecomesFile | source/args.cc:200-203 | as written, `lst --` lists the file `--`, which is no operand |
| Args.NoOptionsAllFiles | source/args.cc:195-222 | a command line without options keeps the settings and lists every argument in order |
| Args.Arguments.HandleShortOpt | source/args.cc:37-66 | a known letter sets what it names; an unknown one fails and changes nothing |
| Args.Arguments.HandleLongOpt | source/args.cc:68-186 | the outcome and new settings are those of the long-option rules, including what a failing `--width` or `--format` leaves changed |
| Args.Arguments.HandleCluster | source/args.cc:209-214 | the letters are handled in order, stopping at the first unknown one |
| Args.Arguments.ParseArgs | source/args.cc:188-225 | the status, the settings and the file arguments appended are those of the scan of the command line from its first argument |
| Legacy.HasSpecial | Source/lst.cpp:57-61 | the AUTO scan reports a special byte exactly when the name holds a space, a `'`, a `"` or a NUL |
| Legacy.QuoteAlwaysWraps | Source/lst.cpp:64-68 | ALWAYS output is the name, unescaped, between two equal quotes (two bytes longer); the quote is `'` exactly when the name holds a `"`, so a `"` quote never occurs inside |
| Legacy.BothQuotesAmbiguous | Source/lst.cpp:65-66 | a name holding both kinds of quote is wrapped in `'` and keeps a `'` inside, so the quoting cannot be read back |
| Legacy.QuoteAutoFallsThrough | Source/lst.cpp:56-64 | AUTO gives the ALWAYS output exactly for names with a special byte and the name itself exactly for the others |
| Legacy.QuoteKeepsName | Source/lst.cpp:53-72 | every style gives the name or the name between two quotes; NEVER gives the name |
| Legacy.Quote | Source/lst.cpp:53-72 | the snapshot's `Quote`, characterised by the four lemmas above |
| Legacy.FirstFlagged | Source/FileInfo.cpp:15-19 | the index found is the first kind, in table order, whose flag is set, or the kind count when none is |
| Legacy.KindOf | Source/FileInfo.cpp:15-34 | the kind the constructor derives, flags first and extension second; `Legacy.AttributesDecideFirst` and `Legacy.ExtensionDecides` state the rule |
| Legacy.NewFileInfo | Source/FileInfo.cpp:4-50 | the constructor derives the kind from the flags first and the extension second, copies name and times, stores the low 32 bits of the size, sets `Hidden` by the rule, and sets `LinkOK` exactly for a link whose target resolves |
| Legacy.NarrowedSize | Source/FileInfo.cpp:8 | narrowing `high * 2^32 + low` to a `DWORD` keeps `low` |
| Legacy.AttributesDecideFirst | Source/FileInfo.cpp:15-21 | a kind comes from the flags exactly when one of the five deciding flags is set, and a directory flag always gives Directory, whatever the name |
| Legacy.FlaggedKind | Source/FileInfo.cpp:16 | only Directory, Link, System, Virtual and Device have a flag in the table |
| Legacy.ExtensionDecides | Source/FileInfo.cpp:21-34 | without a deciding flag, a name without `.` is Unknown, and a name whose last `.` is followed by exactly `exe` (`lnk`) is Executable (a Shortcut) |
| Legacy.LastDotOfExtension | Source/FileInfo.cpp:22-28 | for an extension without `.`, the text after the last `.` equals it exactly when the name ends in `.` and it |
| Legacy.HiddenRule | Source/FileInfo.cpp:12 | a file is hidden exactly when the HIDDEN flag is set or the name starts with `.` |
| Legacy.UpperCaseExtensionIsNormal | Source/FileInfo.cpp:26-30 | the extension test is case-sensitive: `S.EXE` stays Normal |
| Legacy.BeforeAsymmetric | Source/lst.cpp:23-42 | no comparator holds both ways |
| Legacy.NotBeforeTransitive | Source/lst.cpp:23-42 | "not before" is transitive for every comparator, so each is a strict weak order as `std::sort` demands |
| Legacy.Before | Source/lst.cpp:18-45 | the comparator of each mode, a strict weak order by `Legacy.BeforeAsymmetric` and `Legacy.NotBeforeTransitive` |
| Legacy.SortDir | Source/lst.cpp:18-45 | `SORT_NONE` leaves the entries as they are; every mode leaves a reordering, and the sorting modes one in which no entry comes before an earlier one |
| Legacy.SinkStep | Source/lst.cpp:19 | one swap moves the entry being placed down past one it comes before, keeping the rest in order |
| Legacy.SinkDone | Source/lst.cpp:19 | when the entry being placed stops, the prefix is ordered |
| Legacy.Sink | Source/lst.cpp:19 | placing the next entry extends the ordered prefix by one and only reorders the entries |

## Left out

- Metadata retrieval and I/O: directory iteration (`list_dir`, `list_file`, the snapshot's `List`), `fs::file_size`, `last_write_time`, link counts, `read_symlink`, `get_owner_and_group`, shortcut targets, the Win32 link resolution of the `FileInfo` constructor (its outcome is the `resolved` parameter of `NewFileInfo`; the resolved path is discarded and `LinkName` stays empty, so the record has no such field), and `complain`. These are foreign calls; their results are fields of the file records or parameters.
- Output: colours (`file_color`, `file_indicator_color`, the console colour calls of the snapshot's `OutputFile`), and the actual writes of `print_file_name`, `print_long`, `print_single_column` and `Columns::print`. `Grid.Columns.Print` returns what each row and column shows instead of writing it.
- Human-readable sizes (`print_size`, floating point) and date formatting (`localtime`, `strftime`, the six-months rule): floating point and the C library clock.
- Process wiring: `main`, the option tables of the snapshot, the terminal size query, the `usage` text and `exit` of `--help` (modelled as the status `Exit`), error messages and `G_program`.
- The `locale`-based `isprint` is modelled as printable ASCII (0x20 to 0x7e), the test the code applies to codepoints below 0x80.
- `path_to_str` and the other encoding conversions of paths.
- Sorting.SortFiles: returns the sorted list instead of sorting `FileList` in place, and stands `std::list::sort` by a stable insertion sort. Both are stable, so they agree for a strict weak order; for the case-insensitive and time comparators, which are not strict weak orders, the model claims only that the result is a reordering of the input.
- Sorting.SortFiles: the static comparator cache of `sort_files`, which keeps the first call's comparator for later calls, is not modelled; every call builds the comparator of its own options.
- Legacy.SortDir: `std::sort` (an introsort) is stood by an insertion sort on the array. The contract claims what `std::sort` promises, a reordering in comparator order, and nothing about the order of equal keys.
- Files.LongWidths: the size column is measured as the decimal digits of the size, as `print_size` writes it without `-h`; the human-readable width is left out with `print_size`.
- Frills.EscapedBodyRoundTrip: the read-back is proved for the `Show` nongraphic mode only; `Hide` maps every control character to `?` and cannot be read back, and `Escape` adds escape sequences the unescaping does not undo.
- Unicode.DisplayWidth: takes a string of whole codepoints (`Framed`); on a string ending in a truncated sequence the source reads past its end.
- Glob.Match: takes a pattern and string on which the matcher does not read past a terminator (`Matches(...).Some?`), for example an unclosed `[`.
- NaturalSort.CompareNonDigitChar: `std::ispunct` is taken as 0 or 1 on the byte; the C library returns an implementation-defined non-zero value and is undefined for a negative `char`, so only the sign of the punctuation step matches the source.
- NaturalSort.CompareNonDigit: the length difference is kept exact instead of being computed in `size_t` and narrowed to `int`; the two agree while the lengths differ by less than 2^31.
- NaturalSort.NaturalCompare: defined only where the source is (`Defined`): not both names empty, and equal non-digit prefixes followed by digits in both names.
- `QUOTE_AUTO`, `QUOTE_ALWAYS` and `QUOTE_NEVER` are not defined anywhere in the snapshot; the model gives them the enumeration `Legacy.QuoteStyle`.
- Grid.NewColumnCount: `new_column_count` takes the ceiling of a `float` quotient; the model takes the exact ceiling, so it agrees with the code only while the old capacity stays within the integers a `float` represents exactly (below 2^24).
- Grid.Columns.Add: the entry's width comes from `display_width`, which needs a name of whole codepoints; names with a truncated final sequence are excluded.

## Findings

| source | as written | input that shows it | evidently intended | confidence | as-written member | corrected member |
|---|---|---|---|---|---|---|
| source/natural_sort.cc:48-51 | the unsigned difference of the two digit runs is returned through a 32-bit `int` | `natural_compare("a2147483648", "a0")` and `natural_compare("a0", "a2147483648")` are both negative | digit runs ordered by their numeric value | not executed | NaturalSort.TruncatedDifference | NaturalSort.UntruncatedOrder |
| source/lst.cc:165-166 | the chosen quote character inside a name is replaced by a lone backslash | the names `a"b'c` and `a"b\c` are both shown as `'a"b\c'` | the backslash followed by the quote character, so the display can be read back | not executed | Frills.QuoteCharDropped | Frills.FrilledEscapedRoundTrip |
| source/lst.cc:639-640 | the width of a link counts the link's indicator a second time after the target | a link `l` to a regular file `f`, listed without `-F`, is measured 8 columns wide while `l@ -> f` takes 7 | the target's own indicator, as `print_file_name` prints it | not executed | Files.LinkWidthOvercounts | Files.FixedWidthIsPrintedWidth |
| source/match.cc:72 | `range_match` is handed the pattern from the `[`, so its test for `!` or `^` at index 0 never fires and `[` is a member | `[!a]` matches `a`, `!` and `[` | the view after the `[`, where a leading `!` or `^` negates the bracket | not executed | Glob.NegationNeverFires | Glob.IntendedBracket |
| source/args.cc:200-203 | the option loop breaks at `--` and the copying loop starts at that same index | `lst --` lists a file named `--` | only the arguments after `--` are files | not executed | Args.SeparatorBecomesFile | Args.FilesAreOperands |

=== FILE: args.dfy ===
/**
 * Command-line parsing: the `--format` template of the long listing, the
 * short and long option handlers, and the argument loop that folds argv into
 * the `Arguments` settings and a list of file arguments.
 */
module Args {
  import opened Common
  import opened Options

  const DOLLAR: char := '$'
  const DASH: char := '-'
  const EQUALS: char := '='
  const PLUS: char := '+'
  const NUL: char := '\0'

  /**
   * The character at `k` of an argument, which is a view into a
   * NUL-terminated C string: one past the end reads as the NUL.
   */
  function CharAt(s: string, k: nat): char
    requires k <= |s|
  {
    if k < |s| then s[k] else NUL
  }

  /** `LongColumn::field_chars`: the letter naming each field column, in enum order. */
  const FIELD_CHARS: string := "tpPlogsdn"

  /**
   * One column of the long listing: a field, by its index into `FIELD_CHARS`
   * (type indicator, rwx permissions, octal permissions, link count, owner,
   * group, size, date, name), or a piece of literal text.
   */
  datatype LongColumn = Field(index: nat) | Text(text: string)

  /** The first index of `b` in `s` at or after `from`, or `|s|` (`npos`). */
  function IndexOf(s: string, b: char, from: nat): (e: nat)
    requires from <= |s|
    ensures from <= e <= |s|
    ensures e < |s| ==> s[e] == b
    ensures forall k :: from <= k < e ==> s[k] != b
    decreases |s| - from
  {
    if from == |s| || s[from] == b then from else IndexOf(s, b, from + 1)
  }

  /** `field_chars.find(c)`. */
  function FieldIndex(c: char): (r: Option<nat>)
    ensures r.Some? ==> r.value < |FIELD_CHARS| && FIELD_CHARS[r.value] == c
    ensures r.None? <==> c !in FIELD_CHARS
  {
    var k := IndexOf(FIELD_CHARS, c, 0);
    if k < |FIELD_CHARS| then Some(k) else None
  }

  lemma FieldCharsDistinct()
    ensures forall i, j :: 0 <= i < j < |FIELD_CHARS| ==> FIELD_CHARS[i] != FIELD_CHARS[j]
  {
  }

  // ---------------------------------------------------------------------
  // The format template

  /**
   * What `parse_long_format` does with the rest `f` of the format, given the
   * fields `has` already seen: whether it succeeds and the columns it
   * appends. A `$` as the last byte reads the terminating NUL, which is not
   * a field letter.
   */
  function ParseColumns(f: string, has: set<nat>): (r: (bool, seq<LongColumn>))
    decreases |f|
  {
    if f == [] then (true, [])
    else if f[0] == DOLLAR then
      var idx := FieldIndex(CharAt(f, 1));
      if idx.None? || idx.value in has then (false, [])
      else
        var rest := ParseColumns(f[2..], has + {idx.value});
        (rest.0, [Field(idx.value)] + rest.1)
    else
      var e := IndexOf(f, DOLLAR, 0);
      if e == |f| then (true, [Text(f)])
      else
        var rest := ParseColumns(f[e..], has);
        (rest.0, [Text(f[..e])] + rest.1)
  }

  function Parse(format: string): (bool, seq<LongColumn>)
  {
    ParseColumns(format, {})
  }

  /** The bytes a column stands for in a format: `$` and its letter, or the text. */
  function Spelling(c: LongColumn): string
  {
    match c
    case Field(k) => if k < |FIELD_CHARS| then [DOLLAR, FIELD_CHARS[k]] else []
    case Text(t) => t
  }

  function Render(cols: seq<LongColumn>): string
  {
    if cols == [] then [] else Spelling(cols[0]) + Render(cols[1..])
  }

  /**
   * The column lists a format can denote: known fields, each at most once
   * and none in `has`; texts that are non-empty, hold no `$`, and are never
   * next to each other (each is a maximal run of the format).
   */
  predicate CanonicalAvoiding(cols: seq<LongColumn>, has: set<nat>)
  {
    && (forall i :: 0 <= i < |cols| && cols[i].Field? ==>
          cols[i].index < |FIELD_CHARS| && cols[i].index !in has)
    && (forall i, j :: 0 <= i < j < |cols| && cols[i].Field? && cols[j].Field? ==>
          cols[i].index != cols[j].index)
    && (forall i :: 0 <= i < |cols| && cols[i].Text? ==>
          cols[i].text != [] && DOLLAR !in cols[i].text)
    && (forall i :: 0 <= i < |cols| - 1 ==> !(cols[i].Text? && cols[i + 1].Text?))
  }

  predicate Canonical(cols: seq<LongColumn>)
  {
    CanonicalAvoiding(cols, {})
  }

  /**
   * `ParseColumns` as `parse_long_format` runs it: stepping through `f` by
   * index from `i`, with the columns `acc` appended so far, to whether it
   * succeeds and all the columns appended when it stops.
   */
  function ParseFrom(f: string, i: nat, has: set<nat>, acc: seq<LongColumn>): (bool, seq<LongColumn>)
    requires i <= |f|
    decreases |f| - i
  {
    if i == |f| then (true, acc)
    else if f[i] == DOLLAR then
      var idx := FieldIndex(CharAt(f, i + 1));
      if idx.None? || idx.value in has then (false, acc)
      else ParseFrom(f, i + 2, has + {idx.value}, acc + [Field(idx.value)])
    else
      var e := IndexOf(f, DOLLAR, i);
      if e == |f| then (true, acc + [Text(f[i..])])
      else ParseFrom(f, e, has, acc + [Text(f[i..e])])
  }

  lemma {:induction false} ParseFromSuffix(f: string, i: nat, has: set<nat>, acc: seq<LongColumn>)
    requires i <= |f|
    ensures ParseFrom(f, i, has, acc) == (ParseColumns(f[i..], has).0, acc + ParseColumns(f[i..], has).1)
    decreases |f| - i
  {
    var g := f[i..];
    if i < |f| {
      if f[i] == DOLLAR {
        assert CharAt(g, 1) == CharAt(f, i + 1);
        var idx := FieldIndex(CharAt(f, i + 1));
        if idx.Some? && idx.value !in has {
          var has', acc' := has + {idx.value}, acc + [Field(idx.value)];
          assert g[2..] == f[i + 2..];
          var rest := ParseColumns(g[2..], has');
          assert ParseColumns(g, has) == (rest.0, [Field(idx.value)] + rest.1);
          ParseFromSuffix(f, i + 2, has', acc');
          assert acc' + rest.1 == acc + ([Field(idx.value)] + rest.1);
        } else {
          assert ParseColumns(g, has) == (false, []);
          assert acc + [] == acc;
        }
      } else {
        var e := IndexOf(f, DOLLAR, i);
        IndexOfShift(f, DOLLAR, i);
        if e < |f| {
          var acc' := acc + [Text(f[i..e])];
          assert g[e - i..] == f[e..];
          assert g[..e - i] == f[i..e];
          var rest := ParseColumns(g[e - i..], has);
          assert ParseColumns(g, has) == (rest.0, [Text(f[i..e])] + rest.1);
          ParseFromSuffix(f, e, has, acc');
          assert acc' + rest.1 == acc + ([Text(f[i..e])] + rest.1);
        } else {
          assert ParseColumns(g, has) == (true, [Text(g)]);
        }
      }
    } else {
      assert ParseColumns(g, has) == (true, []);
      assert acc + [] == acc;
    }
  }

  /**
   * `parse_long_format`: appends the columns of `format` to `out0`. On
   * failure the columns before the offending `$` stay appended.
   */
  method ParseLongFormat(format: string, out0: seq<LongColumn>) returns (ok: bool, out: seq<LongColumn>)
    ensures ok == Parse(format).0
    ensures out == out0 + Parse(format).1
  {
    ParseFromSuffix(format, 0, {}, out0);
    assert format[0..] == format;
    var has: set<nat> := {};
    var i := 0;
    out := out0;
    while i < |format|
      invariant i <= |format|
      invariant ParseFrom(format, 0, {}, out0) == ParseFrom(format, i, has, out)
    {
      if format[i] == DOLLAR {
        i := i + 1;
        var idx := FieldIndex(CharAt(format, i));
        if idx.None? || idx.value in has {
          ok := false;
          return;
        }
        out := out + [Field(idx.value)];
        has := has + {idx.value};
      } else {
        var end := IndexOf(format, DOLLAR, i);
        out := out + [Text(format[i..end])];
        if end == |format| {
          assert format[i..end] == format[i..];
          ok := true;
          return;
        }
        i := end - 1;
      }
      i := i + 1;
    }
    ok := true;
  }

  lemma IndexOfShift(s: string, b: char, i: nat)
    requires i <= |s|
    ensures IndexOf(s[i..], b, 0) == IndexOf(s, b, i) - i
  {
    var e := IndexOf(s, b, i);
    var t := s[i..];
    IndexOfIsFirst(t, b, 0, e - i);
  }

  lemma IndexOfIsFirst(s: string, b: char, from: nat, e: nat)
    requires from <= e <= |s|
    requires e < |s| ==> s[e] == b
    requires forall k :: from <= k < e ==> s[k] != b
    ensures IndexOf(s, b, from) == e
    decreases e - from
  {
    if from < e {
      IndexOfIsFirst(s, b, from + 1, e);
    }
  }

  /** The rendering of a list is its first column's spelling before the rest's rendering. */
  lemma RenderCons(c: LongColumn, rest: seq<LongColumn>)
    ensures Render([c] + rest) == Spelling(c) + Render(rest)
  {
    assert ([c] + rest)[1..] == rest;
  }

  /** A new field in front of a canonical list that avoids it keeps the list canonical. */
  lemma CanonicalField(k: nat, rest: seq<LongColumn>, has: set<nat>)
    requires k < |FIELD_CHARS| && k !in has && CanonicalAvoiding(rest, has + {k})
    ensures CanonicalAvoiding([Field(k)] + rest, has)
  {
    var cols := [Field(k)] + rest;
    forall i | 0 < i < |cols|
      ensures cols[i] == rest[i - 1]
    {
    }
  }

  /** A `$`-free text in front of a canonical list that starts with a field keeps it canonical. */
  lemma CanonicalText(t: string, rest: seq<LongColumn>, has: set<nat>)
    requires t != [] && DOLLAR !in t && CanonicalAvoiding(rest, has) && (rest == [] || rest[0].Field?)
    ensures CanonicalAvoiding([Text(t)] + rest, has)
  {
    var cols := [Text(t)] + rest;
    forall i | 0 < i < |cols|
      ensures cols[i] == rest[i - 1]
    {
    }
  }

  /**
   * Every successful parse is canonical and renders back to the format it
   * came from.
   */
  lemma {:induction false} ParseRoundTrip(f: string, has: set<nat>)
    ensures ParseColumns(f, has).0 ==>
      CanonicalAvoiding(ParseColumns(f, has).1, has) && Render(ParseColumns(f, has).1) == f
    decreases |f|, 1
  {
    if f != [] && ParseColumns(f, has).0 {
      if f[0] == DOLLAR {
        FieldRoundTrip(f, has);
      } else {
        TextRoundTrip(f, has);
      }
    }
  }

  /** `ParseRoundTrip` for a format that starts with a field. */
  lemma {:induction false} FieldRoundTrip(f: string, has: set<nat>)
    requires f != [] && f[0] == DOLLAR && ParseColumns(f, has).0
    ensures CanonicalAvoiding(ParseColumns(f, has).1, has) && Render(ParseColumns(f, has).1) == f
    decreases |f|, 0
  {
    var k := FieldIndex(CharAt(f, 1)).value;
    ParseRoundTrip(f[2..], has + {k});
    var rest := ParseColumns(f[2..], has + {k}).1;
    CanonicalField(k, rest, has);
    RenderCons(Field(k), rest);
    assert f == [DOLLAR, FIELD_CHARS[k]] + f[2..];
  }

  /** `ParseRoundTrip` for a format that starts with text. */
  lemma {:induction false} TextRoundTrip(f: string, has: set<nat>)
    requires f != [] && f[0] != DOLLAR && ParseColumns(f, has).0
    ensures CanonicalAvoiding(ParseColumns(f, has).1, has) && Render(ParseColumns(f, has).1) == f
    decreases |f|, 0
  {
    var e := IndexOf(f, DOLLAR, 0);
    if e == |f| {
      assert ParseColumns(f, has) == (true, [Text(f)]);
      RenderCons(Text(f), []);
    } else {
      var r := ParseColumns(f[e..], has);
      assert ParseColumns(f, has) == (r.0, [Text(f[..e])] + r.1);
      ParseRoundTrip(f[e..], has);
      var rest := r.1;
      assert rest != [] && rest[0].Field? by {
        assert f[e..][0] == DOLLAR;
      }
      CanonicalText(f[..e], rest, has);
      RenderCons(Text(f[..e]), rest);
      assert f == f[..e] + f[e..];
    }
  }

  /** A canonical column list is what parsing its rendering gives back. */
  lemma {:induction false} RenderParses(cols: seq<LongColumn>, has: set<nat>)
    requires CanonicalAvoiding(cols, has)
    ensures ParseColumns(Render(cols), has) == (true, cols)
    decreases |cols|
  {
    if cols != [] {
      var f := Render(cols);
      var rest := cols[1..];
      assert CanonicalAvoiding(rest, has) by {
        forall i | 0 <= i < |rest| - 1
          ensures !(rest[i].Text? && rest[i + 1].Text?)
        {
          assert rest[i] == cols[i + 1] && rest[i + 1] == cols[i + 2];
        }
      }
      match cols[0]
      case Field(k) =>
        assert f == [DOLLAR, FIELD_CHARS[k]] + Render(rest);
        assert f[2..] == Render(rest);
        FieldCharsDistinct();
        assert FieldIndex(CharAt(f, 1)) == Some(k);
        assert k !in has && f[0] == DOLLAR;
        assert CanonicalAvoiding(rest, has + {k}) by {
          forall i | 0 <= i < |rest| && rest[i].Field?
            ensures rest[i].index != k
          {
            assert rest[i] == cols[i + 1];
          }
        }
        RenderParses(rest, has + {k});
        assert cols == [Field(k)] + rest;
      case Text(t) =>
        assert f == t + Render(rest);
        assert t[0] != DOLLAR;
        assert f[0] == t[0];
        if rest == [] {
          assert f == t;
          IndexOfIsFirst(f, DOLLAR, 0, |t|);
          assert ParseColumns(f, has) == (true, [Text(f)]);
          assert [Text(f)] == cols;
        } else {
          assert rest[0].Field? by {
            assert !(cols[0].Text? && cols[1].Text?);
          }
          assert Render(rest) == [DOLLAR, FIELD_CHARS[rest[0].index]] + Render(rest[1..]);
          assert f[|t|] == DOLLAR;
          IndexOfIsFirst(f, DOLLAR, 0, |t|);
          assert f[..|t|] == t;
          assert f[|t|..] == Render(rest);
          RenderParses(rest, has);
          assert ParseColumns(f, has) == (true, [Text(t)] + rest);
        }
        assert cols == [Text(t)] + rest;
    }
  }

  /**
   * The format template is a bijection: parsing succeeds with `cols` exactly
   * when `cols` is canonical and renders to the format.
   */
  lemma ParseIsRenderInverse(f: string, cols: seq<LongColumn>)
    ensures Parse(f) == (true, cols) <==> Canonical(cols) && Render(cols) == f
  {
    ParseRoundTrip(f, {});
    if Canonical(cols) && Render(cols) == f {
      RenderParses(cols, {});
    }
  }

  /**
   * Every `$` of a format that parses is followed by a field letter: an
   * unknown letter, `$$` or a trailing `$` makes parsing fail.
   */
  lemma {:induction false} SuccessMeansKnownFields(f: string, has: set<nat>, k: nat)
    requires ParseColumns(f, has).0
    requires k < |f| && f[k] == DOLLAR
    ensures k + 1 < |f| && f[k + 1] in FIELD_CHARS
    decreases |f|
  {
    if f[0] == DOLLAR {
      var idx := FieldIndex(CharAt(f, 1)).value;
      if k >= 2 {
        assert f[2..][k - 2] == f[k];
        SuccessMeansKnownFields(f[2..], has + {idx}, k - 2);
      }
    } else {
      var e := IndexOf(f, DOLLAR, 0);
      assert e <= k;
      assert f[e..][k - e] == f[k];
      SuccessMeansKnownFields(f[e..], has, k - e);
    }
  }

  /** A `$`-stop inside `g` is one inside `pre + g`, shifted by `pre`. */
  lemma PrefixStop(f: string, pre: string, g: string, done: string)
    requires f == pre + g && |done| < |g| && g[..|done|] == done && g[|done|] == DOLLAR
    ensures |pre + done| < |f| && f[..|pre + done|] == pre + done && f[|pre + done|] == DOLLAR
  {
    assert f[..|pre + done|] == pre + g[..|done|];
  }

  /**
   * When parsing fails, the columns already appended render the format up
   * to the offending `$`, which is the next byte.
   */
  lemma {:induction false} FailureKeepsPrefix(f: string, has: set<nat>)
    requires !ParseColumns(f, has).0
    ensures |Render(ParseColumns(f, has).1)| < |f|
    ensures f[..|Render(ParseColumns(f, has).1)|] == Render(ParseColumns(f, has).1)
    ensures f[|Render(ParseColumns(f, has).1)|] == DOLLAR
    decreases |f|
  {
    if f[0] == DOLLAR {
      var idx := FieldIndex(CharAt(f, 1));
      if idx.Some? && idx.value !in has {
        FailureKeepsPrefix(f[2..], has + {idx.value});
        var rest := ParseColumns(f[2..], has + {idx.value}).1;
        RenderCons(Field(idx.value), rest);
        PrefixStop(f, [DOLLAR, FIELD_CHARS[idx.value]], f[2..], Render(rest));
      }
    } else {
      var e := IndexOf(f, DOLLAR, 0);
      FailureKeepsPrefix(f[e..], has);
      var rest := ParseColumns(f[e..], has).1;
      RenderCons(Text(f[..e]), rest);
      PrefixStop(f, f[..e], f[e..], Render(rest));
    }
  }

  /** A format without `$` is one text column; the empty format is no column. */
  lemma NoDollarIsOneText(f: string)
    requires DOLLAR !in f
    ensures Parse(f) == (true, if f == [] then [] else [Text(f)])
  {
    if f != [] {
      RenderParses([Text(f)], {});
      assert Render([Text(f)]) == f + Render([]);
    }
  }

  /** A field letter used twice makes the format fail, wherever the copies stand. */
  lemma RepeatedFieldRejected(f: string, i: nat, j: nat)
    requires i < j < |f| - 1
    requires f[i] == DOLLAR && f[j] == DOLLAR && f[i + 1] == f[j + 1]
    requires f[i + 1] in FIELD_CHARS
    ensures !Parse(f).0
  {
    ParseRoundTrip(f, {});
    if Parse(f).0 {
      var cols := Parse(f).1;
      var pi := FieldColumnAt(cols, i);
      var pj := FieldColumnAt(cols, j);
      FieldCharsDistinct();
      assert false;
    }
  }

  /**
   * The position of the column whose spelling starts at byte `k` of a
   * rendered canonical list, when that byte is a `$`: it is a field.
   */
  lemma {:induction false} FieldColumnAt(cols: seq<LongColumn>, k: nat) returns (p: nat)
    requires CanonicalAvoiding(cols, {})
    requires k < |Render(cols)| - 1 && Render(cols)[k] == DOLLAR
    ensures p < |cols| && cols[p].Field?
    ensures FIELD_CHARS[cols[p].index] == Render(cols)[k + 1]
    ensures |Render(cols[..p])| == k
    decreases |cols|
  {
    var rest := cols[1..];
    assert CanonicalAvoiding(rest, {}) by {
      forall i | 0 <= i < |rest| - 1
        ensures !(rest[i].Text? && rest[i + 1].Text?)
      {
        assert rest[i] == cols[i + 1] && rest[i + 1] == cols[i + 2];
      }
    }
    var s := Spelling(cols[0]);
    assert Render(cols) == s + Render(rest);
    if k < |s| {
      p := 0;
      assert cols[..0] == [];
    } else {
      assert Render(rest)[k - |s|] == DOLLAR;
      var q := FieldColumnAt(rest, k - |s|);
      p := q + 1;
      assert cols[p] == rest[q];
      assert cols[..p] == [cols[0]] + rest[..q];
      assert ([cols[0]] + rest[..q])[1..] == rest[..q];
    }
  }

  // ---------------------------------------------------------------------
  // Option settings

  /** What the command line can set (the `Arguments` namespace). */
  datatype Config = Config(
    all: bool,
    almostAll: bool,
    longListing: bool,
    singleColumn: bool,
    color: bool,
    recursive: bool,
    classify: bool,
    immediateDirs: bool,
    reverse: bool,
    sortMode: SortMode,
    quoting: QuoteMode,
    nongraphic: NongraphicMode,
    humanReadable: nat,
    width: nat,
    englishErrors: bool,
    groupDirectoriesFirst: bool,
    longColumns: seq<LongColumn>,
    caseSensitive: bool)

  const DEFAULTS: Config := Config(false, false, false, false, true, false, true, false, false,
    SortName, QuoteDefault, Escape, 0, 0, false, false, [], false)

  /** The letters `handle_short_opt` knows. */
  const SHORT_FLAGS: set<char> :=
    {'a', 'A', 'l', '1', 'R', 'F', 'v', 'S', 'X', 't', 'U', 'n', 'N', 'Q', 'b', 'q', 'h', 'd', 'r', 'D'}

  /**
   * The one setting an option letter or an argument-less long option
   * assigns; every case of the option switches assigns exactly one.
   */
  datatype Effect =
    | SetAll | SetAlmostAll | SetLongListing | SetSingleColumn | SetRecursive
    | NoClassify | SetSort(mode: SortMode) | SetQuoting(quoting: QuoteMode)
    | SetNongraphic(nongraphic: NongraphicMode) | SetHumanReadable(base: nat)
    | SetImmediateDirs | SetReverse | SetEnglishErrors | SetGroupDirectoriesFirst
    | SetCaseSensitive

  /** The settings after an effect: its one field changes, no other does. */
  function Apply(c: Config, e: Effect): (r: Config)
    ensures r.sortMode == if e.SetSort? then e.mode else c.sortMode
    ensures r.width == c.width && r.longColumns == c.longColumns && r.color == c.color
  {
    match e
    case SetAll => c.(all := true)
    case SetAlmostAll => c.(almostAll := true)
    case SetLongListing => c.(longListing := true)
    case SetSingleColumn => c.(singleColumn := true)
    case SetRecursive => c.(recursive := true)
    case NoClassify => c.(classify := false)
    case SetSort(m) => c.(sortMode := m)
    case SetQuoting(q) => c.(quoting := q)
    case SetNongraphic(n) => c.(nongraphic := n)
    case SetHumanReadable(b) => c.(humanReadable := b)
    case SetImmediateDirs => c.(immediateDirs := true)
    case SetReverse => c.(reverse := true)
    case SetEnglishErrors => c.(englishErrors := true)
    case SetGroupDirectoriesFirst => c.(groupDirectoriesFirst := true)
    case SetCaseSensitive => c.(caseSensitive := true)
  }

  /** The switch of `handle_short_opt`: what each letter sets, `None` for an unknown one. */
  function ShortEffect(flag: char): Option<Effect>
  {
    match flag
    case 'a' => Some(SetAll)
    case 'A' => Some(SetAlmostAll)
    case 'l' => Some(SetLongListing)
    case '1' => Some(SetSingleColumn)
    case 'R' => Some(SetRecursive)
    case 'F' => Some(NoClassify)
    case 'v' => Some(SetSort(SortVersion))
    case 'S' => Some(SetSort(SortSize))
    case 'X' => Some(SetSort(SortExtension))
    case 't' => Some(SetSort(SortTime))
    case 'U' => Some(SetSort(SortNone))
    case 'n' => Some(SetSort(SortName))
    case 'N' => Some(SetQuoting(QuoteLiteral))
    case 'Q' => Some(SetQuoting(QuoteDouble))
    case 'b' => Some(SetNongraphic(Escape))
    case 'q' => Some(SetNongraphic(Hide))
    case 'h' => Some(SetHumanReadable(1024))
    case 'd' => Some(SetImmediateDirs)
    case 'r' => Some(SetReverse)
    case 'D' => Some(SetGroupDirectoriesFirst)
    case _ => None
  }

  /** `handle_short_opt`: the new settings, or `None` for an unknown letter. */
  function ShortOpt(c: Config, flag: char): Option<Config>
  {
    match ShortEffect(flag)
    case None => None
    case Some(e) => Some(Apply(c, e))
  }

  /** The sort mode a short letter selects, if it is a sort letter. */
  function SortLetter(flag: char): Option<SortMode>
  {
    match ShortEffect(flag)
    case Some(SetSort(m)) => Some(m)
    case _ => None
  }

  /**
   * A letter is rejected exactly when it is not one of the known flags; a
   * known letter changes the sort mode exactly when it is a sort letter.
   */
  lemma ShortOptKnowsFlags(c: Config, flag: char)
    ensures ShortOpt(c, flag).None? <==> flag !in SHORT_FLAGS
    ensures ShortOpt(c, flag).Some? ==>
      ShortOpt(c, flag).value.sortMode == if SortLetter(flag).Some? then SortLetter(flag).value else c.sortMode
    ensures SortLetter(flag).Some? <==> flag in {'v', 'S', 'X', 't', 'U', 'n'}
  {
  }

  /**
   * A cluster of short letters (`-lSr`), applied in order: whether every
   * letter was known and the settings after the last letter handled.
   */
  function ShortCluster(c: Config, flags: string): (r: (bool, Config))
    decreases |flags|
  {
    if flags == [] then (true, c)
    else match ShortOpt(c, flags[0])
      case None => (false, c)
      case Some(c') => ShortCluster(c', flags[1..])
  }

  /** The sort mode after a run of letters: the last sort letter's, or `d` when none. */
  function LastSortMode(flags: string, d: SortMode): SortMode
    decreases |flags|
  {
    if flags == [] then d
    else match SortLetter(flags[|flags| - 1])
      case Some(m) => m
      case None => LastSortMode(flags[..|flags| - 1], d)
  }

  lemma {:induction false} LastSortModeCons(x: char, flags: string, d: SortMode)
    ensures LastSortMode([x] + flags, d) ==
      LastSortMode(flags, if SortLetter(x).Some? then SortLetter(x).value else d)
    decreases |flags|
  {
    var xs := [x] + flags;
    if flags != [] {
      assert xs[|xs| - 1] == flags[|flags| - 1];
      assert xs[..|xs| - 1] == [x] + flags[..|flags| - 1];
      LastSortModeCons(x, flags[..|flags| - 1], d);
    } else {
      assert xs[..|xs| - 1] == [];
    }
  }

  /**
   * A cluster of known letters succeeds, and the sort mode is the one the
   * last sort letter in it names: a later letter overrides an earlier one.
   */
  lemma {:induction false} ClusterSortMode(c: Config, flags: string)
    requires forall k :: 0 <= k < |flags| ==> flags[k] in SHORT_FLAGS
    ensures ShortCluster(c, flags).0
    ensures ShortCluster(c, flags).1.sortMode == LastSortMode(flags, c.sortMode)
    decreases |flags|
  {
    if flags != [] {
      ShortOptKnowsFlags(c, flags[0]);
      var c' := ShortOpt(c, flags[0]).value;
      ClusterSortMode(c', flags[1..]);
      LastSortModeCons(flags[0], flags[1..], c.sortMode);
      assert [flags[0]] + flags[1..] == flags;
    }
  }

  /** A cluster fails exactly when one of its letters is unknown. */
  lemma {:induction false} ClusterRejectsUnknown(c: Config, flags: string)
    ensures !ShortCluster(c, flags).0 <==> exists k :: 0 <= k < |flags| && flags[k] !in SHORT_FLAGS
    decreases |flags|
  {
    if flags != [] {
      ShortOptKnowsFlags(c, flags[0]);
      match ShortOpt(c, flags[0])
      case None =>
      case Some(c') =>
        ClusterRejectsUnknown(c', flags[1..]);
        if exists k :: 0 <= k < |flags| && flags[k] !in SHORT_FLAGS {
          var k :| 0 <= k < |flags| && flags[k] !in SHORT_FLAGS;
          assert flags[1..][k - 1] == flags[k];
        }
        if exists k :: 0 <= k < |flags[1..]| && flags[1..][k] !in SHORT_FLAGS {
          var k :| 0 <= k < |flags[1..]| && flags[1..][k] !in SHORT_FLAGS;
          assert flags[k + 1] == flags[1..][k];
        }
    }
  }

  // ---------------------------------------------------------------------
  // strtoul

  predicate IsSpace(b: char)
  {
    b == ' ' || '\t' <= b <= '\r'
  }

  /** The value of a digit in bases up to 36, or 36 for a character that is no digit. */
  function DigitValue(b: char): (d: nat)
    ensures d <= 36
  {
    if '0' <= b <= '9' then b as int - '0' as int
    else if 'a' <= b <= 'z' then b as int - 'a' as int + 10
    else if 'A' <= b <= 'Z' then b as int - 'A' as int + 10
    else 36
  }

  function SkipSpace(s: string, i: nat): (j: nat)
    requires i <= |s|
    ensures i <= j <= |s|
    ensures j < |s| ==> !IsSpace(s[j])
    decreases |s| - i
  {
    if i < |s| && IsSpace(s[i]) then SkipSpace(s, i + 1) else i
  }

  /** The end of the run of digits of `base` that starts at `i`. */
  function DigitRun(s: string, i: nat, base: nat): (j: nat)
    requires i <= |s|
    ensures i <= j <= |s|
    ensures forall k :: i <= k < j ==> DigitValue(s[k]) < base
    ensures j < |s| ==> DigitValue(s[j]) >= base
    decreases |s| - i
  {
    if i < |s| && DigitValue(s[i]) < base then DigitRun(s, i + 1, base) else i
  }

  /** The number a run of digits spells in `base`. */
  function Magnitude(ds: string, base: nat): nat
  {
    if ds == [] then 0
    else Magnitude(ds[..|ds| - 1], base) * base + DigitValue(ds[|ds| - 1])
  }

  const TWO_64: int := 0x1_0000_0000_0000_0000

  /**
   * `std::strtoul(s, &end, 0)` for a 64-bit `unsigned long`: the value and
   * the number of bytes consumed. Leading white space and a sign are
   * skipped; `0x` starts hexadecimal digits, a leading `0` octal ones, and
   * anything else decimal ones. Without digits nothing is consumed. A value
   * too large is `ULONG_MAX`; a negated one wraps around.
   */
  function StrToUL(s: string): (r: (nat, nat))
    ensures r.0 < TWO_64
    ensures r.1 <= |s|
    ensures r.1 == 0 ==> r.0 == 0
  {
    var i := SkipSpace(s, 0);
    var neg := i < |s| && s[i] == DASH;
    var k := if i < |s| && (s[i] == PLUS || s[i] == DASH) then i + 1 else i;
    var hex := k + 2 < |s| && s[k] == '0' && (s[k + 1] == 'x' || s[k + 1] == 'X')
      && DigitValue(s[k + 2]) < 16;
    var base := if hex then 16 else if k < |s| && s[k] == '0' then 8 else 10;
    var start := if hex then k + 2 else k;
    var j := DigitRun(s, start, base);
    if j == start then (0, 0)
    else
      var m := Magnitude(s[start..j], base);
      var v := if m >= TWO_64 then TWO_64 - 1 else if neg then (TWO_64 - m) % TWO_64 else m;
      (v, j)
  }

  /** The decimal spelling of a positive number, without leading zeros. */
  function Decimal(n: nat): (r: string)
    requires n > 0
    ensures r != [] && '1' <= r[0] <= '9'
    ensures forall k :: 0 <= k < |r| ==> '0' <= r[k] <= '9'
  {
    if n < 10 then [('0' as int + n) as char] else Decimal(n / 10) + [('0' as int + n % 10) as char]
  }

  lemma {:induction false} MagnitudeOfDecimal(n: nat)
    requires n > 0
    ensures Magnitude(Decimal(n), 10) == n
  {
    var d := Decimal(n);
    if n >= 10 {
      MagnitudeOfDecimal(n / 10);
      assert d[..|d| - 1] == Decimal(n / 10);
    } else {
      assert d[..0] == [];
    }
  }

  /** `strtoul` reads the decimal spelling of a number below 2^64 back exactly. */
  lemma StrToULDecimal(n: nat)
    requires 0 < n < TWO_64
    ensures StrToUL(Decimal(n)) == (n, |Decimal(n)|)
  {
    var s := Decimal(n);
    assert SkipSpace(s, 0) == 0;
    assert DigitRun(s, 0, 10) == |s| by {
      DigitRunAll(s, 0, 10);
    }
    MagnitudeOfDecimal(n);
    assert s[0..|s|] == s;
  }

  lemma {:induction false} DigitRunAll(s: string, i: nat, base: nat)
    requires i <= |s|
    requires forall k :: i <= k < |s| ==> DigitValue(s[k]) < base
    ensures DigitRun(s, i, base) == |s|
    decreases |s| - i
  {
    if i < |s| {
      DigitRunAll(s, i + 1, base);
    }
  }

  // ---------------------------------------------------------------------
  // Long options

  /** How handling an argument ends: go on, fail, or (`--help`) end the program. */
  datatype Status = Proceed | Fail | Exit

  datatype Outcome = Outcome(status: Status, config: Config)

  /** The option name and the argument of `--name=arg` (empty without `=`). */
  function SplitLong(elem: string): (r: (string, string))
    requires |elem| >= 2 && elem[0] == DASH && elem[1] == DASH
    ensures EQUALS !in r.0
  {
    var eq := IndexOf(elem, EQUALS, 0);
    if eq < |elem| then (elem[2..eq], elem[eq + 1..]) else (elem[2..], [])
  }

  /** The long options that take no argument, and what each sets; `None` for any other name. */
  function LongEffect(name: string): Option<Effect>
  {
    if name == "all" then Some(SetAll)
    else if name == "almost-all" then Some(SetAlmostAll)
    else if name == "recursive" then Some(SetRecursive)
    else if name == "no-classify" then Some(NoClassify)
    else if name == "literal" then Some(SetQuoting(QuoteLiteral))
    else if name == "quote-name" then Some(SetQuoting(QuoteDouble))
    else if name == "escape" then Some(SetNongraphic(Escape))
    else if name == "hide-control-chars" then Some(SetNongraphic(Hide))
    else if name == "show-control-chars" then Some(SetNongraphic(Show))
    else if name == "human-readable" then Some(SetHumanReadable(1024))
    else if name == "si" then Some(SetHumanReadable(1000))
    else if name == "directory" then Some(SetImmediateDirs)
    else if name == "reverse" then Some(SetReverse)
    else if name == "english-errors" then Some(SetEnglishErrors)
    else if name == "group-directories-first" then Some(SetGroupDirectoriesFirst)
    else if name == "case-sensitive" then Some(SetCaseSensitive)
    else None
  }

  /** An argument-less long option: the new settings, or `None` when the name is no such option. */
  function Flag(c: Config, name: string): Option<Config>
  {
    match LongEffect(name)
    case None => None
    case Some(e) => Some(Apply(c, e))
  }

  /** The mode a `--sort` argument names; `name` is not among them. */
  function SortArgument(arg: string): Option<SortMode>
  {
    if arg == "none" then Some(SortNone)
    else if arg == "extension" then Some(SortExtension)
    else if arg == "size" then Some(SortSize)
    else if arg == "time" then Some(SortTime)
    else if arg == "version" then Some(SortVersion)
    else None
  }

  /** The colour setting a `--color` argument asks for, `isTty` standing for `auto`. */
  function ColorArgument(arg: string, isTty: bool): Option<bool>
  {
    if arg == [] || arg == "always" || arg == "yes" then Some(true)
    else if arg == "never" || arg == "no" then Some(false)
    else if arg == "auto" || arg == "tty" then Some(isTty)
    else None
  }

  /**
   * `handle_long_opt` on `--name[=arg]`. `--width` stores the value before
   * checking it and `--format` appends its columns before failing, so a
   * failure can leave changed settings behind.
   */
  function LongOpt(c: Config, elem: string, isTty: bool): (r: Outcome)
    requires |elem| >= 2 && elem[0] == DASH && elem[1] == DASH
  {
    var name := SplitLong(elem).0;
    var arg := SplitLong(elem).1;
    if name == "help" then Outcome(Exit, c)
    else if Flag(c, name).Some? then Outcome(Proceed, Flag(c, name).value)
    else if name == "color" then
      match ColorArgument(arg, isTty)
      case Some(b) => Outcome(Proceed, c.(color := b))
      case None => Outcome(Fail, c)
    else if name == "sort" then
      if arg == [] then Outcome(Fail, c)
      else match SortArgument(arg)
        case Some(m) => Outcome(Proceed, c.(sortMode := m))
        case None => Outcome(Fail, c)
    else if name == "width" then
      if arg == [] then Outcome(Fail, c)
      else
        var (v, used) := StrToUL(arg);
        var w := v % TWO_32;
        Outcome(if w == 0 || used != |arg| then Fail else Proceed, c.(width := w))
    else if name == "format" then
      if arg == [] then Outcome(Fail, c)
      else
        var p := Parse(arg);
        Outcome(if p.0 then Proceed else Fail, c.(longColumns := c.longColumns + p.1))
    else Outcome(Fail, c)
  }

  lemma SplitAtEquals(name: string, arg: string)
    requires EQUALS !in name
    ensures SplitLong([DASH, DASH] + name + [EQUALS] + arg) == (name, arg)
    ensures SplitLong([DASH, DASH] + name) == (name, [])
  {
    var e := [DASH, DASH] + name + [EQUALS] + arg;
    IndexOfIsFirst(e, EQUALS, 0, |name| + 2);
    assert e[2..|name| + 2] == name;
    assert e[|name| + 3..] == arg;
    var f := [DASH, DASH] + name;
    IndexOfIsFirst(f, EQUALS, 0, |f|);
    assert f[2..] == name;
  }

  /** `--width=N` with `N` written in decimal stores `N` cut to 32 bits, and fails when that is 0. */
  lemma DecimalWidth(c: Config, n: nat, isTty: bool)
    requires 0 < n < TWO_64
    ensures LongOpt(c, [DASH, DASH] + "width" + [EQUALS] + Decimal(n), isTty) ==
      Outcome(if n % TWO_32 == 0 then Fail else Proceed, c.(width := n % TWO_32))
  {
    SplitAtEquals("width", Decimal(n));
    StrToULDecimal(n);
  }

  /** `strtoul` reads `-1` whole, as the negation of 1 modulo 2^64. */
  lemma MinusOneWraps()
    ensures StrToUL("-1") == (TWO_64 - 1, 2)
  {
    var arg := "-1";
    assert SkipSpace(arg, 0) == 0;
    assert DigitRun(arg, 1, 10) == 2;
    assert arg[1..2] == [arg[1]];
    assert Magnitude(arg[1..2], 10) == 1 by {
      assert arg[1..2][..0] == [];
    }
  }

  /** `--width=-1` is accepted, as the largest 32-bit width. */
  lemma NegativeWidthWraps(c: Config, isTty: bool)
    ensures LongOpt(c, [DASH, DASH] + "width" + [EQUALS] + "-1", isTty) ==
      Outcome(Proceed, c.(width := TWO_32 - 1))
  {
    SplitAtEquals("width", "-1");
    MinusOneWraps();
    assert (TWO_64 - 1) % TWO_32 == TWO_32 - 1;
  }

  /** `--width` fails when its argument has anything `strtoul` leaves unread. */
  lemma WidthNeedsWholeArgument(c: Config, arg: string, isTty: bool)
    requires arg != []
    requires StrToUL(arg).1 < |arg|
    ensures LongOpt(c, [DASH, DASH] + "width" + [EQUALS] + arg, isTty).status == Fail
  {
    SplitAtEquals("width", arg);
  }

  /** `--sort` takes exactly `none`, `extension`, `size`, `time` or `version`. */
  lemma SortOptionValues(c: Config, arg: string, isTty: bool)
    ensures LongOpt(c, [DASH, DASH] + "sort" + [EQUALS] + arg, isTty).status == Proceed <==>
      arg in {"none", "extension", "size", "time", "version"}
    ensures LongOpt(c, [DASH, DASH] + "sort" + [EQUALS] + "name", isTty).status == Fail
  {
    SplitAtEquals("sort", arg);
    SplitAtEquals("sort", "name");
  }

  /**
   * `--color` takes nothing, `always` or `yes` to colour, `never` or `no`
   * not to, and `auto` or `tty` to colour a terminal only.
   */
  lemma ColorOptionValues(c: Config, arg: string, isTty: bool)
    ensures var r := LongOpt(c, [DASH, DASH] + "color" + [EQUALS] + arg, isTty);
      (r.status == Proceed <==>
         arg in {[], "always", "yes", "never", "no", "auto", "tty"})
      && (r.status == Proceed ==> r.config == c.(color :=
         arg in {[], "always", "yes"} || (isTty && arg in {"auto", "tty"})))
    ensures LongOpt(c, [DASH, DASH] + "color", isTty) == Outcome(Proceed, c.(color := true))
  {
    SplitAtEquals("color", arg);
    SplitAtEquals("color", []);
  }

  /** A long flag ignores any argument given to it: `--all=x` is `--all`. */
  lemma FlagIgnoresArgument(c: Config, name: string, arg: string, isTty: bool)
    requires EQUALS !in name
    requires Flag(c, name).Some?
    ensures LongOpt(c, [DASH, DASH] + name + [EQUALS] + arg, isTty) == Outcome(Proceed, Flag(c, name).value)
    ensures LongOpt(c, [DASH, DASH] + name, isTty) == Outcome(Proceed, Flag(c, name).value)
  {
    SplitAtEquals(name, arg);
  }

  /** `--format` appends the template's columns to those of earlier `--format` options. */
  lemma FormatOptionAppends(c: Config, f: string, isTty: bool)
    requires f != []
    ensures var r := LongOpt(c, [DASH, DASH] + "format" + [EQUALS] + f, isTty);
      && (r.status == Proceed <==> Parse(f).0)
      && r.config.longColumns == c.longColumns + Parse(f).1
      && (r.status == Proceed ==> Render(r.config.longColumns[|c.longColumns|..]) == f)
  {
    SplitAtEquals("format", f);
    ParseRoundTrip(f, {});
    var r := LongOpt(c, [DASH, DASH] + "format" + [EQUALS] + f, isTty);
    assert r.config.longColumns[|c.longColumns|..] == Parse(f).1;
  }

  // ---------------------------------------------------------------------
  // The argument loop

  /**
   * The rest of `parse_args` from argument `i`: how it ends, the settings,
   * and the file arguments it appends. As written, the loop breaks at `--`
   * and the copying loop starts at that same index, so `--` itself becomes
   * a file argument; `dropSeparator` gives the evidently intended loop that
   * copies only what follows.
   */
  function ScanArgs(c: Config, argv: seq<string>, i: nat, isTty: bool, dropSeparator: bool)
    : (r: (Status, Config, seq<string>))
    requires 1 <= i <= |argv|
    decreases |argv| - i
  {
    if i == |argv| then (Proceed, c, [])
    else
      var elem := argv[i];
      if CharAt(elem, 0) == DASH then
        if CharAt(elem, 1) == DASH then
          if CharAt(elem, 2) == NUL then (Proceed, c, if dropSeparator then argv[i + 1..] else argv[i..])
          else
            var o := LongOpt(c, elem, isTty);
            if o.status != Proceed then (o.status, o.config, [])
            else ScanArgs(o.config, argv, i + 1, isTty, dropSeparator)
        else
          var (ok, c') := ShortCluster(c, elem[1..]);
          if !ok then (Fail, c', [])
          else ScanArgs(c', argv, i + 1, isTty, dropSeparator)
      else
        var rest := ScanArgs(c, argv, i + 1, isTty, dropSeparator);
        (rest.0, rest.1, [elem] + rest.2)
  }

  /**
   * `ScanArgs` with the file arguments gathered so far in `acc`, stepping
   * through `argv` the way the loop of `parse_args` does.
   */
  function ScanFrom(c: Config, argv: seq<string>, i: nat, isTty: bool, dropSeparator: bool, acc: seq<string>)
    : (r: (Status, Config, seq<string>))
    requires 1 <= i <= |argv|
    decreases |argv| - i
  {
    if i == |argv| then (Proceed, c, acc)
    else
      var elem := argv[i];
      if CharAt(elem, 0) == DASH then
        if CharAt(elem, 1) == DASH then
          if CharAt(elem, 2) == NUL then (Proceed, c, acc + if dropSeparator then argv[i + 1..] else argv[i..])
          else
            var o := LongOpt(c, elem, isTty);
            if o.status != Proceed then (o.status, o.config, acc)
            else ScanFrom(o.config, argv, i + 1, isTty, dropSeparator, acc)
        else
          var (ok, c') := ShortCluster(c, elem[1..]);
          if !ok then (Fail, c', acc)
          else ScanFrom(c', argv, i + 1, isTty, dropSeparator, acc)
      else ScanFrom(c, argv, i + 1, isTty, dropSeparator, acc + [elem])
  }

  /** The accumulating scan appends to `acc` what `ScanArgs` lists. */
  lemma {:induction false} ScanFromSuffix(c: Config, argv: seq<string>, i: nat, isTty: bool, dropSeparator: bool, acc: seq<string>)
    requires 1 <= i <= |argv|
    ensures var s := ScanArgs(c, argv, i, isTty, dropSeparator);
      ScanFrom(c, argv, i, isTty, dropSeparator, acc) == (s.0, s.1, acc + s.2)
    decreases |argv| - i
  {
    if i == |argv| {
      assert acc + [] == acc;
    } else {
      var elem := argv[i];
      if CharAt(elem, 0) == DASH {
        if CharAt(elem, 1) == DASH {
          if CharAt(elem, 2) == NUL {
            var x := if dropSeparator then argv[i + 1..] else argv[i..];
            assert ScanArgs(c, argv, i, isTty, dropSeparator) == (Proceed, c, x);
            assert ScanFrom(c, argv, i, isTty, dropSeparator, acc) == (Proceed, c, acc + x);
          } else {
            var o := LongOpt(c, elem, isTty);
            if o.status == Proceed {
              assert ScanArgs(c, argv, i, isTty, dropSeparator) == ScanArgs(o.config, argv, i + 1, isTty, dropSeparator);
              assert ScanFrom(c, argv, i, isTty, dropSeparator, acc) == ScanFrom(o.config, argv, i + 1, isTty, dropSeparator, acc);
              ScanFromSuffix(o.config, argv, i + 1, isTty, dropSeparator, acc);
            } else {
              assert ScanArgs(c, argv, i, isTty, dropSeparator) == (o.status, o.config, []);
              assert ScanFrom(c, argv, i, isTty, dropSeparator, acc) == (o.status, o.config, acc);
              assert acc + [] == acc;
            }
          }
        } else {
          var (ok, c') := ShortCluster(c, elem[1..]);
          if ok {
            assert ScanArgs(c, argv, i, isTty, dropSeparator) == ScanArgs(c', argv, i + 1, isTty, dropSeparator);
            assert ScanFrom(c, argv, i, isTty, dropSeparator, acc) == ScanFrom(c', argv, i + 1, isTty, dropSeparator, acc);
            ScanFromSuffix(c', argv, i + 1, isTty, dropSeparator, acc);
          } else {
            assert ScanArgs(c, argv, i, isTty, dropSeparator) == (Fail, c', []);
            assert ScanFrom(c, argv, i, isTty, dropSeparator, acc) == (Fail, c', acc);
            assert acc + [] == acc;
          }
        }
      } else {
        var s := ScanArgs(c, argv, i + 1, isTty, dropSeparator);
        assert ScanArgs(c, argv, i, isTty, dropSeparator) == (s.0, s.1, [elem] + s.2);
        assert ScanFrom(c, argv, i, isTty, dropSeparator, acc) == ScanFrom(c, argv, i + 1, isTty, dropSeparator, acc + [elem]);
        ScanFromSuffix(c, argv, i + 1, isTty, dropSeparator, acc + [elem]);
        assert acc + [elem] + s.2 == acc + ([elem] + s.2);
      }
    }
  }

  /** C strings hold no NUL byte. */
  predicate NoNul(argv: seq<string>)
  {
    forall k :: 0 <= k < |argv| ==> NUL !in argv[k]
  }

  /**
   * The file arguments of a command line, independently of what the options
   * mean: every argument that does not start with `-`, up to a `--`, then
   * everything after it.
   */
  function Operands(args: seq<string>): seq<string>
  {
    if args == [] then []
    else if args[0] == [DASH, DASH] then args[1..]
    else if args[0] != [] && args[0][0] == DASH then Operands(args[1..])
    else [args[0]] + Operands(args[1..])
  }

  /**
   * With the intended handling of `--`, a command line that parses yields
   * exactly its operands as file arguments. A lone `-` is neither a file
   * nor an error.
   */
  lemma {:induction false} FilesAreOperands(c: Config, argv: seq<string>, i: nat, isTty: bool)
    requires 1 <= i <= |argv|
    requires NoNul(argv)
    requires ScanArgs(c, argv, i, isTty, true).0 == Proceed
    ensures ScanArgs(c, argv, i, isTty, true).2 == Operands(argv[i..])
    decreases |argv| - i
  {
    if i < |argv| {
      var elem := argv[i];
      assert argv[i..][0] == elem;
      assert argv[i..][1..] == argv[i + 1..];
      assert NUL !in elem;
      if CharAt(elem, 0) == DASH {
        if CharAt(elem, 1) == DASH {
          if CharAt(elem, 2) == NUL {
            assert elem == [DASH, DASH];
          } else {
            assert elem != [DASH, DASH] && elem[0] == DASH;
            var o := LongOpt(c, elem, isTty);
            assert ScanArgs(c, argv, i, isTty, true) == ScanArgs(o.config, argv, i + 1, isTty, true);
            FilesAreOperands(o.config, argv, i + 1, isTty);
          }
        } else {
          assert elem != [DASH, DASH] && elem[0] == DASH;
          var (ok, c') := ShortCluster(c, elem[1..]);
          assert ScanArgs(c, argv, i, isTty, true) == ScanArgs(c', argv, i + 1, isTty, true);
          FilesAreOperands(c', argv, i + 1, isTty);
        }
      } else {
        var rest := ScanArgs(c, argv, i + 1, isTty, true);
        assert ScanArgs(c, argv, i, isTty, true) == (rest.0, rest.1, [elem] + rest.2);
        FilesAreOperands(c, argv, i + 1, isTty);
      }
    }
  }

  /** As written, the `--` separator is itself listed as a file. */
  lemma SeparatorBecomesFile(c: Config, isTty: bool)
    ensures ScanArgs(c, ["lst", [DASH, DASH]], 1, isTty, false) == (Proceed, c, [[DASH, DASH]])
    ensures Operands([[DASH, DASH]]) == []
  {
    var argv := ["lst", [DASH, DASH]];
    assert argv[1..] == [[DASH, DASH]];
  }

  /** A command line without options keeps the settings and lists every argument in order. */
  lemma {:induction false} NoOptionsAllFiles(c: Config, argv: seq<string>, i: nat, isTty: bool, drop: bool)
    requires 1 <= i <= |argv|
    requires forall k :: i <= k < |argv| ==> CharAt(argv[k], 0) != DASH
    ensures ScanArgs(c, argv, i, isTty, drop) == (Proceed, c, argv[i..])
    decreases |argv| - i
  {
    if i < |argv| {
      NoOptionsAllFiles(c, argv, i + 1, isTty, drop);
      assert argv[i..] == [argv[i]] + argv[i + 1..];
    }
  }

  // ---------------------------------------------------------------------
  // The settings as mutable state

  /**
   * The `Arguments` globals, which the option handlers assign one at a time;
   * `settings` holds their values.
   */
  class Arguments {
    var settings: Config

    /** The initial values of the globals. */
    constructor ()
      ensures settings == DEFAULTS
    {
      settings := DEFAULTS;
    }

    /** `handle_short_opt`: sets what `flag` names, or fails and changes nothing. */
    method HandleShortOpt(flag: char) returns (ok: bool)
      modifies this
      ensures ok == ShortOpt(old(settings), flag).Some?
      ensures ok ==> settings == ShortOpt(old(settings), flag).value
      ensures !ok ==> settings == old(settings)
    {
      ok := true;
      match flag
      case 'a' => settings := Apply(settings, SetAll);
      case 'A' => settings := Apply(settings, SetAlmostAll);
      case 'l' => settings := Apply(settings, SetLongListing);
      case '1' => settings := Apply(settings, SetSingleColumn);
      case 'R' => settings := Apply(settings, SetRecursive);
      case 'F' => settings := Apply(settings, NoClassify);
      case 'v' => settings := Apply(settings, SetSort(SortVersion));
      case 'S' => settings := Apply(settings, SetSort(SortSize));
      case 'X' => settings := Apply(settings, SetSort(SortExtension));
      case 't' => settings := Apply(settings, SetSort(SortTime));
      case 'U' => settings := Apply(settings, SetSort(SortNone));
      case 'n' => settings := Apply(settings, SetSort(SortName));
      case 'N' => settings := Apply(settings, SetQuoting(QuoteLiteral));
      case 'Q' => settings := Apply(settings, SetQuoting(QuoteDouble));
      case 'b' => settings := Apply(settings, SetNongraphic(Escape));
      case 'q' => settings := Apply(settings, SetNongraphic(Hide));
      case 'h' => settings := Apply(settings, SetHumanReadable(1024));
      case 'd' => settings := Apply(settings, SetImmediateDirs);
      case 'r' => settings := Apply(settings, SetReverse);
      case 'D' => settings := Apply(settings, SetGroupDirectoriesFirst);
      case _ => ok := false;
    }

    /** `handle_long_opt`: the outcome and new settings of `LongOpt`. */
    method HandleLongOpt(elem: string, isTty: bool) returns (status: Status)
      requires |elem| >= 2 && elem[0] == DASH && elem[1] == DASH
      modifies this
      ensures Outcome(status, settings) == LongOpt(old(settings), elem, isTty)
    {
      var eq := IndexOf(elem, EQUALS, 0);
      var name := if eq < |elem| then elem[2..eq] else elem[2..];
      var arg := if eq < |elem| then elem[eq + 1..] else [];
      status := Proceed;
      if name == "help" {
        status := Exit;
      } else if LongEffect(name).Some? {
        // the sixteen names that take no argument
        settings := Apply(settings, LongEffect(name).value);
      }
      else if name == "color" {
        if arg == [] || arg == "always" || arg == "yes" {
          settings := settings.(color := true);
        } else if arg == "never" || arg == "no" {
          settings := settings.(color := false);
        } else if arg == "auto" || arg == "tty" {
          settings := settings.(color := isTty);
        } else {
          status := Fail;
        }
      } else if name == "sort" {
        if arg == [] {
          status := Fail;
        } else if arg == "none" { settings := settings.(sortMode := SortNone); }
        else if arg == "extension" { settings := settings.(sortMode := SortExtension); }
        else if arg == "size" { settings := settings.(sortMode := SortSize); }
        else if arg == "time" { settings := settings.(sortMode := SortTime); }
        else if arg == "version" { settings := settings.(sortMode := SortVersion); }
        else { status := Fail; }
      } else if name == "width" {
        if arg == [] {
          status := Fail;
        } else {
          var (v, used) := StrToUL(arg);
          settings := settings.(width := v % TWO_32);
          if settings.width == 0 || used != |arg| {
            status := Fail;
          }
        }
      } else if name == "format" {
        if arg == [] {
          status := Fail;
        } else {
          var ok, columns := ParseLongFormat(arg, settings.longColumns);
          settings := settings.(longColumns := columns);
          if !ok {
            status := Fail;
          }
        }
      } else {
        status := Fail;
      }
    }

    /** The letters of one short-option cluster, handled in order. */
    method HandleCluster(flags: string) returns (ok: bool)
      modifies this
      ensures (ok, settings) == ShortCluster(old(settings), flags)
    {
      var k := 0;
      while k < |flags|
        invariant k <= |flags|
        invariant ShortCluster(old(settings), flags) == ShortCluster(settings, flags[k..])
      {
        assert flags[k..][1..] == flags[k + 1..];
        ok := HandleShortOpt(flags[k]);
        if !ok {
          return;
        }
        k := k + 1;
      }
      ok := true;
    }

    /**
     * `parse_args`: handles the options of `argv` (the program name first)
     * and appends the other arguments to `args0`, keeping what it appended
     * before a failure.
     */
    method ParseArgs(argv: seq<string>, isTty: bool, args0: seq<string>)
      returns (status: Status, args: seq<string>)
      requires |argv| >= 1
      modifies this
      ensures var s := ScanArgs(old(settings), argv, 1, isTty, false);
        status == s.0 && settings == s.1 && args == args0 + s.2
    {
      ghost var c0 := settings;
      ScanFromSuffix(c0, argv, 1, isTty, false, args0);
      var i := 1;
      args := args0;
      while i < |argv|
        invariant 1 <= i <= |argv|
        invariant ScanFrom(c0, argv, 1, isTty, false, args0) == ScanFrom(settings, argv, i, isTty, false, args)
      {
        var elem := argv[i];
        if CharAt(elem, 0) == DASH {
          if CharAt(elem, 1) == DASH {
            if CharAt(elem, 2) == NUL {
              assert ScanFrom(settings, argv, i, isTty, false, args) == (Proceed, settings, args + argv[i..]);
              break;
            }
            status := HandleLongOpt(elem, isTty);
            if status != Proceed {
              return;
            }
          } else {
            var ok := HandleCluster(elem[1..]);
            if !ok {
              status := Fail;
              return;
            }
          }
        } else {
          args := args + [elem];
        }
        i := i + 1;
      }
      if i == |argv| {
        assert args + argv[i..] == args;
      }
      while i < |argv|
        invariant 1 <= i <= |argv|
        invariant ScanFrom(c0, argv, 1, isTty, false, args0) == (Proceed, settings, args + argv[i..])
      {
        assert args + argv[i..] == args + [argv[i]] + argv[i + 1..];
        args := args + [argv[i]];
        i := i + 1;
      }
      status := Proceed;
    }
  }
}

=== FILE: columns.dfy ===
/**
 * The grid of the default (multi-column) output.  Cells are kept column by
 * column; each `add` places one cell, and when the grid has grown as wide as
 * the terminal the row count goes up by one and every cell is dealt again,
 * in reading order, into columns of the new height.
 */
module Grid {
  import opened Common
  import opened Unicode
  import opened Options
  import opened Files
  import opened Frills

  /**
   * One slot of a printed line: nothing, the `...` marker, or a file name
   * with its leading space, its padding target and its trailing separator.
   */
  datatype Piece = Skip | Ellipsis | Name(file: FileInfo, lead: bool, pad: nat, separator: bool)

  /** Spaces between two columns. */
  const SEPARATOR: nat := 2
  const TWO_64: int := 0x1_0000_0000_0000_0000

  /** One cell: the file, its display width and whether its name is wrapped in quotes. */
  datatype Element = Element(file: FileInfo, width: nat, isQuoted: bool)

  /** The width a cell claims in its column: `width - is_quoted` in `unsigned` arithmetic. */
  function Net(e: Element): (n: nat)
    ensures n < TWO_32
    ensures e.width < TWO_32 && (e.isQuoted ==> e.width >= 1) ==> n == e.width - (if e.isQuoted then 1 else 0)
  {
    (e.width - (if e.isQuoted then 1 else 0)) % TWO_32
  }

  /** The largest `Net` of the cells, 0 for none. */
  function MaxNet(es: seq<Element>): (m: nat)
    ensures forall i :: 0 <= i < |es| ==> m >= Net(es[i])
    ensures m == 0 || exists i :: 0 <= i < |es| && m == Net(es[i])
  {
    if es == [] then 0
    else
      var m := MaxNet(es[..|es| - 1]);
      var n := Net(es[|es| - 1]);
      assert forall i :: 0 <= i < |es| - 1 ==> es[..|es| - 1][i] == es[i];
      if n > m then n else m
  }

  lemma MaxNetSnoc(es: seq<Element>, e: Element)
    ensures MaxNet(es + [e]) == if Net(e) > MaxNet(es) then Net(e) else MaxNet(es)
  {
    assert (es + [e])[..|es|] == es;
  }

  /** A column of the grid: its cells and the cached width of the widest. */
  class Column {
    var elems: seq<Element>
    var width: nat

    /** The cached width is the widest cell's. */
    ghost predicate Valid()
      reads this
    {
      width == MaxNet(elems)
    }

    constructor ()
      ensures elems == [] && width == 0
      ensures Valid()
    {
      elems := [];
      width := 0;
    }

    /** Appends a cell and widens the column to it. */
    method Add(e: Element)
      requires Valid()
      modifies this
      ensures elems == old(elems) + [e]
      ensures width == if Net(e) > old(width) then Net(e) else old(width)
      ensures width >= old(width)
      ensures Valid()
    {
      MaxNetSnoc(elems, e);
      elems := elems + [e];
      if Net(e) > width {
        width := Net(e);
      }
    }

    /** The overload taking the parts of the cell; same effect as `Add`. */
    method Emplace(f: FileInfo, w: nat, q: bool)
      requires Valid()
      modifies this
      ensures elems == old(elems) + [Element(f, w, q)]
      ensures width == if Net(Element(f, w, q)) > old(width) then Net(Element(f, w, q)) else old(width)
      ensures width >= old(width)
      ensures Valid()
    {
      var e := Element(f, w, q);
      var n := (w - (if q then 1 else 0)) % TWO_32;
      assert n == Net(e);
      MaxNetSnoc(elems, e);
      elems := elems + [e];
      if n > width {
        width := n;
      }
    }
  }

  function Min(a: nat, b: nat): nat
  {
    if a < b then a else b
  }

  /** `cells` dealt in reading order into `n` columns of at most `rows` cells each. */
  function Deal(cells: seq<Element>, rows: nat, n: nat): (d: seq<seq<Element>>)
    ensures |d| == n
  {
    if n == 0 then []
    else
      var k := Min(rows, |cells|);
      [cells[..k]] + Deal(cells[k..], rows, n - 1)
  }

  /** The cells that do not fit into `n` columns of `rows`. */
  function Leftover(cells: seq<Element>, rows: nat, n: nat): seq<Element>
  {
    if n == 0 then cells else Leftover(cells[Min(rows, |cells|)..], rows, n - 1)
  }

  /** The cells of a grid in reading order, column after column. */
  function Flatten(css: seq<seq<Element>>): seq<Element>
  {
    if css == [] then [] else css[0] + Flatten(css[1..])
  }

  lemma {:induction false} FlattenSnoc(css: seq<seq<Element>>, c: seq<Element>)
    ensures Flatten(css + [c]) == Flatten(css) + c
  {
    if css == [] {
      assert [c][1..] == [];
    } else {
      assert (css + [c])[1..] == css[1..] + [c];
      FlattenSnoc(css[1..], c);
    }
  }

  /** Dealing loses nothing: the columns read in order, then the leftover, give back the cells. */
  lemma {:induction false} DealFlatten(cells: seq<Element>, rows: nat, n: nat)
    ensures Flatten(Deal(cells, rows, n)) + Leftover(cells, rows, n) == cells
  {
    if n > 0 {
      var k := Min(rows, |cells|);
      DealFlatten(cells[k..], rows, n - 1);
      assert Deal(cells, rows, n)[1..] == Deal(cells[k..], rows, n - 1);
      assert cells == cells[..k] + cells[k..];
    }
  }

  /** All cells fit exactly when there is room for them. */
  lemma {:induction false} LeftoverCapacity(cells: seq<Element>, rows: nat, n: nat)
    ensures Leftover(cells, rows, n) == [] <==> |cells| <= n * rows
  {
    if n > 0 {
      var k := Min(rows, |cells|);
      LeftoverCapacity(cells[k..], rows, n - 1);
      assert n * rows == (n - 1) * rows + rows;
    }
  }

  lemma {:induction false} DealNothing(rows: nat, n: nat)
    ensures forall j :: 0 <= j < n ==> Deal([], rows, n)[j] == []
    ensures Leftover([], rows, n) == []
  {
    if n > 0 {
      DealNothing(rows, n - 1);
    }
  }

  /** A cell added to the first column with room lands at the end of that column. */
  lemma {:induction false} DealIntoOpen(cells: seq<Element>, e: Element, rows: nat, n: nat, k: nat)
    requires k < n
    requires forall j :: 0 <= j < k ==> |Deal(cells, rows, n)[j]| >= rows
    requires |Deal(cells, rows, n)[k]| < rows
    ensures Deal(cells + [e], rows, n) == Deal(cells, rows, n)[k := Deal(cells, rows, n)[k] + [e]]
    ensures Leftover(cells, rows, n) == Leftover(cells + [e], rows, n) == []
  {
    var d := Deal(cells, rows, n);
    if k == 0 {
      assert |cells| < rows;
      assert (cells + [e])[..|cells| + 1] == cells + [e];
      assert cells[..|cells|] == cells;
      DealNothing(rows, n - 1);
      assert Deal(cells + [e], rows, n)[1..] == Deal([], rows, n - 1);
    } else {
      assert |d[0]| >= rows && |cells| >= rows;
      var rest := cells[rows..];
      var d' := Deal(rest, rows, n - 1);
      assert d == [cells[..rows]] + d';
      forall j | 0 <= j < k - 1
        ensures |d'[j]| >= rows
      {
        assert d'[j] == d[j + 1];
      }
      assert d'[k - 1] == d[k];
      DealIntoOpen(rest, e, rows, n - 1, k - 1);
      assert Min(rows, |cells + [e]|) == rows;
      assert (cells + [e])[..rows] == cells[..rows];
      assert (cells + [e])[rows..] == rest + [e];
      assert Deal(cells + [e], rows, n) == [cells[..rows]] + Deal(rest + [e], rows, n - 1);
      assert Leftover(cells + [e], rows, n) == Leftover(rest + [e], rows, n - 1);
      ConsUpdate(cells[..rows], d', k - 1, d[k] + [e]);
    }
  }

  /** Dealing one more cell of `elems` extends the cells dealt so far by that cell. */
  lemma PrefixSnoc(dealt: seq<Element>, elems: seq<Element>, i: nat)
    requires i < |elems|
    ensures |dealt + elems[..i + 1]| == |dealt + elems[..i]| + 1
    ensures dealt + elems[..i + 1] == dealt + elems[..i] + [elems[i]]
  {
    assert elems[..i + 1] == elems[..i] + [elems[i]];
  }

  lemma ConsUpdate<T>(x: T, s: seq<T>, i: nat, v: T)
    requires i < |s|
    ensures [x] + s[i := v] == ([x] + s)[i + 1 := v]
  {
  }

  /** A cell added when every column is full opens a new column of its own. */
  lemma {:induction false} DealIntoNew(cells: seq<Element>, e: Element, rows: nat, n: nat)
    requires rows >= 1 && Leftover(cells, rows, n) == []
    requires forall j :: 0 <= j < n ==> |Deal(cells, rows, n)[j]| >= rows
    ensures Deal(cells + [e], rows, n + 1) == Deal(cells, rows, n) + [[e]]
    ensures Leftover(cells + [e], rows, n + 1) == []
  {
    if n == 0 {
      assert cells + [e] == [e];
      assert Min(rows, 1) == 1;
      assert [e][..1] == [e] && [e][1..] == [];
    } else {
      var d := Deal(cells, rows, n);
      assert |d[0]| >= rows && |cells| >= rows;
      var rest := cells[rows..];
      assert (cells + [e])[..rows] == cells[..rows];
      assert (cells + [e])[rows..] == rest + [e];
      assert d[1..] == Deal(rest, rows, n - 1);
      DealIntoNew(rest, e, rows, n - 1);
    }
  }

  /** When every column is full, one more cell does not fit. */
  lemma {:induction false} FullOverflows(cells: seq<Element>, e: Element, rows: nat, n: nat)
    requires forall j :: 0 <= j < n ==> |Deal(cells, rows, n)[j]| >= rows
    ensures Leftover(cells + [e], rows, n) != []
  {
    if n > 0 {
      var d := Deal(cells, rows, n);
      assert |d[0]| >= rows && |cells| >= rows;
      var rest := cells[rows..];
      assert (cells + [e])[rows..] == rest + [e];
      assert d[1..] == Deal(rest, rows, n - 1);
      FullOverflows(rest, e, rows, n - 1);
    }
  }

  /**
   * Column-major placement: the cell at row `r` of column `c` is cell number
   * `c * rows + r`, and it exists exactly when there are that many cells.
   */
  lemma DealPosition(cells: seq<Element>, rows: nat, n: nat, c: nat, r: nat)
    requires c < n && r < rows
    ensures r < |Deal(cells, rows, n)[c]| <==> c * rows + r < |cells|
    ensures r < |Deal(cells, rows, n)[c]| ==> Deal(cells, rows, n)[c][r] == cells[c * rows + r]
  {
    DealPositionAt(cells, rows, n, c, r, c * rows + r);
  }

  /** `DealPosition` with the position `p` of the cell named, so that the induction stays linear. */
  lemma {:induction false} DealPositionAt(cells: seq<Element>, rows: nat, n: nat, c: nat, r: nat, p: nat)
    requires c < n && r < rows && p == c * rows + r
    ensures r < |Deal(cells, rows, n)[c]| <==> p < |cells|
    ensures r < |Deal(cells, rows, n)[c]| ==> Deal(cells, rows, n)[c][r] == cells[p]
  {
    var d := Deal(cells, rows, n);
    var k := Min(rows, |cells|);
    assert d[0] == cells[..k] && d[1..] == Deal(cells[k..], rows, n - 1);
    if c == 0 {
      assert p == r;
    } else {
      assert d[c] == Deal(cells[k..], rows, n - 1)[c - 1];
      MulPred(c, rows);
      DealPositionAt(cells[k..], rows, n - 1, c - 1, r, p - rows);
      if k == rows {
        assert p - rows < |cells[k..]| ==> cells[k..][p - rows] == cells[p];
      } else {
        assert |cells| < rows <= p;
      }
    }
  }

  lemma MulPred(c: nat, rows: nat)
    requires c > 0
    ensures c * rows == (c - 1) * rows + rows && (c - 1) * rows >= 0
  {
  }

  function CeilDiv(a: nat, b: nat): nat
    requires b > 0
  {
    (a + b - 1) / b
  }

  lemma DivUnique(x: int, d: nat, q: int, r: int)
    requires d > 0 && x == q * d + r && 0 <= r < d
    ensures x / d == q
  {
    var q', r' := x / d, x % d;
    assert (q - q') * d == r' - r;
    if q > q' {
      MulAtLeast(q - q', d);
    } else if q < q' {
      MulAtLeast(q' - q, d);
    }
  }

  lemma {:induction false} MulAtLeast(k: int, d: nat)
    requires k >= 1
    ensures k * d >= d
  {
    if k > 1 {
      MulAtLeast(k - 1, d);
      assert k * d == (k - 1) * d + d;
    }
  }

  lemma OldCapacityCovers(o: nat, rows: nat)
    requires rows >= 2
    ensures o * (rows - 1) >= (o / 2) * rows
  {
    var h, r := o / 2, o % 2;
    assert o == 2 * h + r;
    assert o * (rows - 1) - h * rows == h * (rows - 2) + r * (rows - 1);
  }

  /**
   * `new_column_count`: half the columns, plus as many as it takes to hold
   * the old capacity that half cannot (the `float` ceiling taken exactly).
   */
  function NewColumnCount(o: nat, rows: nat): nat
    requires rows >= 2
  {
    var oldCap := o * (rows - 1);
    var n := o / 2;
    var newCap := n * rows;
    OldCapacityCovers(o, rows);
    n + CeilDiv(oldCap - newCap, rows)
  }

  /**
   * The new column count is `o - o / rows`: never more columns than before,
   * and enough of them to hold every cell the old columns could.
   */
  lemma NewColumnCountBounds(o: nat, rows: nat)
    requires rows >= 2
    ensures NewColumnCount(o, rows) == o - o / rows
    ensures NewColumnCount(o, rows) <= o
    ensures NewColumnCount(o, rows) * rows >= o * (rows - 1)
  {
    var h, q, r := o / 2, o / rows, o % rows;
    assert o == q * rows + r;
    OldCapacityCovers(o, rows);
    var a := o * (rows - 1) - h * rows;
    assert a + rows - 1 == (o - h - q) * rows + (rows - 1 - r);
    DivUnique(a + rows - 1, rows, o - h - q, rows - 1 - r);
    assert (o - q) * rows == o * rows - q * rows;
  }

  /** Every cell that fitted the old columns of `rows - 1` fits the new ones of `rows`. */
  lemma NewCapacityCovers(cells: seq<Element>, rows: nat, o: nat)
    requires rows >= 2 && Leftover(cells, rows - 1, o) == []
    ensures |cells| <= NewColumnCount(o, rows) * rows
  {
    NewColumnCountBounds(o, rows);
    LeftoverCapacity(cells, rows - 1, o);
    var cap, nc := o * (rows - 1), NewColumnCount(o, rows);
    assert |cells| <= cap <= nc * rows;
  }

  /**
   * The cell `add` makes for a file: the display width of its name, plus one
   * for an indicator when `classify` is on, and quoted when default quoting is on and the name
   * begins and ends with the same `'` or `"`.
   */
  function ElementFor(f: FileInfo, classify: bool, quoting: QuoteMode): Element
    requires f.name != [] && Framed(f.name)
  {
    var first := f.name[0];
    Element(f, Width(f.name) + (if classify && FileIndicator(f.fileType) != 0 then 1 else 0),
            quoting == QuoteDefault && (first == SQUOTE || first == DQUOTE) && first == f.name[|f.name| - 1])
  }

  /** `total_width`: the column widths plus the gaps between columns, one wider with a quoted cell. */
  function GridWidth(widths: seq<nat>, hasQuoted: bool): (w: nat)
    ensures w < TWO_64
    ensures Sum(widths) < TWO_64 && |widths| == 1 ==> w == widths[0]
  {
    assert |widths| == 1 ==> Sum(widths) == Sum([]) + widths[0] by {
      if |widths| == 1 { assert widths[..0] == []; }
    }
    (Sum(widths) + (|widths| - 1) * (SEPARATOR + (if hasQuoted then 1 else 0))) % TWO_64
  }

  /**
   * How many columns `add` leaves after placing the last of `cells` into `n`
   * columns of `rows`: one more exactly when that cell does not fit them.
   */
  function PlacedCount(cells: seq<Element>, rows: nat, n: nat): nat
  {
    if Leftover(cells, rows, n) == [] then n else n + 1
  }

  /** The width of each column of a grid: its widest cell. */
  function ColumnWidths(css: seq<seq<Element>>): (r: seq<nat>)
    ensures |r| == |css|
    ensures forall i :: 0 <= i < |css| ==> r[i] == MaxNet(css[i])
  {
    seq(|css|, i requires 0 <= i < |css| => MaxNet(css[i]))
  }

  function Sum(xs: seq<nat>): nat
  {
    if xs == [] then 0 else Sum(xs[..|xs| - 1]) + xs[|xs| - 1]
  }

  /** The column-major grid of the default output format. */
  class Columns {
    var columns: seq<Column>
    var rows: nat
    var hasQuoted: bool
    /** Every cell added so far, in the order `add` received them. */
    ghost var cells: seq<Element>
    /** The cells of each column, mirrored. */
    ghost var contents: seq<seq<Element>>

    /**
     * The columns are distinct objects with correct cached widths, and they
     * hold exactly `cells` dealt in order into columns of `rows`, all of
     * them fitting.
     */
    ghost predicate Valid()
      reads this, columns
    {
      && rows >= 1
      && |contents| == |columns|
      && (forall i, j :: 0 <= i < j < |columns| ==> columns[i] != columns[j])
      && (forall i :: 0 <= i < |columns| ==> columns[i].Valid() && columns[i].elems == contents[i])
      && contents == Deal(cells, rows, |contents|)
      && Leftover(cells, rows, |contents|) == []
    }

    function Widths(): (r: seq<nat>)
      reads this, columns
      ensures |r| == |columns|
      ensures forall i :: 0 <= i < |columns| ==> r[i] == columns[i].width
    {
      seq(|columns|, i reads this, columns requires 0 <= i < |columns| => columns[i].width)
    }

    /** On a valid grid the cached widths are those of the dealt cells. */
    lemma WidthsOfValid()
      requires Valid()
      ensures Widths() == ColumnWidths(contents)
    {
    }

    /** The cells of every column, in order. */
    function ColumnCells(): (r: seq<seq<Element>>)
      reads this, columns
      ensures |r| == |columns|
      ensures forall i :: 0 <= i < |columns| ==> r[i] == columns[i].elems
    {
      seq(|columns|, i reads this, columns requires 0 <= i < |columns| => columns[i].elems)
    }

    constructor ()
      ensures Valid()
      ensures columns == [] && rows == 1 && !hasQuoted && cells == []
    {
      columns := [];
      rows := 1;
      hasQuoted := false;
      cells := [];
      contents := [];
    }

    /** `std::find_if` for the first column holding fewer than `rows` cells. */
    method FirstOpen() returns (k: nat)
      ensures k <= |columns|
      ensures forall j :: 0 <= j < k ==> |columns[j].elems| >= rows
      ensures k < |columns| ==> |columns[k].elems| < rows
    {
      k := 0;
      while k < |columns| && |columns[k].elems| >= rows
        invariant k <= |columns|
        invariant forall j :: 0 <= j < k ==> |columns[j].elems| >= rows
      {
        k := k + 1;
      }
    }

    /** The loop of `total_width`. */
    method TotalWidth() returns (w: nat)
      ensures w == GridWidth(Widths(), hasQuoted)
    {
      var sum := 0;
      var i := 0;
      while i < |columns|
        invariant i <= |columns|
        invariant sum == Sum(Widths()[..i])
      {
        assert Widths()[..i + 1][..i] == Widths()[..i];
        sum := sum + columns[i].width;
        i := i + 1;
      }
      assert Widths()[..i] == Widths();
      w := (sum + (|columns| - 1) * (SEPARATOR + (if hasQuoted then 1 else 0))) % TWO_64;
    }

    /**
     * What `print` writes for row `r` of column `c`: nothing for a missing
     * cell, except `...` in the last row of the last column; otherwise the
     * name, after a space when some other cell is quoted and this one is
     * not, padded to the column width (one wider with quoting) unless the
     * column is the last, and followed by the separator unless it is the last.
     */
    function Shown(r: nat, c: nat): Piece
      reads this, columns
      requires c < |columns|
    {
      var col := columns[c];
      var isNotLast := c + 1 < |columns|;
      if r >= |col.elems| then
        if r + 1 == rows && !isNotLast then Ellipsis else Skip
      else
        var e := col.elems[r];
        var pad := if !isNotLast then 0 else if hasQuoted then col.width + (if e.isQuoted then 1 else 0) else col.width;
        Name(e.file, hasQuoted && !e.isQuoted, pad, isNotLast)
    }

    /** `print`: `rows` lines, each holding what every column shows in that row. */
    method Print() returns (lines: seq<seq<Piece>>)
      ensures |lines| == rows
      ensures forall r :: 0 <= r < rows ==> |lines[r]| == |columns|
      ensures forall r, c :: 0 <= r < rows && 0 <= c < |columns| ==> lines[r][c] == Shown(r, c)
    {
      lines := [];
      var r := 0;
      while r < rows
        invariant r <= rows && |lines| == r
        invariant forall i :: 0 <= i < r ==> |lines[i]| == |columns|
        invariant forall i, c :: 0 <= i < r && 0 <= c < |columns| ==> lines[i][c] == Shown(i, c)
      {
        var line: seq<Piece> := [];
        var c := 0;
        while c < |columns|
          invariant c <= |columns| && |line| == c
          invariant forall j :: 0 <= j < c ==> line[j] == Shown(r, j)
        {
          var isNotLast := c + 1 < |columns|;
          var col := columns[c];
          var piece := Skip;
          if r >= |col.elems| {
            if r + 1 == rows && c + 1 == |columns| {
              piece := Ellipsis;
            }
          } else {
            var e := col.elems[r];
            var pad := 0;
            if hasQuoted {
              pad := if isNotLast then col.width + (if e.isQuoted then 1 else 0) else 0;
            } else {
              pad := if isNotLast then col.width else 0;
            }
            piece := Name(e.file, hasQuoted && !e.isQuoted, pad, isNotLast);
          }
          line := line + [piece];
          c := c + 1;
        }
        lines := lines + [line];
        r := r + 1;
      }
    }

    /** `next`: the position after (`col`, `row`) in column-major order. */
    method Next(col: nat, row: nat) returns (col': nat, row': nat)
      requires row < rows
      ensures row' < rows
      ensures col' * rows + row' == col * rows + row + 1
      ensures row + 1 < rows ==> col' == col && row' == row + 1
      ensures row + 1 == rows ==> col' == col + 1 && row' == 0
    {
      col', row' := col, row + 1;
      if row' == rows {
        col', row' := col' + 1, 0;
      }
    }

    /**
     * `add`: the file's cell goes into the first column with room, or a new
     * column when all are full (`placed` columns in all); the grid grows one
     * row and is dealt again into `new_column_count()` columns exactly when
     * the total width of the grid after placing, with the gaps, is at least
     * `termWidth`.
     */
    method Add(f: FileInfo, classify: bool, quoting: QuoteMode, termWidth: nat)
      requires Valid() && f.name != [] && Framed(f.name)
      modifies this, columns
      ensures Valid()
      ensures cells == old(cells) + [ElementFor(f, classify, quoting)]
      ensures hasQuoted == (old(hasQuoted) || ElementFor(f, classify, quoting).isQuoted)
      ensures rows == old(rows) || rows == old(rows) + 1
      ensures var placed := PlacedCount(cells, old(rows), old(|columns|));
        && (rows == old(rows) + 1 <==> GridWidth(ColumnWidths(Deal(cells, old(rows), placed)), hasQuoted) >= termWidth)
        && (rows == old(rows) ==> |columns| == placed)
        && (rows == old(rows) + 1 ==> |columns| == NewColumnCount(placed, rows))
    {
      var e := CellFor(f, classify, quoting);
      Place(e);
      ghost var placed, dealt := |columns|, contents;
      assert placed == PlacedCount(cells, rows, old(|columns|));
      assert dealt == Deal(cells, rows, placed);
      if e.isQuoted {
        hasQuoted := true;
      }
      ghost var n := |columns|;
      GrowIfWide(termWidth);
      assert rows == old(rows) + 1 <==> GridWidth(ColumnWidths(dealt), hasQuoted) >= termWidth;
      assert rows == old(rows) + 1 ==> |columns| == NewColumnCount(n, rows);
    }

    /** The end of `add`: one more row and a new deal when the grid is at least `termWidth` wide. */
    method GrowIfWide(termWidth: nat)
      requires Valid()
      modifies this
      ensures Valid()
      ensures cells == old(cells) && hasQuoted == old(hasQuoted)
      ensures rows == old(rows) + 1 <==> GridWidth(ColumnWidths(old(contents)), hasQuoted) >= termWidth
      ensures rows == old(rows) || rows == old(rows) + 1
      ensures rows == old(rows) ==> |columns| == old(|columns|)
      ensures rows == old(rows) + 1 ==> |columns| == NewColumnCount(old(|columns|), rows)
    {
      WidthsOfValid();
      var total := TotalWidth();
      if total >= termWidth {
        Grow();
      }
    }

    /** The cell `add` builds for a file, its width measured by `display_width`. */
    static method CellFor(f: FileInfo, classify: bool, quoting: QuoteMode) returns (e: Element)
      requires f.name != [] && Framed(f.name)
      ensures e == ElementFor(f, classify, quoting)
    {
      var w := DisplayWidth(f.name);
      if classify && FileIndicator(f.fileType) != 0 {
        w := w + 1;
      }
      var first := f.name[0];
      var isQuoted := quoting == QuoteDefault && (first == SQUOTE || first == DQUOTE) && first == f.name[|f.name| - 1];
      e := Element(f, w, isQuoted);
    }

    /** The growth step of `add`: one more row, and every cell dealt again. */
    method Grow()
      requires Valid()
      modifies this
      ensures Valid()
      ensures cells == old(cells) && hasQuoted == old(hasQuoted) && rows == old(rows) + 1
      ensures |columns| == NewColumnCount(old(|columns|), rows)
    {
      DealFlatten(cells, rows, |columns|);
      LeftoverCapacity(cells, rows, |columns|);
      rows := rows + 1;
      Reorder();
    }

    /** The placement step of `add`: a new column exactly when the cell does not fit the old ones. */
    method Place(e: Element)
      requires Valid()
      modifies this, columns
      ensures Valid()
      ensures cells == old(cells) + [e]
      ensures rows == old(rows) && hasQuoted == old(hasQuoted)
      ensures |columns| == PlacedCount(cells, rows, old(|columns|))
    {
      var k := FirstOpen();
      if k == |columns| {
        FullOverflows(cells, e, rows, |columns|);
        AppendColumn(e);
      } else {
        DealIntoOpen(cells, e, rows, |columns|, k);
        AddToColumn(k, e);
      }
    }

    /** Every column is full: a new column holding only `e` goes at the end. */
    method AppendColumn(e: Element)
      requires Valid()
      requires forall j :: 0 <= j < |columns| ==> |columns[j].elems| >= rows
      modifies this
      ensures Valid()
      ensures cells == old(cells) + [e]
      ensures rows == old(rows) && hasQuoted == old(hasQuoted)
      ensures |columns| == old(|columns|) + 1 && columns[..old(|columns|)] == old(columns)
    {
      DealIntoNew(cells, e, rows, |columns|);
      var c := NewColumn(e);
      columns := columns + [c];
      contents := contents + [[e]];
      cells := cells + [e];
    }

    /** `emplace_back().add(...)`: a fresh column holding only `e`. */
    static method NewColumn(e: Element) returns (c: Column)
      ensures fresh(c) && c.Valid() && c.elems == [e]
    {
      c := new Column();
      c.Emplace(e.file, e.width, e.isQuoted);
    }

    /** `e` goes at the end of column `k`, the first one with room. */
    method AddToColumn(k: nat, e: Element)
      requires Valid()
      requires k < |columns| && |columns[k].elems| < rows
      requires forall j :: 0 <= j < k ==> |columns[j].elems| >= rows
      modifies columns[k], this
      ensures Valid()
      ensures cells == old(cells) + [e]
      ensures rows == old(rows) && hasQuoted == old(hasQuoted)
      ensures columns == old(columns)
    {
      DealIntoOpen(cells, e, rows, |columns|, k);
      columns[k].Emplace(e.file, e.width, e.isQuoted);
      contents := contents[k := contents[k] + [e]];
      cells := cells + [e];
    }

    /**
     * `reorder`: deals every cell again, in reading order, into
     * `new_column_count()` fresh columns of `rows` cells.
     */
    method Reorder()
      requires rows >= 2 && |contents| == |columns|
      requires forall i :: 0 <= i < |columns| ==> columns[i].elems == contents[i]
      requires Flatten(contents) == cells
      requires Leftover(cells, rows - 1, |columns|) == []
      modifies this
      ensures Valid()
      ensures cells == old(cells) && rows == old(rows) && hasQuoted == old(hasQuoted)
      ensures |columns| == NewColumnCount(old(|columns|), rows)
      ensures forall i :: 0 <= i < |columns| ==> fresh(columns[i])
    {
      var n := NewColumnCount(|columns|, rows);
      NewCapacityCovers(cells, rows, |columns|);
      var byColumn := ColumnCells();
      assert byColumn == contents;
      var newColumns;
      ghost var newContents;
      newColumns, newContents := Redeal(n, byColumn);
      columns := newColumns;
      contents := newContents;
    }

    /** The body of `reorder` before the swap: `n` fresh columns, every cell dealt into them. */
    method Redeal(n: nat, byColumn: seq<seq<Element>>) returns (newColumns: seq<Column>, ghost newContents: seq<seq<Element>>)
      requires rows >= 1 && Flatten(byColumn) == cells && |cells| <= n * rows
      ensures forall i :: 0 <= i < |newColumns| ==> fresh(newColumns[i])
      ensures exists col: nat, row: nat :: Dealing(newColumns, newContents, n, rows, cells, col, row)
    {
      newColumns := NewColumns(n);
      var col, row;
      newContents, col, row := DealAll(newColumns, n, byColumn);
    }

    /**
     * The nested dealing loops of `reorder`: the cells of every old column
     * (`byColumn`), in reading order, into `newColumns`.
     */
    method DealAll(newColumns: seq<Column>, n: nat, byColumn: seq<seq<Element>>)
      returns (ghost newContents: seq<seq<Element>>, col: nat, row: nat)
      requires rows >= 1 && Flatten(byColumn) == cells && |cells| <= n * rows
      requires Dealing(newColumns, Deal([], rows, n), n, rows, [], 0, 0)
      modifies newColumns
      ensures Dealing(newColumns, newContents, n, rows, cells, col, row)
    {
      ghost var dealt: seq<Element> := [];
      newContents := Deal([], rows, n);
      col, row := 0, 0;
      var ci := 0;
      while ci < |byColumn|
        invariant ci <= |byColumn|
        invariant dealt == Flatten(byColumn[..ci])
        invariant Dealing(newColumns, newContents, n, rows, dealt, col, row)
      {
        var elems := byColumn[ci];
        FlattenPrefix(byColumn, ci);
        FlattenNext(byColumn, ci);
        newContents, col, row := DealColumn(newColumns, newContents, n, dealt, col, row, elems);
        dealt := dealt + elems;
        ci := ci + 1;
        assert dealt == Flatten(byColumn[..ci]);
      }
      assert byColumn[..ci] == byColumn;
    }

    /** The inner dealing loop of `reorder`: the cells of one old column, in order. */
    method DealColumn(newColumns: seq<Column>, ghost contents: seq<seq<Element>>, n: nat, ghost dealt: seq<Element>,
                      col: nat, row: nat, elems: seq<Element>)
      returns (ghost contents': seq<seq<Element>>, col': nat, row': nat)
      requires Dealing(newColumns, contents, n, rows, dealt, col, row)
      requires |dealt| + |elems| <= n * rows
      modifies newColumns
      ensures Dealing(newColumns, contents', n, rows, dealt + elems, col', row')
    {
      contents', col', row' := contents, col, row;
      var ei := 0;
      assert dealt + elems[..0] == dealt;
      while ei < |elems|
        invariant ei <= |elems|
        invariant Dealing(newColumns, contents', n, rows, dealt + elems[..ei], col', row')
      {
        PrefixSnoc(dealt, elems, ei);
        LeftoverCapacity(dealt + elems[..ei + 1], rows, n);
        contents', col', row' := DealCell(newColumns, contents', n, dealt + elems[..ei], col', row', elems[ei]);
        ei := ei + 1;
      }
      assert elems[..ei] == elems;
    }

    /** One step of the dealing loop of `reorder`: `x` goes to (`col`, `row`), then `next`. */
    method DealCell(newColumns: seq<Column>, ghost contents: seq<seq<Element>>, n: nat, ghost dealt: seq<Element>,
                    col: nat, row: nat, x: Element)
      returns (ghost contents': seq<seq<Element>>, col': nat, row': nat)
      requires Dealing(newColumns, contents, n, rows, dealt, col, row)
      requires Leftover(dealt + [x], rows, n) == []
      modifies newColumns
      ensures Dealing(newColumns, contents', n, rows, dealt + [x], col', row')
    {
      if col == n {
        FullOverflows(dealt, x, rows, n);
        assert false;
      }
      DealIntoOpen(dealt, x, rows, n, col);
      newColumns[col].Add(x);
      contents' := contents[col := contents[col] + [x]];
      col', row' := Next(col, row);
    }

    /** The `emplace_back` loop of `reorder`: `n` fresh, empty columns. */
    method NewColumns(n: nat) returns (cs: seq<Column>)
      requires rows >= 1
      ensures forall i :: 0 <= i < |cs| ==> fresh(cs[i])
      ensures Dealing(cs, Deal([], rows, n), n, rows, [], 0, 0)
    {
      DealNothing(rows, n);
      cs := [];
      while |cs| < n
        invariant |cs| <= n
        invariant forall i :: 0 <= i < |cs| ==> fresh(cs[i]) && cs[i].Valid() && cs[i].elems == []
        invariant forall i, j :: 0 <= i < j < |cs| ==> cs[i] != cs[j]
      {
        var c := new Column();
        cs := cs + [c];
      }
    }
  }

  /**
   * `print` on a valid grid: row `r` of column `c` shows cell number
   * `c * rows + r` when there is one; a missing cell shows nothing, except
   * `...` in the last row of the last column; every column but the last is
   * padded to at least the cell's width and followed by the separator, and
   * the last is neither.
   */
  lemma PrintShowsCells(g: Columns, r: nat, c: nat)
    requires g.Valid() && r < g.rows && c < |g.columns|
    ensures var p, i := g.Shown(r, c), c * g.rows + r;
      && (p.Name? <==> i < |g.cells|)
      && (i < |g.cells| ==> p.Name? && p.file == g.cells[i].file)
      && (i < |g.cells| && c + 1 < |g.columns| ==> p.Name? && p.separator && p.pad >= Net(g.cells[i]))
      && (i < |g.cells| && c + 1 == |g.columns| ==> p.Name? && !p.separator && p.pad == 0)
      && (p == Ellipsis <==> r + 1 == g.rows && c + 1 == |g.columns| && i >= |g.cells|)
  {
    DealPosition(g.cells, g.rows, |g.columns|, c, r);
  }

  /**
   * The state of `reorder` part way: the fresh columns hold the cells dealt
   * so far, (`col`, `row`) is where the next one goes, every column before it
   * is full and every column after it is empty.
   */
  ghost predicate Dealing(newColumns: seq<Column>, contents: seq<seq<Element>>, n: nat, rows: nat, dealt: seq<Element>, col: nat, row: nat)
    reads newColumns
  {
    && |newColumns| == n && |contents| == n
    && (forall i, j :: 0 <= i < j < n ==> newColumns[i] != newColumns[j])
    && (forall i :: 0 <= i < n ==> newColumns[i].Valid() && newColumns[i].elems == contents[i])
    && contents == Deal(dealt, rows, n)
    && Leftover(dealt, rows, n) == []
    && col <= n && row < rows
    && (col < n ==> |contents[col]| == row)
    && (col == n ==> row == 0)
    && (forall j :: 0 <= j < col ==> |contents[j]| >= rows)
    && (forall j :: col < j < n ==> contents[j] == [])
  }

  lemma FlattenNext(css: seq<seq<Element>>, ci: nat)
    requires ci < |css|
    ensures Flatten(css[..ci + 1]) == Flatten(css[..ci]) + css[ci]
  {
    assert css[..ci + 1] == css[..ci] + [css[ci]];
    FlattenSnoc(css[..ci], css[ci]);
  }

  lemma {:induction false} FlattenAppend(a: seq<seq<Element>>, b: seq<seq<Element>>)
    ensures Flatten(a + b) == Flatten(a) + Flatten(b)
  {
    if a == [] {
      assert a + b == b;
    } else {
      assert (a + b)[0] == a[0] && (a + b)[1..] == a[1..] + b;
      FlattenAppend(a[1..], b);
    }
  }

  lemma FlattenPrefix(css: seq<seq<Element>>, k: nat)
    requires k < |css|
    ensures |Flatten(css[..k])| + |css[k]| <= |Flatten(css)|
  {
    assert css == css[..k] + [css[k]] + css[k + 1..];
    FlattenAppend(css[..k] + [css[k]], css[k + 1..]);
    FlattenSnoc(css[..k], css[k]);
  }
}

=== FILE: common.dfy ===
/** Shared vocabulary: bytes, C-style integer conversions and an Option type. */
module Common {

  /** One byte of a file name, argument or pattern (an unsigned 8-bit value). */
  type Byte = b: int | 0 <= b < 256

  datatype Option<T> = None | Some(value: T)

  /** The bytes of an ASCII/Latin-1 literal, used to write concrete names in lemmas. */
  function Lit(s: string): (r: seq<Byte>)
    requires forall i :: 0 <= i < |s| ==> s[i] as int < 256
    ensures |r| == |s|
    ensures forall i :: 0 <= i < |s| ==> r[i] == s[i] as int
  {
    seq(|s|, i requires 0 <= i < |s| => s[i] as int)
  }

  /**
   * The byte at `k` of a view into a NUL-terminated C string: the byte just
   * past the end reads as the terminating NUL.
   */
  function At(s: seq<Byte>, k: nat): Byte
    requires k <= |s|
  {
    if k < |s| then s[k] else 0
  }

  /** The value a byte has as a (signed) `char` on the x86-64 ABI. */
  function SignedChar(b: Byte): (c: int)
    ensures -128 <= c < 128
    ensures c % 256 == b
  {
    if b < 128 then b else b - 256
  }

  const TWO_32: int := 0x1_0000_0000
  const TWO_31: int := 0x8000_0000

  /** Conversion of any integer to a 32-bit `int` (modular, as C++20 defines it). */
  function ToInt32(x: int): (r: int)
    ensures -TWO_31 <= r < TWO_31
    ensures (r - x) % TWO_32 == 0
  {
    var m := x % TWO_32;
    if m < TWO_31 then m else m - TWO_32
  }

  lemma ToInt32Small(x: int)
    requires -TWO_31 <= x < TWO_31
    ensures ToInt32(x) == x
  {
  }

  function Sign(x: int): (r: int)
    ensures r == 0 <==> x == 0
    ensures r < 0 <==> x < 0
    ensures -1 <= r <= 1
  {
    if x < 0 then -1 else if x > 0 then 1 else 0
  }

  /** ASCII "is printable" in the C locale: 0x20 (space) through 0x7e (`~`). */
  predicate IsPrint(c: int)
  {
    0x20 <= c <= 0x7e
  }

  /** ASCII punctuation in the C locale: printable, not a letter, digit or space. */
  predicate IsPunct(c: int)
  {
    (0x21 <= c <= 0x2f) || (0x3a <= c <= 0x40) || (0x5b <= c <= 0x60) || (0x7b <= c <= 0x7e)
  }

  predicate IsDigit(c: int)
  {
    '0' as int <= c <= '9' as int
  }

  /** `std::tolower` in the C locale. */
  function ToLower(c: int): (r: int)
    ensures ('A' as int <= c <= 'Z' as int) ==> r == c + 32
    ensures !('A' as int <= c <= 'Z' as int) ==> r == c
  {
    if 'A' as int <= c <= 'Z' as int then c + 32 else c
  }
}

=== FILE: files.dfy ===
/**
 * What the lister knows about a file, and the helpers that classify it and
 * measure it for the long listing: the file type and its indicator and type
 * letter, the permission renderings, the width of a displayed name and the
 * column widths of the long format.
 */
module Files {
  import opened Common
  import opened Unicode

  /** The lister's own file classification (`FileType`, in declaration order). */
  datatype FileType = Unknown | Regular | Directory | Symlink | Block | Character | Fifo | Socket | Executable | Temporary

  /** The kinds `std::filesystem::file_type` reports. */
  datatype FsType = FsNone | FsNotFound | FsRegular | FsDirectory | FsSymlink | FsBlock | FsCharacter | FsFifo | FsSocket | FsUnknown

  /** Permission bits as `std::filesystem::perms` holds them (POSIX mode bits). */
  type Perms = bv16

  const OWNER_READ: Perms := 0x100
  const OWNER_WRITE: Perms := 0x80
  const OWNER_EXEC: Perms := 0x40
  const GROUP_READ: Perms := 0x20
  const GROUP_WRITE: Perms := 0x10
  const GROUP_EXEC: Perms := 0x8
  const OTHERS_READ: Perms := 0x4
  const OTHERS_WRITE: Perms := 0x2
  const OTHERS_EXEC: Perms := 0x1

  /**
   * A listed file.  `path` is the file name as the system returns it (used for
   * sorting), `name` the decorated name that is printed, and `target` the file
   * a symbolic link points to.
   */
  datatype FileInfo = FileInfo(
    path: seq<Byte>,
    name: seq<Byte>,
    target: Option<FileInfo>,
    owner: seq<Byte>,
    group: seq<Byte>,
    size: nat,
    time: int,
    fileType: FileType,
    linkCount: nat,
    perms: Perms)

  /** `file_type`: a regular file with any execute bit is executable; other kinds map one to one. */
  function FileTypeOf(kind: FsType, p: Perms): FileType
  {
    match kind
    case FsRegular =>
      if p & OWNER_EXEC != 0 || p & GROUP_EXEC != 0 || p & OTHERS_EXEC != 0 then Executable else Regular
    case FsDirectory => Directory
    case FsSymlink => Symlink
    case FsBlock => Block
    case FsCharacter => Character
    case FsFifo => Fifo
    case FsSocket => Socket
    case _ => Unknown
  }

  /**
   * `file_indicator`: the character appended with classification on (the
   * default; `-F` / `--no-classify` turn it off), 0 for none.
   */
  function FileIndicator(t: FileType): (c: Byte)
    ensures c != 0 <==> t in {Directory, Symlink, Fifo, Socket, Executable}
  {
    match t
    case Directory => '/' as int
    case Symlink => '@' as int
    case Fifo => '|' as int
    case Socket => '=' as int
    case Executable => '*' as int
    case _ => 0
  }

  /** `file_type_letters`, indexed by the enumeration value of the type. */
  const FILE_TYPE_LETTERS: seq<Byte> := Lit("?-dlbcps--")

  function TypeIndex(t: FileType): (k: nat)
    ensures k < 10
  {
    match t
    case Unknown => 0
    case Regular => 1
    case Directory => 2
    case Symlink => 3
    case Block => 4
    case Character => 5
    case Fifo => 6
    case Socket => 7
    case Executable => 8
    case Temporary => 9
  }

  /** The first character of a long-listing line. */
  function TypeLetter(t: FileType): Byte
  {
    FILE_TYPE_LETTERS[TypeIndex(t)]
  }

  /**
   * Classification seen through the long listing and the indicator: the type letter
   * names the kind the system reported, and the `*` indicator appears exactly
   * for regular files with an execute bit.
   */
  lemma Classification(kind: FsType, p: Perms)
    ensures var t := FileTypeOf(kind, p);
      && (TypeLetter(t) == 'd' as int <==> kind == FsDirectory)
      && (TypeLetter(t) == 'l' as int <==> kind == FsSymlink)
      && (TypeLetter(t) == 'b' as int <==> kind == FsBlock)
      && (TypeLetter(t) == 'c' as int <==> kind == FsCharacter)
      && (TypeLetter(t) == 'p' as int <==> kind == FsFifo)
      && (TypeLetter(t) == 's' as int <==> kind == FsSocket)
      && (TypeLetter(t) == '-' as int <==> kind == FsRegular)
      && (TypeLetter(t) == '?' as int <==> kind in {FsNone, FsNotFound, FsUnknown})
      && (FileIndicator(t) == '*' as int <==> kind == FsRegular && p & (OWNER_EXEC | GROUP_EXEC | OTHERS_EXEC) != 0)
      && (FileIndicator(t) == 0 <==> kind !in {FsDirectory, FsSymlink, FsFifo, FsSocket} && FileIndicator(t) != '*' as int)
  {
    var t := FileTypeOf(kind, p);
    assert FILE_TYPE_LETTERS == [0x3f, 0x2d, 0x64, 0x6c, 0x62, 0x63, 0x70, 0x73, 0x2d, 0x2d];
    assert FileIndicator(t) == '*' as int <==> kind == FsRegular && p & (OWNER_EXEC | GROUP_EXEC | OTHERS_EXEC) != 0 by {
      if kind == FsRegular {
        ExecBits(p);
      }
    }
  }

  lemma ExecBits(p: Perms)
    ensures (p & OWNER_EXEC != 0 || p & GROUP_EXEC != 0 || p & OTHERS_EXEC != 0)
        <==> p & (OWNER_EXEC | GROUP_EXEC | OTHERS_EXEC) != 0
  {
  }

  /** The names whose widths the long listing measures can be decoded. */
  predicate WellFramed(f: FileInfo)
  {
    && Framed(f.name) && Framed(f.owner) && Framed(f.group)
    && (f.target.Some? ==> Framed(f.target.value.name))
  }

  /**
   * `file_name_width` as written: the name, its indicator when `classify` is on, and for
   * a link ` -> ` and the target's name followed by the indicator of the link
   * itself again.
   */
  function FileNameWidth(f: FileInfo, classify: bool): int
    requires WellFramed(f)
  {
    var ind := if classify then CharWidth(FileIndicator(f.fileType)) else 0;
    Width(f.name) + ind
      + (if f.target.Some? then 4 + Width(f.target.value.name) + ind else 0)
  }

  /** `file_name_width` counting the target's own indicator, as `print_file_name` prints it. */
  function FileNameWidthFixed(f: FileInfo, classify: bool): int
    requires WellFramed(f)
  {
    var ind := if classify then CharWidth(FileIndicator(f.fileType)) else 0;
    Width(f.name) + ind
      + (if f.target.Some? then
           4 + Width(f.target.value.name)
             + (if classify then CharWidth(FileIndicator(f.target.value.fileType)) else 0)
         else 0)
  }

  /** The indicator `print_file_name` prints when `classify` is on (nothing for 0). */
  function IndicatorText(t: FileType, classify: bool): seq<Byte>
  {
    if classify && FileIndicator(t) != 0 then [FileIndicator(t)] else []
  }

  /** ` -> ` */
  const ARROW: seq<Byte> := [0x20, 0x2d, 0x3e, 0x20]

  /** The name followed by its indicator when `classify` is on. */
  function Decorated(f: FileInfo, classify: bool): seq<Byte>
  {
    f.name + IndicatorText(f.fileType, classify)
  }

  /**
   * The text `print_file_name` writes for a file of the long listing, colours
   * aside: the name, its indicator, and for a link ` -> ` and the target
   * printed the same way.
   */
  function PrintedName(f: FileInfo, classify: bool): seq<Byte>
    decreases f
  {
    Decorated(f, classify) + (if f.target.Some? then ARROW + PrintedName(f.target.value, classify) else [])
  }

  lemma IndicatorWidth(t: FileType, classify: bool)
    ensures Framed(IndicatorText(t, classify))
    ensures Width(IndicatorText(t, classify)) == (if classify then CharWidth(FileIndicator(t)) else 0)
  {
    var s := IndicatorText(t, classify);
    if s != [] {
      assert s[1..] == [];
      CharWidthTable(s[0]);
      assert !InWideRange(s[0]);
    } else if classify {
      CharWidthTable(0);
    }
  }

  lemma DecoratedWidth(f: FileInfo, classify: bool)
    requires Framed(f.name)
    ensures Framed(Decorated(f, classify))
    ensures Width(Decorated(f, classify)) == Width(f.name) + (if classify then CharWidth(FileIndicator(f.fileType)) else 0)
  {
    IndicatorWidth(f.fileType, classify);
    WidthAppend(f.name, IndicatorText(f.fileType, classify));
  }

  lemma ArrowWidth()
    ensures Framed(ARROW) && Width(ARROW) == 4
  {
    AsciiWidth(ARROW);
  }

  /**
   * The corrected width is the display width of what is printed for the
   * file (a link target never has a target of its own).
   */
  lemma FixedWidthIsPrintedWidth(f: FileInfo, classify: bool)
    requires WellFramed(f)
    requires f.target.Some? ==> f.target.value.target.None?
    ensures Framed(PrintedName(f, classify))
    ensures FileNameWidthFixed(f, classify) == Width(PrintedName(f, classify))
  {
    DecoratedWidth(f, classify);
    if f.target.Some? {
      TargetPart(f.target.value, classify);
      WidthAppend(Decorated(f, classify), ARROW + PrintedName(f.target.value, classify));
    } else {
      assert PrintedName(f, classify) == Decorated(f, classify);
    }
  }

  lemma TargetPart(t: FileInfo, classify: bool)
    requires Framed(t.name) && t.target.None?
    ensures Framed(ARROW + PrintedName(t, classify))
    ensures Width(ARROW + PrintedName(t, classify))
      == 4 + Width(t.name) + (if classify then CharWidth(FileIndicator(t.fileType)) else 0)
  {
    DecoratedWidth(t, classify);
    assert PrintedName(t, classify) == Decorated(t, classify);
    ArrowWidth();
    WidthAppend(ARROW, PrintedName(t, classify));
  }

  /**
   * As written, a link `l` to a plain file `f`, listed without `-F`, is measured
   * one column wider than the `l@ -> f` that is printed, so the padding after
   * it comes out one short.
   */
  lemma LinkWidthOvercounts(link: FileInfo)
    requires link.name == Lit("l") && link.fileType == Symlink
    requires link.target.Some? && link.target.value.name == Lit("f")
    requires link.target.value.fileType == Regular && link.target.value.target.None?
    requires Framed(link.owner) && Framed(link.group)
    ensures WellFramed(link) && Framed(PrintedName(link, true))
    ensures FileNameWidth(link, true) == Width(PrintedName(link, true)) + 1
  {
    AsciiWidth(Lit("l"));
    AsciiWidth(Lit("f"));
    FixedWidthIsPrintedWidth(link, true);
    CharWidthTable('@' as int);
    CharWidthTable(0);
    assert !InWideRange('@' as int);
  }

  /** `int_len`: the decimal digit count below 10^15, and 18 from there on. */
  function IntLen(n: nat): (k: nat)
    ensures 1 <= k <= 18
    ensures k != 16 && k != 17
  {
    if n < 10 then 1
    else if n < 100 then 2
    else if n < 1_000 then 3
    else if n < 10_000 then 4
    else if n < 100_000 then 5
    else if n < 1_000_000 then 6
    else if n < 10_000_000 then 7
    else if n < 100_000_000 then 8
    else if n < 1_000_000_000 then 9
    else if n < 10_000_000_000 then 10
    else if n < 100_000_000_000 then 11
    else if n < 1_000_000_000_000 then 12
    else if n < 10_000_000_000_000 then 13
    else if n < 100_000_000_000_000 then 14
    else if n < 1_000_000_000_000_000 then 15
    else 18
  }

  /** The number of characters `%llu` writes for `n`. */
  function DecimalDigits(n: nat): (k: nat)
    ensures k >= 1
  {
    if n < 10 then 1 else 1 + DecimalDigits(n / 10)
  }

  lemma IntLenStep(n: nat)
    requires 10 <= n < 1_000_000_000_000_000
    ensures IntLen(n) == 1 + IntLen(n / 10)
  {
  }

  /** `int_len` counts decimal digits up to 10^15 and caps at 18 beyond. */
  lemma {:induction false} IntLenCountsDigits(n: nat)
    ensures n < 1_000_000_000_000_000 ==> IntLen(n) == DecimalDigits(n)
    ensures n >= 1_000_000_000_000_000 ==> IntLen(n) == 18
  {
    if 10 <= n < 1_000_000_000_000_000 {
      IntLenStep(n);
      IntLenCountsDigits(n / 10);
    }
  }

  /** The nine permission bits in `rwx` order: owner, group, others. */
  const PERM_BITS: seq<Perms> :=
    [OWNER_READ, OWNER_WRITE, OWNER_EXEC, GROUP_READ, GROUP_WRITE, GROUP_EXEC, OTHERS_READ, OTHERS_WRITE, OTHERS_EXEC]

  function PermChar(p: Perms, bit: Perms, letter: char): Byte
    requires letter as int < 256
  {
    if p & bit != 0 then letter as int else '-' as int
  }

  /** The `rwx` rendering of the permission bits of the long listing. */
  function RwxPerms(p: Perms): (r: seq<Byte>)
    ensures |r| == 9
  {
    [PermChar(p, OWNER_READ, 'r'), PermChar(p, OWNER_WRITE, 'w'), PermChar(p, OWNER_EXEC, 'x'),
     PermChar(p, GROUP_READ, 'r'), PermChar(p, GROUP_WRITE, 'w'), PermChar(p, GROUP_EXEC, 'x'),
     PermChar(p, OTHERS_READ, 'r'), PermChar(p, OTHERS_WRITE, 'w'), PermChar(p, OTHERS_EXEC, 'x')]
  }

  /** The octal rendering: each class's masked bits shifted down, added to `'0'`. */
  function OctPerms(p: Perms): (r: seq<Byte>)
    ensures |r| == 3
  {
    ['0' as int + ((p & 0x1c0) >> 6) as int,
     '0' as int + ((p & 0x38) >> 3) as int,
     '0' as int + (p & 0x7) as int]
  }

  /** The octal digit of a class from its read, write and execute flags. */
  function OctalDigit(r: bool, w: bool, x: bool): (d: Perms)
  {
    (if r then 4 else 0) + (if w then 2 else 0) + (if x then 1 else 0)
  }

  /** 1 when the `rwx` letter is shown, 0 for `-`. */
  function Shown(c: Byte): nat
  {
    if c == '-' as int then 0 else 1
  }

  lemma OctalDigitValue(r: bool, w: bool, x: bool)
    ensures OctalDigit(r, w, x) as int == 4 * (if r then 1 else 0) + 2 * (if w then 1 else 0) + (if x then 1 else 0)
  {
    if r {
      if w { if x { assert OctalDigit(r, w, x) == 7; } else { assert OctalDigit(r, w, x) == 6; } }
      else { if x { assert OctalDigit(r, w, x) == 5; } else { assert OctalDigit(r, w, x) == 4; } }
    } else {
      if w { if x { assert OctalDigit(r, w, x) == 3; } else { assert OctalDigit(r, w, x) == 2; } }
      else { if x { assert OctalDigit(r, w, x) == 1; } else { assert OctalDigit(r, w, x) == 0; } }
    }
  }

  lemma ClassBits(p: Perms)
    ensures (p & 0x1c0) >> 6 == OctalDigit(p & OWNER_READ != 0, p & OWNER_WRITE != 0, p & OWNER_EXEC != 0)
    ensures (p & 0x38) >> 3 == OctalDigit(p & GROUP_READ != 0, p & GROUP_WRITE != 0, p & GROUP_EXEC != 0)
    ensures p & 0x7 == OctalDigit(p & OTHERS_READ != 0, p & OTHERS_WRITE != 0, p & OTHERS_EXEC != 0)
  {
  }

  /**
   * The two renderings agree: each octal digit is 4 for a shown `r`, 2 for a
   * shown `w` and 1 for a shown `x` in the matching `rwx` triple.
   */
  lemma OctalMatchesRwx(p: Perms)
    ensures var o, r := OctPerms(p), RwxPerms(p);
      && o[0] - '0' as int == 4 * Shown(r[0]) + 2 * Shown(r[1]) + Shown(r[2])
      && o[1] - '0' as int == 4 * Shown(r[3]) + 2 * Shown(r[4]) + Shown(r[5])
      && o[2] - '0' as int == 4 * Shown(r[6]) + 2 * Shown(r[7]) + Shown(r[8])
  {
    ClassBits(p);
    OctalDigitValue(p & OWNER_READ != 0, p & OWNER_WRITE != 0, p & OWNER_EXEC != 0);
    OctalDigitValue(p & GROUP_READ != 0, p & GROUP_WRITE != 0, p & GROUP_EXEC != 0);
    OctalDigitValue(p & OTHERS_READ != 0, p & OTHERS_WRITE != 0, p & OTHERS_EXEC != 0);
  }

  lemma LowBitsFromFlags(p: Perms, q: Perms)
    requires p & OWNER_READ == q & OWNER_READ && p & OWNER_WRITE == q & OWNER_WRITE && p & OWNER_EXEC == q & OWNER_EXEC
    requires p & GROUP_READ == q & GROUP_READ && p & GROUP_WRITE == q & GROUP_WRITE && p & GROUP_EXEC == q & GROUP_EXEC
    requires p & OTHERS_READ == q & OTHERS_READ && p & OTHERS_WRITE == q & OTHERS_WRITE && p & OTHERS_EXEC == q & OTHERS_EXEC
    ensures p & 0x1ff == q & 0x1ff
  {
  }

  lemma FlagsFromLowBits(p: Perms, q: Perms)
    requires p & 0x1ff == q & 0x1ff
    ensures p & OWNER_READ == q & OWNER_READ && p & OWNER_WRITE == q & OWNER_WRITE && p & OWNER_EXEC == q & OWNER_EXEC
    ensures p & GROUP_READ == q & GROUP_READ && p & GROUP_WRITE == q & GROUP_WRITE && p & GROUP_EXEC == q & GROUP_EXEC
    ensures p & OTHERS_READ == q & OTHERS_READ && p & OTHERS_WRITE == q & OTHERS_WRITE && p & OTHERS_EXEC == q & OTHERS_EXEC
  {
  }

  lemma SingleBit(p: Perms, q: Perms, bit: Perms)
    requires bit in PERM_BITS
    ensures (p & bit == q & bit) <==> ((p & bit != 0) == (q & bit != 0))
  {
  }

  /** The `rwx` text tells two permission sets apart exactly when their low nine bits differ. */
  lemma RwxDistinguishesPerms(p: Perms, q: Perms)
    ensures RwxPerms(p) == RwxPerms(q) <==> p & 0x1ff == q & 0x1ff
  {
    forall k | 0 <= k < 9 {
      SingleBit(p, q, PERM_BITS[k]);
    }
    if RwxPerms(p) == RwxPerms(q) {
      assert forall k :: 0 <= k < 9 ==> RwxPerms(p)[k] == RwxPerms(q)[k];
      LowBitsFromFlags(p, q);
    }
    if p & 0x1ff == q & 0x1ff {
      FlagsFromLowBits(p, q);
    }
  }

  /** The widths of the long listing's padded columns. */
  datatype Widths = Widths(name: int, link: int, owner: int, group: int, size: int)

  datatype WidthColumn = NameColumn | LinkColumn | OwnerColumn | GroupColumn | SizeColumn

  /**
   * What one file needs in a column: its decorated name, the digits of its
   * link count, its owner and group names, and 5 for a directory or the
   * digits of its size otherwise.
   */
  function Needed(f: FileInfo, col: WidthColumn, classify: bool): int
    requires WellFramed(f)
  {
    match col
    case NameColumn => FileNameWidth(f, classify)
    case LinkColumn => IntLen(f.linkCount)
    case OwnerColumn => Width(f.owner)
    case GroupColumn => Width(f.group)
    case SizeColumn => if f.fileType == Directory then 5 else DecimalDigits(f.size)
  }

  /** What each file of `files` needs in `col`, in order. */
  function NeededAll(files: seq<FileInfo>, col: WidthColumn, classify: bool): (r: seq<int>)
    requires forall i :: 0 <= i < |files| ==> WellFramed(files[i])
    ensures |r| == |files|
    ensures forall i :: 0 <= i < |files| ==> r[i] == Needed(files[i], col, classify)
  {
    if files == [] then []
    else NeededAll(files[..|files| - 1], col, classify) + [Needed(files[|files| - 1], col, classify)]
  }

  /** `m` is the largest of `init` and `vals`. */
  predicate IsMaxOf(m: int, init: int, vals: seq<int>)
  {
    && m >= init
    && (forall i :: 0 <= i < |vals| ==> m >= vals[i])
    && (m == init || exists i :: 0 <= i < |vals| && m == vals[i])
  }

  lemma MaxOfStep(m: int, init: int, vals: seq<int>, v: int)
    requires IsMaxOf(m, init, vals)
    ensures IsMaxOf(if m < v then v else m, init, vals + [v])
  {
    var post := vals + [v];
    assert forall i :: 0 <= i < |vals| ==> post[i] == vals[i];
    if m < v {
      assert post[|vals|] == v;
    } else if m != init {
      var j :| 0 <= j < |vals| && m == vals[j];
      assert post[j] == vals[j];
    }
  }

  lemma NeededPrefix(files: seq<FileInfo>, k: nat, col: WidthColumn, classify: bool)
    requires k < |files| && forall i :: 0 <= i < |files| ==> WellFramed(files[i])
    ensures NeededAll(files[..k + 1], col, classify)
      == NeededAll(files[..k], col, classify) + [Needed(files[k], col, classify)]
  {
    assert files[..k + 1][..k] == files[..k];
  }

  /**
   * The widths of the first pass of `print_long`: each padded column is as
   * wide as the widest entry it will hold, and at least its starting width
   * (0 for the name, 1 for the others).  The name column stays at 0 when the
   * name is the last column, since it is then not padded.
   */
  predicate WidthsFit(w: Widths, files: seq<FileInfo>, nameIsLast: bool, classify: bool)
    requires forall i :: 0 <= i < |files| ==> WellFramed(files[i])
  {
    && (nameIsLast ==> w.name == 0)
    && (!nameIsLast ==> IsMaxOf(w.name, 0, NeededAll(files, NameColumn, classify)))
    && IsMaxOf(w.link, 1, NeededAll(files, LinkColumn, classify))
    && IsMaxOf(w.owner, 1, NeededAll(files, OwnerColumn, classify))
    && IsMaxOf(w.group, 1, NeededAll(files, GroupColumn, classify))
    && IsMaxOf(w.size, 1, NeededAll(files, SizeColumn, classify))
  }

  /** The width pass of `print_long` over the listed files. */
  method LongWidths(files: seq<FileInfo>, nameIsLast: bool, classify: bool) returns (w: Widths)
    requires forall i :: 0 <= i < |files| ==> WellFramed(files[i])
    ensures WidthsFit(w, files, nameIsLast, classify)
  {
    w := Widths(0, 1, 1, 1, 1);
    var i := 0;
    while i < |files|
      invariant 0 <= i <= |files|
      invariant WidthsFit(w, files[..i], nameIsLast, classify)
    {
      w := WidenFor(w, files, i, nameIsLast, classify);
      i := i + 1;
    }
    assert files[..i] == files;
  }

  /** One iteration of the width pass: widen each column for `files[k]`. */
  method WidenFor(w: Widths, files: seq<FileInfo>, k: nat, nameIsLast: bool, classify: bool) returns (w': Widths)
    requires k < |files| && forall i :: 0 <= i < |files| ==> WellFramed(files[i])
    requires WidthsFit(w, files[..k], nameIsLast, classify)
    ensures WidthsFit(w', files[..k + 1], nameIsLast, classify)
  {
    var nameWidth := w.name;
    if !nameIsLast {
      nameWidth := Widen(w.name, 0, files, k, NameColumn, classify);
    }
    var linkWidth := Widen(w.link, 1, files, k, LinkColumn, classify);
    var ownerWidth := Widen(w.owner, 1, files, k, OwnerColumn, classify);
    var groupWidth := Widen(w.group, 1, files, k, GroupColumn, classify);
    var sizeWidth := Widen(w.size, 1, files, k, SizeColumn, classify);
    w' := Widths(nameWidth, linkWidth, ownerWidth, groupWidth, sizeWidth);
  }

  /** `std::max` of a column's width and what `files[k]` needs in it. */
  method Widen(m: int, init: int, files: seq<FileInfo>, k: nat, col: WidthColumn, classify: bool) returns (m': int)
    requires k < |files| && forall i :: 0 <= i < |files| ==> WellFramed(files[i])
    requires IsMaxOf(m, init, NeededAll(files[..k], col, classify))
    ensures IsMaxOf(m', init, NeededAll(files[..k + 1], col, classify))
  {
    var f := files[k];
    var v;
    match col {
      case NameColumn => v := FileNameWidth(f, classify);
      case LinkColumn => v := IntLen(f.linkCount);
      case OwnerColumn => v := DisplayWidth(f.owner);
      case GroupColumn => v := DisplayWidth(f.group);
      case SizeColumn => v := if f.fileType == Directory then 5 else DecimalDigits(f.size);
    }
    ColumnStep(m, init, files, k, col, classify, v);
    m' := if m < v then v else m;
  }

  lemma ColumnStep(m: int, init: int, files: seq<FileInfo>, k: nat, col: WidthColumn, classify: bool, v: int)
    requires k < |files| && forall i :: 0 <= i < |files| ==> WellFramed(files[i])
    requires v == Needed(files[k], col, classify)
    requires IsMaxOf(m, init, NeededAll(files[..k], col, classify))
    ensures IsMaxOf(if m < v then v else m, init, NeededAll(files[..k + 1], col, classify))
  {
    NeededPrefix(files, k, col, classify);
    MaxOfStep(m, init, NeededAll(files[..k], col, classify), v);
  }
}

=== FILE: frills.dfy ===
/**
 * Name decoration (`add_frills`): choosing a quote character, wrapping the
 * name in it, and rendering non-printable ASCII codepoints according to the
 * non-graphic mode.
 *
 * `Frilled` is what the code produces.  There, an occurrence of the chosen
 * quote character inside the name is replaced by a lone backslash, so two
 * different names can be shown identically; `FrilledEscaped` keeps the
 * character after the backslash, and the escaping can then be undone.
 */
module Frills {
  import opened Common
  import opened Unicode
  import opened Options

  const SQUOTE: Byte := 0x27
  const DQUOTE: Byte := 0x22
  const BACKSLASH: Byte := 0x5c
  const QMARK: Byte := 0x3f

  /** Bytes that make the whole name quoted when they come first: `#~`. */
  const QUOTE_IF_FIRST: seq<Byte> := [0x23, 0x7e]

  /** Bytes that make the name quoted wherever they occur: space and `!$&()*;<=>[^`|`. */
  const QUOTE_IF_ANYWHERE: seq<Byte> :=
    [0x20, 0x21, 0x24, 0x26, 0x28, 0x29, 0x2a, 0x3b, 0x3c, 0x3d, 0x3e, 0x5b, 0x5e, 0x60, 0x7c]

  /** `0123456789ABCDEF` */
  const HEX_DIGITS: seq<Byte> :=
    [0x30, 0x31, 0x32, 0x33, 0x34, 0x35, 0x36, 0x37, 0x38, 0x39, 0x41, 0x42, 0x43, 0x44, 0x45, 0x46]

  /** Whether the shell would misread the name unquoted: the triggers of coreutils quoting the code copies. */
  predicate NeedsQuoting(s: seq<Byte>)
  {
    || (exists i :: 0 <= i < |s| && s[i] in QUOTE_IF_ANYWHERE)
    || (s != [] && s[0] in QUOTE_IF_FIRST)
    || s == [0x7b] || s == [0x7d]
  }

  /**
   * The quote character for a name, 0 for none: `"` when double quoting is
   * forced; otherwise `'` if the name has a `"`, `"` if it has a `'`, and `'`
   * if it needs quoting at all.  `QuoteLiteral` is not consulted.
   */
  function QuoteChar(s: seq<Byte>, quoting: QuoteMode): (q: Byte)
    ensures q == 0 || q == SQUOTE || q == DQUOTE
    ensures q == 0 <==> quoting != QuoteDouble && DQUOTE !in s && SQUOTE !in s && !NeedsQuoting(s)
    ensures quoting != QuoteDouble && q != 0 && q in s ==> DQUOTE in s && SQUOTE in s
  {
    if quoting == QuoteDouble then DQUOTE
    else if DQUOTE in s then SQUOTE
    else if SQUOTE in s then DQUOTE
    else if NeedsQuoting(s) then SQUOTE
    else 0
  }

  /** The pre-pass of `add_frills` over the bytes of the name, with the first-byte and `{`/`}` checks after it. */
  method ChooseQuote(str: seq<Byte>, quoting: QuoteMode) returns (q: Byte)
    ensures q == QuoteChar(str, quoting)
  {
    var alwaysQuote := quoting == QuoteDouble;
    var needQuoting := false;
    q := if alwaysQuote then DQUOTE else 0;
    var i := 0;
    while i < |str|
      invariant 0 <= i <= |str|
      invariant needQuoting <==> exists j :: 0 <= j < i && str[j] in QUOTE_IF_ANYWHERE
      invariant q == if alwaysQuote then DQUOTE
                     else if DQUOTE in str[..i] then SQUOTE
                     else if SQUOTE in str[..i] then DQUOTE
                     else 0
    {
      var c := str[i];
      if c == SQUOTE && q == 0 {
        q := DQUOTE;
      } else if c == DQUOTE && !alwaysQuote {
        q := SQUOTE;
      } else if c in QUOTE_IF_ANYWHERE {
        needQuoting := true;
      }
      assert str[..i + 1] == str[..i] + [c];
      i := i + 1;
    }
    assert str[..i] == str;
    // str[0] of an empty std::string is its terminating NUL
    var first: Byte := if |str| > 0 then str[0] else 0;
    if !needQuoting && first in QUOTE_IF_FIRST {
      needQuoting := true;
    } else if str == [0x7b] || str == [0x7d] {
      needQuoting := true;
    }
    if needQuoting && q == 0 {
      q := SQUOTE;
    }
  }

  /** The last `n` hexadecimal digits of `c`, most significant first. */
  function HexDigits(c: nat, n: nat): (r: seq<Byte>)
    ensures |r| == n
  {
    if n == 0 then [] else HexDigits(c / 16, n - 1) + [HEX_DIGITS[c % 16]]
  }

  function Pow16(n: nat): (p: nat)
    ensures p >= 1
  {
    if n == 0 then 1 else 16 * Pow16(n - 1)
  }

  /** Value of one uppercase hexadecimal digit. */
  function HexDigitValue(d: Byte): nat
  {
    if 0x30 <= d <= 0x39 then d - 0x30 else if 0x41 <= d <= 0x46 then d - 0x41 + 10 else 0
  }

  /** Value of a string of uppercase hexadecimal digits, most significant first. */
  function HexValue(ds: seq<Byte>): nat
  {
    if ds == [] then 0
    else HexValue(ds[..|ds| - 1]) * 16 + HexDigitValue(ds[|ds| - 1])
  }

  /** Each digit of `HEX_DIGITS` has its index as value. */
  lemma HexDigitRoundTrip(k: nat)
    requires k < 16
    ensures HexDigitValue(HEX_DIGITS[k]) == k
  {
    if k < 10 {
      assert HEX_DIGITS[k] == 0x30 + k;
    } else {
      assert HEX_DIGITS[k] == 0x37 + k;
    }
  }

  lemma DivSixteen(c: nat, p: nat)
    requires c < 16 * p
    ensures c / 16 < p
  {
  }

  /**
   * `escape_nongraphic`: a backslash, then `x` and two hex digits below 0x80,
   * `u` and four below 0x10000, `U` and eight otherwise (`ascii_escape_octal`
   * is off).
   */
  function EscapeNongraphic(c: nat): (r: seq<Byte>)
    requires c < TWO_32
    ensures |r| == 4 || |r| == 6 || |r| == 10
    ensures r[0] == BACKSLASH
  {
    if c < 0x80 then [BACKSLASH, 0x78] + HexDigits(c, 2)
    else if c < 0x10000 then [BACKSLASH, 0x75] + HexDigits(c, 4)
    else [BACKSLASH, 0x55] + HexDigits(c, 8)
  }

  /** Reading back `n` hex digits of a value below 16^n gives the value. */
  lemma {:induction false} HexTail(c: nat, n: nat)
    requires c < Pow16(n)
    ensures HexValue(HexDigits(c, n)) == c
  {
    if n > 0 {
      var ds, hi := HexDigits(c, n), HexDigits(c / 16, n - 1);
      assert ds == hi + [HEX_DIGITS[c % 16]];
      assert ds[..n - 1] == hi && ds[n - 1] == HEX_DIGITS[c % 16];
      DivSixteen(c, Pow16(n - 1));
      HexTail(c / 16, n - 1);
      HexDigitRoundTrip(c % 16);
      assert HexValue(ds) == HexValue(hi) * 16 + HexDigitValue(ds[n - 1]);
    }
  }

  /** An escape sequence names its codepoint: the letter gives the digit count and the digits the value. */
  lemma EscapeNongraphicDecodes(c: nat)
    requires c < TWO_32
    ensures var r := EscapeNongraphic(c);
      && r[0] == BACKSLASH
      && |r| == (if c < 0x80 then 4 else if c < 0x10000 then 6 else 10)
      && r[1] == (if c < 0x80 then 0x78 else if c < 0x10000 then 0x75 else 0x55)
      && HexValue(r[2..]) == c
  {
    var r := EscapeNongraphic(c);
    assert Pow16(2) == 256;
    assert Pow16(4) == 0x10000;
    assert Pow16(8) == TWO_32 by {
      assert Pow16(6) == 0x100_0000;
    }
    if c < 0x80 {
      assert r[2..] == HexDigits(c, 2);
      HexTail(c, 2);
    } else if c < 0x10000 {
      assert r[2..] == HexDigits(c, 4);
      HexTail(c, 4);
    } else {
      assert r[2..] == HexDigits(c, 8);
      HexTail(c, 8);
    }
  }

  /**
   * How one codepoint `c`, encoded as `unit`, is written: the quote character
   * as `quoteEscape`, a non-printable ASCII codepoint according to the mode,
   * and everything else byte for byte.
   */
  function Render(unit: seq<Byte>, c: nat, q: Byte, quoteEscape: seq<Byte>, ng: NongraphicMode): seq<Byte>
    requires c < 0x200000
  {
    if c == q then quoteEscape
    else if c < 0x80 && !IsPrint(c) then
      match ng
      case Escape => EscapeNongraphic(c)
      case Hide => [QMARK]
      case Show => unit
    else unit
  }

  /** The rendering of every codepoint of the name, in order. */
  function Body(s: seq<Byte>, q: Byte, quoteEscape: seq<Byte>, ng: NongraphicMode): seq<Byte>
    requires Framed(s)
    decreases |s|
  {
    if s == [] then []
    else
      var (c, n) := Utf8ToCodepoint(s);
      Render(s[..n], c, q, quoteEscape, ng) + Body(s[n..], q, quoteEscape, ng)
  }

  /** `add_frills` as written: the quote character inside the name becomes a lone backslash. */
  function Frilled(s: seq<Byte>, quoting: QuoteMode, ng: NongraphicMode): seq<Byte>
    requires Framed(s)
  {
    var q := QuoteChar(s, quoting);
    var body := Body(s, q, [BACKSLASH], ng);
    if q != 0 then [q] + body + [q] else body
  }

  /** `add_frills` with the quote character kept after its backslash. */
  function FrilledEscaped(s: seq<Byte>, quoting: QuoteMode, ng: NongraphicMode): seq<Byte>
    requires Framed(s)
  {
    var q := QuoteChar(s, quoting);
    var body := Body(s, q, [BACKSLASH, q], ng);
    if q != 0 then [q] + body + [q] else body
  }

  /** One step of the main loop of `add_frills`: appends the rendering of codepoint `c`, encoded as `unit`. */
  method PushRendered(out0: seq<Byte>, unit: seq<Byte>, c: nat, q: Byte, ng: NongraphicMode)
    returns (out: seq<Byte>)
    requires c < 0x200000
    ensures out == out0 + Render(unit, c, q, [BACKSLASH], ng)
  {
    out := out0;
    if c == q {
      out := out + [BACKSLASH];
    } else if c < 0x80 && !IsPrint(c) {
      match ng {
        case Escape => out := out + EscapeNongraphic(c);
        case Hide => out := out + [QMARK];
        case Show => out := out + unit;
      }
    } else {
      out := out + unit;
    }
  }

  /**
   * `add_frills`: appends the decorated name to `out0`.  The name must not end
   * in a truncated UTF-8 sequence, which the decoder would read past.
   */
  method AddFrills(str: seq<Byte>, quoting: QuoteMode, ng: NongraphicMode, out0: seq<Byte>)
    returns (out: seq<Byte>)
    requires Framed(str)
    ensures out == out0 + Frilled(str, quoting, ng)
  {
    var q := ChooseQuote(str, quoting);
    out := out0;
    if q != 0 {
      out := out + [q];
    }
    out := PushBody(str, q, ng, out);
    FrilledAfter(out0, str, quoting, ng, q);
    if q != 0 {
      out := out + [q];
    }
  }

  /** The main loop of `add_frills`: every codepoint of the name, rendered in order. */
  method PushBody(str: seq<Byte>, q: Byte, ng: NongraphicMode, out0: seq<Byte>) returns (out: seq<Byte>)
    requires Framed(str)
    ensures out == out0 + Body(str, q, [BACKSLASH], ng)
  {
    out := out0;
    ghost var target := out0 + Body(str, q, [BACKSLASH], ng);
    assert str[0..] == str;
    var i := 0;
    while i < |str|
      invariant 0 <= i <= |str| && Framed(str[i..])
      invariant out + Body(str[i..], q, [BACKSLASH], ng) == target
      decreases |str| - i
    {
      out, i := PushUnit(str, i, q, ng, out, target);
    }
    assert str[i..] == [];
  }

  /** One round of the main loop of `add_frills`: the codepoint at `i`, rendered. */
  method PushUnit(str: seq<Byte>, i: nat, q: Byte, ng: NongraphicMode, out: seq<Byte>, ghost target: seq<Byte>)
    returns (next: seq<Byte>, i': nat)
    requires i < |str| && Framed(str[i..])
    requires out + Body(str[i..], q, [BACKSLASH], ng) == target
    ensures i < i' <= |str| && Framed(str[i'..])
    ensures next + Body(str[i'..], q, [BACKSLASH], ng) == target
  {
    FramedAt(str, i);
    var c, cpSize := Utf8ToCodepointAt(str, i);
    next := PushRendered(out, str[i..i + cpSize], c, q, ng);
    PushStep(str, i, c, cpSize, q, ng, out, next, target);
    i' := i + cpSize;
  }

  /** The unit at `i` of a framed tail lies inside the buffer, and so does the rest. */
  lemma FramedAt(str: seq<Byte>, i: nat)
    requires i < |str| && Framed(str[i..])
    ensures LeadSize(str[i]) <= |str| - i && Framed(str[i + LeadSize(str[i])..])
  {
    assert str[i..][0] == str[i];
    assert str[i..][LeadSize(str[i])..] == str[i + LeadSize(str[i])..];
  }

  /** The loop invariant of `PushBody` survives one step. */
  lemma PushStep(str: seq<Byte>, i: nat, c: nat, n: nat, q: Byte, ng: NongraphicMode,
                 out: seq<Byte>, next: seq<Byte>, target: seq<Byte>)
    requires i < |str| && Framed(str[i..]) && (c, n) == Utf8ToCodepoint(str[i..])
    requires out + Body(str[i..], q, [BACKSLASH], ng) == target
    requires i + n <= |str| && next == out + Render(str[i..i + n], c, q, [BACKSLASH], ng)
    ensures Framed(str[i + n..]) && next + Body(str[i + n..], q, [BACKSLASH], ng) == target
  {
    var rest := str[i..];
    BodyStep(out, rest, q, ng, c, n);
    assert str[i..i + n] == rest[..n];
    assert str[i + n..] == rest[n..];
  }

  lemma FrilledAfter(out0: seq<Byte>, str: seq<Byte>, quoting: QuoteMode, ng: NongraphicMode, q: Byte)
    requires Framed(str) && q == QuoteChar(str, quoting)
    ensures q != 0 ==> out0 + Frilled(str, quoting, ng) == (out0 + [q] + Body(str, q, [BACKSLASH], ng)) + [q]
    ensures q == 0 ==> out0 + Frilled(str, quoting, ng) == out0 + Body(str, q, [BACKSLASH], ng)
  {
    var body := Body(str, q, [BACKSLASH], ng);
    var framed := if q != 0 then [q] + body + [q] else body;
    assert Frilled(str, quoting, ng) == framed;
    if q != 0 {
      assert out0 + framed == (out0 + [q] + body) + [q];
    }
  }

  /** Appending the rendering of the first codepoint leaves the rendering of the rest to do. */
  lemma BodyStep(out: seq<Byte>, s: seq<Byte>, q: Byte, ng: NongraphicMode, c: nat, n: nat)
    requires Framed(s) && s != [] && (c, n) == Utf8ToCodepoint(s)
    ensures Framed(s[n..]) && n <= |s| && c < 0x200000
    ensures (out + Render(s[..n], c, q, [BACKSLASH], ng)) + Body(s[n..], q, [BACKSLASH], ng)
         == out + Body(s, q, [BACKSLASH], ng)
  {
    AppendAssoc(out, Render(s[..n], c, q, [BACKSLASH], ng), Body(s[n..], q, [BACKSLASH], ng));
  }

  lemma AppendAssoc(a: seq<Byte>, b: seq<Byte>, c: seq<Byte>)
    ensures (a + b) + c == a + (b + c)
  {
  }

  /** Every byte is printable ASCII. */
  predicate Printable(s: seq<Byte>)
  {
    forall i :: 0 <= i < |s| ==> IsPrint(s[i])
  }

  lemma {:induction false} PrintableBodyUnchanged(s: seq<Byte>, quoteEscape: seq<Byte>, ng: NongraphicMode)
    requires Printable(s)
    ensures Framed(s) && Body(s, 0, quoteEscape, ng) == s
    decreases |s|
  {
    if s != [] {
      assert IsPrint(s[0]);
      assert Printable(s[1..]);
      PrintableBodyUnchanged(s[1..], quoteEscape, ng);
      assert s == s[..1] + s[1..];
    }
  }

  /** A printable ASCII name without quotes or shell-special characters is shown as it is. */
  lemma PlainNameUnchanged(s: seq<Byte>, quoting: QuoteMode, ng: NongraphicMode)
    requires quoting != QuoteDouble && Printable(s) && !NeedsQuoting(s)
    requires DQUOTE !in s && SQUOTE !in s
    ensures Framed(s) && Frilled(s, quoting, ng) == s
  {
    PrintableBodyUnchanged(s, [BACKSLASH], ng);
  }

  /** Each byte of a printable name, with `q` replaced by `e`. */
  function ReplaceByte(s: seq<Byte>, q: Byte, e: seq<Byte>): seq<Byte>
  {
    if s == [] then [] else (if s[0] == q then e else [s[0]]) + ReplaceByte(s[1..], q, e)
  }

  lemma {:induction false} ReplaceByteAppend(a: seq<Byte>, b: seq<Byte>, q: Byte, e: seq<Byte>)
    ensures ReplaceByte(a + b, q, e) == ReplaceByte(a, q, e) + ReplaceByte(b, q, e)
    decreases |a|
  {
    if a == [] {
      assert a + b == b;
    } else {
      assert (a + b)[0] == a[0];
      assert (a + b)[1..] == a[1..] + b;
      ReplaceByteAppend(a[1..], b, q, e);
    }
  }

  lemma {:induction false} ReplaceByteNoQuote(s: seq<Byte>, q: Byte, e: seq<Byte>)
    requires q !in s
    ensures ReplaceByte(s, q, e) == s
    decreases |s|
  {
    if s != [] {
      ReplaceByteNoQuote(s[1..], q, e);
      assert s == [s[0]] + s[1..];
    }
  }

  lemma {:induction false} PrintableBody(s: seq<Byte>, q: Byte, e: seq<Byte>, ng: NongraphicMode)
    requires Printable(s)
    ensures Framed(s) && Body(s, q, e, ng) == ReplaceByte(s, q, e)
    decreases |s|
  {
    if s != [] {
      assert IsPrint(s[0]);
      assert Printable(s[1..]);
      PrintableBody(s[1..], q, e, ng);
    }
  }

  /**
   * The name `a"b'c` is quoted with `'` and its `'` shown as a bare
   * backslash, so it is displayed exactly like the name `a"b\c`.
   */
  lemma QuoteCharDropped(s1: seq<Byte>, s2: seq<Byte>, ng: NongraphicMode)
    requires s1 == [0x61, DQUOTE, 0x62, SQUOTE, 0x63] && s2 == [0x61, DQUOTE, 0x62, BACKSLASH, 0x63]
    ensures s1 != s2 && Framed(s1) && Framed(s2)
    ensures Frilled(s1, QuoteDefault, ng) == Frilled(s2, QuoteDefault, ng)
    ensures FrilledEscaped(s1, QuoteDefault, ng) != FrilledEscaped(s2, QuoteDefault, ng)
  {
    assert s1[3] != s2[3];
    assert DQUOTE == s1[1] && DQUOTE == s2[1];
    assert QuoteChar(s1, QuoteDefault) == SQUOTE;
    assert QuoteChar(s2, QuoteDefault) == SQUOTE;
    var e1, e2 := [BACKSLASH], [BACKSLASH, SQUOTE];
    PrintableBody(s1, SQUOTE, e1, ng);
    PrintableBody(s2, SQUOTE, e1, ng);
    PrintableBody(s1, SQUOTE, e2, ng);
    PrintableBody(s2, SQUOTE, e2, ng);
    var pre, post := [0x61, DQUOTE, 0x62], [0x63];
    assert s1 == pre + [SQUOTE] + post && s2 == pre + [BACKSLASH] + post;
    ReplaceOne(pre, SQUOTE, post, SQUOTE, e1);
    ReplaceOne(pre, BACKSLASH, post, SQUOTE, e1);
    ReplaceOne(pre, SQUOTE, post, SQUOTE, e2);
    ReplaceOne(pre, BACKSLASH, post, SQUOTE, e2);
    assert |ReplaceByte(s1, SQUOTE, e2)| == 6;
    assert |ReplaceByte(s2, SQUOTE, e2)| == 5;
  }

  /** Replacing `q` in a string where only the byte `x` can be `q`. */
  lemma ReplaceOne(pre: seq<Byte>, x: Byte, post: seq<Byte>, q: Byte, e: seq<Byte>)
    requires q !in pre && q !in post
    ensures ReplaceByte(pre + [x] + post, q, e) == pre + (if x == q then e else [x]) + post
  {
    var ex := if x == q then e else [x];
    assert ReplaceByte([x], q, e) == ex by {
      assert ReplaceByte([x], q, e) == ex + ReplaceByte([x][1..], q, e);
      assert [x][1..] == [];
    }
    ReplaceByteNoQuote(pre, q, e);
    ReplaceByteAppend(pre, [x], q, e);
    assert ReplaceByte(pre + [x], q, e) == pre + ex;
    ReplaceByteNoQuote(post, q, e);
    ReplaceByteAppend(pre + [x], post, q, e);
  }

  /** Undoes the quote escaping of `FrilledEscaped`: a backslash followed by `q` stands for `q`. */
  function Unescape(t: seq<Byte>, q: Byte): seq<Byte>
    decreases |t|
  {
    if t == [] then []
    else if |t| >= 2 && t[0] == BACKSLASH && t[1] == q then [q] + Unescape(t[2..], q)
    else [t[0]] + Unescape(t[1..], q)
  }

  lemma {:induction false} UnescapeHigh(u: seq<Byte>, t: seq<Byte>, q: Byte)
    requires forall i :: 0 <= i < |u| ==> u[i] >= 0x80
    ensures Unescape(u + t, q) == u + Unescape(t, q)
    decreases |u|
  {
    if u == [] {
      assert u + t == t;
    } else {
      assert (u + t)[0] == u[0] && (u + t)[1..] == u[1..] + t;
      UnescapeHigh(u[1..], t, q);
    }
  }

  lemma EncodingSplits(cps: seq<nat>)
    requires cps != [] && forall i :: 0 <= i < |cps| ==> IsScalar(cps[i])
    ensures var s, e := EncodeAll(cps), Encode(cps[0]);
      && Framed(s) && Utf8ToCodepoint(s) == (cps[0], |e|)
      && s[..|e|] == e && s[|e|..] == EncodeAll(cps[1..])
  {
    var s, e := EncodeAll(cps), Encode(cps[0]);
    CodepointsOfEncoding(cps);
    DecodeEncode(cps[0], EncodeAll(cps[1..]));
    assert s[..|e|] == e && s[|e|..] == EncodeAll(cps[1..]);
  }

  /** The escaped rendering (in `Show` mode) of a well-formed name never starts with a bare `q`. */
  lemma EscapedBodyStart(cps: seq<nat>, q: Byte)
    requires forall i :: 0 <= i < |cps| ==> IsScalar(cps[i])
    requires q < 0x80 && q != BACKSLASH
    ensures Framed(EncodeAll(cps))
    ensures var b := Body(EncodeAll(cps), q, [BACKSLASH, q], Show); b == [] || b[0] != q
  {
    CodepointsOfEncoding(cps);
    if cps != [] {
      EncodingSplits(cps);
      var e := Encode(cps[0]);
      var r := Render(e, cps[0], q, [BACKSLASH, q], Show);
      assert Body(EncodeAll(cps), q, [BACKSLASH, q], Show) == r + Body(EncodeAll(cps[1..]), q, [BACKSLASH, q], Show);
      assert r == if cps[0] == q then [BACKSLASH, q] else e;
      assert r[0] != q;
    }
  }

  /**
   * With the quote character kept after its backslash, the rendering of a
   * well-formed name in `Show` mode can be read back: unescaping it gives the
   * name.
   */
  lemma {:induction false} EscapedBodyRoundTrip(cps: seq<nat>, q: Byte)
    requires forall i :: 0 <= i < |cps| ==> IsScalar(cps[i])
    requires q < 0x80 && q != BACKSLASH
    ensures Framed(EncodeAll(cps))
    ensures Unescape(Body(EncodeAll(cps), q, [BACKSLASH, q], Show), q) == EncodeAll(cps)
  {
    CodepointsOfEncoding(cps);
    if cps != [] {
      EncodingSplits(cps);
      var c, e, rest := cps[0], Encode(cps[0]), EncodeAll(cps[1..]);
      var b := Body(rest, q, [BACKSLASH, q], Show);
      assert Body(EncodeAll(cps), q, [BACKSLASH, q], Show) == Render(e, c, q, [BACKSLASH, q], Show) + b;
      EscapedBodyRoundTrip(cps[1..], q);
      if c == q {
        assert ([BACKSLASH, q] + b)[2..] == b;
      } else if c < 0x80 {
        assert e == [c];
        EscapedBodyStart(cps[1..], q);
        assert ([c] + b)[1..] == b;
      } else {
        UnescapeHigh(e, b, q);
      }
    }
  }

  /**
   * The corrected decoration can be read back: strip the quote characters
   * (when there are any) and unescape, and the well-formed name shown in
   * `Show` mode comes out.
   */
  lemma FrilledEscapedRoundTrip(cps: seq<nat>, quoting: QuoteMode)
    requires forall i :: 0 <= i < |cps| ==> IsScalar(cps[i])
    ensures Framed(EncodeAll(cps))
    ensures var s := EncodeAll(cps);
      var q := QuoteChar(s, quoting);
      var f := FrilledEscaped(s, quoting, Show);
      if q != 0 then |f| >= 2 && f[0] == q == f[|f| - 1] && Unescape(f[1..|f| - 1], q) == s
      else Unescape(f, q) == s
  {
    var s := EncodeAll(cps);
    CodepointsOfEncoding(cps);
    var q := QuoteChar(s, quoting);
    EscapedBodyRoundTrip(cps, q);
    var b := Body(s, q, [BACKSLASH, q], Show);
    if q != 0 {
      var f := [q] + b + [q];
      assert f[1..|f| - 1] == b;
    }
  }
}

=== FILE: legacy.dfy ===
/**
 * The older Windows-only lister: its name quoting (`Quote`), its directory
 * sort (`SortDir`) and the way a `FileInfo` derives type, hidden flag and
 * size from the `WIN32_FIND_DATA` the directory search returns.
 */
module Legacy {
  import opened Common
  import Sorting

  const SPACE: Byte := 0x20
  const APOSTROPHE: Byte := 0x27
  const QUOTATION: Byte := 0x22
  const DOT: Byte := 0x2e

  /**
   * The bytes `strchr(" '\"", c)` finds: the three listed ones and the
   * terminating NUL, which `strchr` also reports.
   */
  const SPECIAL: set<Byte> := {SPACE, APOSTROPHE, QUOTATION, 0}

  // ---------------------------------------------------------------------
  // Quote

  datatype QuoteStyle = QuoteAuto | QuoteAlways | QuoteNever

  /** The scan of the AUTO case: whether some byte of the name is special. */
  function HasSpecial(name: seq<Byte>): (b: bool)
    ensures b <==> exists i :: 0 <= i < |name| && name[i] in SPECIAL
  {
    if name == [] then false
    else
      assert forall i :: 0 < i < |name| ==> name[i] == name[1..][i - 1];
      name[0] in SPECIAL || HasSpecial(name[1..])
  }

  /** The quote ALWAYS puts around a name: `'` when the name holds a `"`, else `"`. */
  function QuoteChar(name: seq<Byte>): Byte
  {
    if QUOTATION in name then APOSTROPHE else QUOTATION
  }

  /**
   * `Quote`: AUTO leaves a name without special bytes alone and otherwise
   * falls through into ALWAYS, which wraps the name, unescaped, in the
   * quote `QuoteChar` picks; NEVER leaves every name alone.
   */
  function Quote(name: seq<Byte>, style: QuoteStyle): (r: seq<Byte>)
  {
    match style
    case QuoteAuto => if HasSpecial(name) then [QuoteChar(name)] + name + [QuoteChar(name)] else name
    case QuoteAlways => [QuoteChar(name)] + name + [QuoteChar(name)]
    case QuoteNever => name
  }

  /**
   * ALWAYS output is the name between two equal quotes, so stripping the
   * first and last byte gives the name back; the quote is `'` exactly when
   * the name holds a `"`, and a `"` quote therefore never occurs inside.
   */
  lemma QuoteAlwaysWraps(name: seq<Byte>)
    ensures var r := Quote(name, QuoteAlways);
      && |r| == |name| + 2
      && r[0] == r[|r| - 1]
      && r[1..|r| - 1] == name
      && (r[0] == APOSTROPHE <==> QUOTATION in name)
      && (r[0] == QUOTATION ==> QUOTATION !in r[1..|r| - 1])
  {
    var r := Quote(name, QuoteAlways);
    assert r[1..|r| - 1] == name;
  }

  /** A name that holds both kinds of quote comes out with its quote inside the body. */
  lemma BothQuotesAmbiguous(name: seq<Byte>)
    requires QUOTATION in name && APOSTROPHE in name
    ensures var r := Quote(name, QuoteAlways);
      r[0] == APOSTROPHE && APOSTROPHE in r[1..|r| - 1]
  {
    QuoteAlwaysWraps(name);
  }

  /**
   * AUTO is ALWAYS exactly for names with a space, a quote or a NUL byte,
   * and leaves the name unchanged exactly for the others.
   */
  lemma QuoteAutoFallsThrough(name: seq<Byte>)
    ensures Quote(name, QuoteAuto) == Quote(name, QuoteAlways) <==>
      exists i :: 0 <= i < |name| && name[i] in SPECIAL
    ensures Quote(name, QuoteAuto) == name <==>
      forall i :: 0 <= i < |name| ==> name[i] !in SPECIAL
  {
    if !HasSpecial(name) {
      assert |Quote(name, QuoteAlways)| == |name| + 2;
    } else {
      assert |Quote(name, QuoteAuto)| == |name| + 2;
    }
  }

  /** NEVER and an unquoted AUTO change nothing: quoting never shortens a name. */
  lemma QuoteKeepsName(name: seq<Byte>, style: QuoteStyle)
    ensures var r := Quote(name, style);
      r == name || (|r| == |name| + 2 && r[1..|r| - 1] == name)
    ensures style == QuoteNever ==> Quote(name, style) == name
  {
    if style != QuoteNever {
      QuoteAlwaysWraps(name);
    }
  }

  // ---------------------------------------------------------------------
  // File information

  /** `FILETYPE`, in declaration order. */
  datatype FileKind = Normal | Unknown | Directory | Executable | Link | Shortcut | System | Virtual | Device

  /** A 32-bit `DWORD`. */
  type DWord = x: int | 0 <= x < 0x1_0000_0000

  /** The `FILE_ATTRIBUTE_*` flags of `dwFileAttributes`, one constructor per bit. */
  datatype Attribute =
    | AttrReadOnly | AttrHidden | AttrSystem | AttrDirectory | AttrArchive | AttrDevice
    | AttrNormal | AttrTemporary | AttrSparseFile | AttrReparsePoint | AttrCompressed
    | AttrOffline | AttrNotContentIndexed | AttrEncrypted | AttrIntegrityStream | AttrVirtual

  /** `FILETYPE::COUNT`. */
  const KIND_COUNT: nat := 9

  /** The kinds in `FILETYPE` order. */
  const KINDS: seq<FileKind> := [Normal, Unknown, Directory, Executable, Link, Shortcut, System, Virtual, Device]

  /** `FiletypeAttributes`: the flag of each kind, none for the kinds found otherwise. */
  const KIND_ATTRIBUTES: seq<Option<Attribute>> := [None, None, Some(AttrDirectory), None,
    Some(AttrReparsePoint), None, Some(AttrSystem), Some(AttrVirtual), Some(AttrDevice)]

  /** One of the flags that decide a kind on their own is set. */
  predicate KindFlagged(attributes: set<Attribute>)
  {
    AttrDirectory in attributes || AttrReparsePoint in attributes || AttrSystem in attributes
    || AttrVirtual in attributes || AttrDevice in attributes
  }

  const EXE: seq<Byte> := [0x65, 0x78, 0x65]
  const LNK: seq<Byte> := [0x6c, 0x6e, 0x6b]

  /** What `FindFirstFile`/`FindNextFile` report about one directory entry. */
  datatype FindData = FindData(
    fileName: seq<Byte>,
    attributes: set<Attribute>,
    creation: nat,
    lastWrite: nat,
    sizeHigh: DWord,
    sizeLow: DWord)

  /** A listed file; `size` is a `DWORD` field. */
  datatype FileInfo = FileInfo(
    kind: FileKind,
    name: seq<Byte>,
    linkOK: bool,
    creation: nat,
    lastWrite: nat,
    size: DWord,
    hidden: bool)

  /** `FiletypeAttributes[k] & dwFileAttributes` is non-zero. */
  predicate Flagged(k: nat, attributes: set<Attribute>)
    requires k < KIND_COUNT
  {
    KIND_ATTRIBUTES[k].Some? && KIND_ATTRIBUTES[k].value in attributes
  }

  /** The first kind index from `i` on whose flag is set, `KIND_COUNT` if none. */
  function FirstFlagged(attributes: set<Attribute>, i: nat): (k: nat)
    requires i <= KIND_COUNT
    ensures i <= k <= KIND_COUNT
    ensures k < KIND_COUNT ==> Flagged(k, attributes)
    ensures forall m :: i <= m < k ==> !Flagged(m, attributes)
    decreases KIND_COUNT - i
  {
    if i == KIND_COUNT then KIND_COUNT
    else if Flagged(i, attributes) then i
    else FirstFlagged(attributes, i + 1)
  }

  /** The kind a file name gives when no attribute decides it. */
  function KindByName(name: seq<Byte>): FileKind
  {
    match Sorting.LastDot(name)
    case None => Unknown
    case Some(d) =>
      if name[d + 1..] == EXE then Executable
      else if name[d + 1..] == LNK then Shortcut
      else Normal
  }

  /** The type the `FileInfo` constructor derives. */
  function KindOf(data: FindData): FileKind
  {
    var k := FirstFlagged(data.attributes, 0);
    if k < KIND_COUNT then KINDS[k] else KindByName(data.fileName)
  }

  /** `Hidden`: the HIDDEN attribute, or a name that starts with `.`. */
  predicate IsHidden(data: FindData)
  {
    AttrHidden in data.attributes || At(data.fileName, 0) == DOT
  }

  /**
   * The `FileInfo` constructor: the first kind in table order whose flag is
   * set, else the kind the extension gives; the 64-bit size narrowed into
   * the 32-bit `Size` field. `resolved` is what resolving the target of a
   * link by its handle reports (a non-zero path length); only a link asks.
   */
  method NewFileInfo(data: FindData, resolved: bool) returns (f: FileInfo)
    ensures f.kind == KindOf(data)
    ensures f.name == data.fileName && f.creation == data.creation && f.lastWrite == data.lastWrite
    ensures f.size == data.sizeLow
    ensures f.hidden == IsHidden(data)
    ensures f.linkOK <==> f.kind == Link && resolved
  {
    var kind := Normal;
    var i := 0;
    while i < KIND_COUNT
      invariant 0 <= i <= KIND_COUNT
      invariant kind == Normal
      invariant FirstFlagged(data.attributes, 0) == FirstFlagged(data.attributes, i)
    {
      if KIND_ATTRIBUTES[i].Some? && KIND_ATTRIBUTES[i].value in data.attributes {
        FlaggedKind(i, data.attributes);
        kind := KINDS[i];
        break;
      }
      i := i + 1;
    }
    if kind == Normal {
      var lastDot := Sorting.LastDot(data.fileName);
      if lastDot.Some? {
        var extension := data.fileName[lastDot.value + 1..];
        if extension == EXE {
          kind := Executable;
        } else if extension == LNK {
          kind := Shortcut;
        }
      } else {
        kind := Unknown;
      }
    }
    var size := (data.sizeHigh * TWO_32 + data.sizeLow) % TWO_32;
    NarrowedSize(data.sizeHigh, data.sizeLow);
    var linkOK := false;
    if kind == Link {
      linkOK := resolved;
    }
    f := FileInfo(kind, data.fileName, linkOK, data.creation, data.lastWrite, size,
      AttrHidden in data.attributes || At(data.fileName, 0) == DOT);
  }

  /** Narrowing `high * 2^32 + low` to 32 bits keeps `low`. */
  lemma NarrowedSize(high: DWord, low: DWord)
    ensures (high * TWO_32 + low) % TWO_32 == low
  {
  }

  /**
   * The attribute flags decide first: a kind comes from them exactly when one
   * of the five flags is set, and then the extension is never looked at, so
   * a directory named `x.exe` is a directory.
   */
  lemma AttributesDecideFirst(data: FindData)
    ensures KindOf(data) in {Directory, Link, System, Virtual, Device} <==> KindFlagged(data.attributes)
    ensures AttrDirectory in data.attributes ==> KindOf(data) == Directory
  {
    var a := data.attributes;
    var k := FirstFlagged(a, 0);
    assert KindFlagged(a) <==> Flagged(2, a) || Flagged(4, a) || Flagged(6, a) || Flagged(7, a) || Flagged(8, a);
    if k < KIND_COUNT {
      FlaggedKind(k, a);
    }
  }

  /** Only the five kinds with a flag come from the attributes. */
  lemma FlaggedKind(k: nat, attributes: set<Attribute>)
    requires k < KIND_COUNT && Flagged(k, attributes)
    ensures k in {2, 4, 6, 7, 8} && KINDS[k] in {Directory, Link, System, Virtual, Device}
  {
  }

  /**
   * Without a deciding flag, a name without `.` is Unknown and a name whose
   * last `.` is followed by exactly `exe` (or `lnk`) is Executable (or a
   * Shortcut); the comparison is case-sensitive.
   */
  lemma ExtensionDecides(data: FindData)
    requires !KindFlagged(data.attributes)
    ensures KindOf(data) == Unknown <==> DOT !in data.fileName
    ensures KindOf(data) == Executable <==> EndsWithExtension(data.fileName, EXE)
    ensures KindOf(data) == Shortcut <==> EndsWithExtension(data.fileName, LNK)
  {
    AttributesDecideFirst(data);
    var name := data.fileName;
    assert FirstFlagged(data.attributes, 0) == KIND_COUNT;
    LastDotOfExtension(name, EXE);
    LastDotOfExtension(name, LNK);
  }

  /** The name ends in `.` followed by `ext`. */
  predicate EndsWithExtension(name: seq<Byte>, ext: seq<Byte>)
  {
    |name| > |ext| && name[|name| - |ext| - 1] == DOT && name[|name| - |ext|..] == ext
  }

  /** For an extension without `.`, the text after the last `.` is it exactly when the name ends in it. */
  lemma LastDotOfExtension(name: seq<Byte>, ext: seq<Byte>)
    requires DOT !in ext
    ensures (Sorting.LastDot(name).Some? && name[Sorting.LastDot(name).value + 1..] == ext) <==>
      EndsWithExtension(name, ext)
  {
    if EndsWithExtension(name, ext) {
      LastDotAt(name, |name| - |ext| - 1);
    }
  }

  /** A `.` with no `.` after it is the last one. */
  lemma {:induction false} LastDotAt(name: seq<Byte>, e: nat)
    requires e < |name| && name[e] == DOT && DOT !in name[e + 1..]
    ensures Sorting.LastDot(name) == Some(e)
    decreases |name|
  {
    if e < |name| - 1 {
      assert name[|name| - 1] == name[e + 1..][|name| - e - 2];
      var init := name[..|name| - 1];
      assert init[e + 1..] == name[e + 1..|name| - 1];
      LastDotAt(init, e);
    }
  }

  /** `Hidden` is set by the attribute or by a leading `.`, never by anything else. */
  lemma HiddenRule(data: FindData)
    ensures IsHidden(data) <==>
      AttrHidden in data.attributes || (data.fileName != [] && data.fileName[0] == DOT)
  {
  }

  /** The extension test is case-sensitive: `SETUP.EXE` is a plain file. */
  lemma UpperCaseExtensionIsNormal()
    ensures KindOf(FindData([0x53, 0x2e, 0x45, 0x58, 0x45], {}, 0, 0, 0, 0)) == Normal
  {
    var name: seq<Byte> := [0x53, 0x2e, 0x45, 0x58, 0x45];
    assert Sorting.LastDot(name) == Some(1) by {
      assert name[..4][..3][..2] == [0x53, 0x2e];
      assert name[..4][..3] == name[..3];
    }
    assert name[2..] != EXE && name[2..] != LNK;
  }

  // ---------------------------------------------------------------------
  // SortDir

  /** `SORT_NONE` … `SORT_CREATED`. */
  datatype SortingMode = Unsorted | ByName | BySize | ByModified | ByCreated

  /**
   * The comparator of each mode: names by `std::string` order (bytes taken
   * as unsigned), sizes, and the two file times as `CompareFileTime` orders
   * them.
   */
  predicate Before(mode: SortingMode, a: FileInfo, b: FileInfo)
  {
    match mode
    case Unsorted => false
    case ByName => Sorting.PathLess(a.name, b.name)
    case BySize => a.size < b.size
    case ByModified => a.lastWrite < b.lastWrite
    case ByCreated => a.creation < b.creation
  }

  /** No entry comes before one placed earlier. */
  predicate Ordered(mode: SortingMode, s: seq<FileInfo>)
  {
    forall i, j :: 0 <= i < j < |s| ==> !Before(mode, s[j], s[i])
  }

  lemma BeforeAsymmetric(mode: SortingMode, a: FileInfo, b: FileInfo)
    requires Before(mode, a, b)
    ensures !Before(mode, b, a)
  {
    if mode == ByName && Sorting.PathLess(b.name, a.name) {
      Sorting.PathLessTransitive(a.name, b.name, a.name);
      Sorting.PathLessIrreflexive(a.name);
    }
  }

  /** "Not before" is transitive: each comparator orders its keys totally. */
  lemma NotBeforeTransitive(mode: SortingMode, a: FileInfo, b: FileInfo, c: FileInfo)
    requires !Before(mode, b, a) && !Before(mode, c, b)
    ensures !Before(mode, c, a)
  {
    if mode == ByName && Sorting.PathLess(c.name, a.name) {
      if a.name != b.name {
        Sorting.PathLessTotal(a.name, b.name);
        if b.name != c.name {
          Sorting.PathLessTotal(b.name, c.name);
          Sorting.PathLessTransitive(a.name, b.name, c.name);
          Sorting.PathLessTransitive(a.name, c.name, a.name);
          Sorting.PathLessIrreflexive(a.name);
        }
      }
    }
  }

  /**
   * `SortDir`: `SORT_NONE` leaves the directory as it is; the other modes
   * leave a reordering of it in which no entry comes before an earlier one.
   * `std::sort` is not stable, so nothing is said about equal keys.
   */
  method SortDir(dir: array<FileInfo>, mode: SortingMode)
    modifies dir
    ensures mode == Unsorted ==> dir[..] == old(dir[..])
    ensures multiset(dir[..]) == multiset(old(dir[..]))
    ensures mode != Unsorted ==> Ordered(mode, dir[..])
  {
    if mode == Unsorted {
      return;
    }
    var i := 0;
    while i < dir.Length
      invariant 0 <= i <= dir.Length
      invariant multiset(dir[..]) == multiset(old(dir[..]))
      invariant Ordered(mode, dir[..i])
    {
      Sink(dir, i, mode);
      i := i + 1;
    }
    assert dir[..dir.Length] == dir[..];
  }

  /** Every pair of `s[..n]` not involving position `j` is in order. */
  predicate OrderedExcept(mode: SortingMode, s: seq<FileInfo>, j: nat, n: nat)
    requires n <= |s|
  {
    forall p, q :: 0 <= p < q < n && p != j && q != j ==> !Before(mode, s[q], s[p])
  }

  /** No entry of `s[j + 1..n]` comes before `s[j]`. */
  predicate NoneBefore(mode: SortingMode, s: seq<FileInfo>, j: nat, n: nat)
    requires j < n <= |s|
  {
    forall q :: j < q < n ==> !Before(mode, s[q], s[j])
  }

  /** One swap of `Sink`: the moving entry steps down past one it comes before. */
  lemma SinkStep(mode: SortingMode, s: seq<FileInfo>, j: nat, n: nat)
    requires 0 < j < n <= |s|
    requires OrderedExcept(mode, s, j, n) && NoneBefore(mode, s, j, n)
    requires Before(mode, s[j], s[j - 1])
    ensures var t := s[j - 1 := s[j]][j := s[j - 1]];
      OrderedExcept(mode, t, j - 1, n) && NoneBefore(mode, t, j - 1, n) && multiset(t) == multiset(s)
  {
    BeforeAsymmetric(mode, s[j], s[j - 1]);
  }

  /** When the moving entry stops, the prefix up to `n` is ordered. */
  lemma SinkDone(mode: SortingMode, s: seq<FileInfo>, j: nat, n: nat)
    requires j < n <= |s|
    requires OrderedExcept(mode, s, j, n) && NoneBefore(mode, s, j, n)
    requires j > 0 ==> !Before(mode, s[j], s[j - 1])
    ensures Ordered(mode, s[..n])
  {
    forall p | 0 <= p < j - 1
      ensures !Before(mode, s[j], s[p])
    {
      NotBeforeTransitive(mode, s[p], s[j - 1], s[j]);
    }
  }

  /** Moves `dir[i]` down past every entry it comes before, extending the ordered prefix by one. */
  method Sink(dir: array<FileInfo>, i: nat, mode: SortingMode)
    requires i < dir.Length && Ordered(mode, dir[..i])
    modifies dir
    ensures Ordered(mode, dir[..i + 1])
    ensures multiset(dir[..]) == multiset(old(dir[..]))
  {
    var j := i;
    while j > 0 && Before(mode, dir[j], dir[j - 1])
      invariant 0 <= j <= i
      invariant multiset(dir[..]) == multiset(old(dir[..]))
      invariant OrderedExcept(mode, dir[..], j, i + 1) && NoneBefore(mode, dir[..], j, i + 1)
    {
      ghost var s := dir[..];
      SinkStep(mode, s, j, i + 1);
      dir[j - 1], dir[j] := dir[j], dir[j - 1];
      assert dir[..] == s[j - 1 := s[j]][j := s[j - 1]];
      j := j - 1;
    }
    SinkDone(mode, dir[..], j, i + 1);
  }
}

=== FILE: match.dfy ===
/**
 * The glob matcher: `?` for one byte, `*` for any run, `[...]` for a set of
 * bytes and ranges, `\` to take the next byte literally.
 *
 * Both arguments are views into NUL-terminated strings, so the byte just
 * past the end of each reads as NUL; a read further than that is undefined
 * in C++ and is `None` here.
 */
module Glob {
  import opened Common

  const QUESTION: Byte := 0x3f
  const STAR: Byte := 0x2a
  const LBRACKET: Byte := 0x5b
  const RBRACKET: Byte := 0x5d
  const BACKSLASH: Byte := 0x5c
  const DASH: Byte := 0x2d
  const CARET: Byte := 0x5e
  const BANG: Byte := 0x21

  /**
   * The member loop of `range_match` from index `i` with flag `ok`: the index
   * of the closing `]` and whether the byte was matched, or `None` when the
   * scan runs past the terminator.
   */
  function RangeScan(p: seq<Byte>, t: Byte, i: nat, ok: bool): (r: Option<(nat, bool)>)
    requires i <= |p| + 1
    ensures r.Some? ==> i <= r.value.0 < |p| && p[r.value.0] == RBRACKET
    decreases |p| + 1 - i
  {
    if i > |p| then None
    else if At(p, i) == RBRACKET then Some((i, ok))
    else if ok then RangeScan(p, t, i + 1, ok)
    else if At(p, i) == DASH then
      if i == 0 || i + 1 > |p| then None
      else RangeScan(p, t, i + 2, SignedChar(p[i - 1]) <= SignedChar(t) <= SignedChar(At(p, i + 1)))
    else
      var j := if At(p, i) == BACKSLASH then i + 1 else i;
      if j > |p| then None else RangeScan(p, t, j + 1, At(p, j) == t)
  }

  /**
   * `range_match`: 0 when `t` is not accepted, otherwise the offset just past
   * the closing `]`; a leading `^` or `!` negates.
   */
  function RangeResult(p: seq<Byte>, t: Byte): (r: Option<nat>)
    ensures r.Some? && r.value != 0 ==> r.value <= |p| && p[r.value - 1] == RBRACKET
  {
    var negate := At(p, 0) == CARET || At(p, 0) == BANG;
    match RangeScan(p, t, if negate then 1 else 0, false)
    case None => None
    case Some((i, ok)) => Some(if ok == negate then 0 else i + 1)
  }

  /** The loop of `range_match`, for a pattern it can scan without reading past the terminator. */
  method RangeMatch(p: seq<Byte>, t: Byte) returns (r: nat)
    requires RangeResult(p, t).Some?
    ensures Some(r) == RangeResult(p, t)
  {
    var ok := false;
    var negate := false;
    var i := 0;
    if At(p, i) == CARET || At(p, i) == BANG {
      negate := true;
      i := i + 1;
    }
    ghost var spec := RangeScan(p, t, i, false);
    while At(p, i) != RBRACKET
      invariant i <= |p| && RangeScan(p, t, i, ok) == spec && spec.Some?
      decreases |p| - i
    {
      if ok {
        i := i + 1;
      } else if At(p, i) == DASH {
        if SignedChar(t) >= SignedChar(p[i - 1]) && SignedChar(t) <= SignedChar(At(p, i + 1)) {
          ok := true;
        }
        i := i + 2;
      } else {
        if At(p, i) == BACKSLASH {
          i := i + 1;
        }
        if At(p, i) == t {
          ok := true;
        }
        i := i + 1;
      }
    }
    r := if ok == negate then 0 else i + 1;
  }

  /**
   * Which view a bracket expression is handed: `AsWritten` passes the pattern
   * from the `[` itself, `AsIntended` from the byte after it.
   */
  datatype Brackets = AsWritten | AsIntended

  /** The index just past the run of `*` starting at `i`. */
  function SkipStars(p: seq<Byte>, i: nat): (j: nat)
    requires i <= |p|
    ensures i <= j <= |p|
    ensures forall k :: i <= k < j ==> p[k] == STAR
    ensures j == |p| || p[j] != STAR
    decreases |p| - i
  {
    if i < |p| && p[i] == STAR then SkipStars(p, i + 1) else i
  }

  /** `match`: whether the whole of `s` matches `p`, or `None` for an undefined read. */
  function Matches(b: Brackets, p: seq<Byte>, s: seq<Byte>): Option<bool>
    decreases |p|, 1, 0
  {
    MatchFrom(b, p, s, 0, 0)
  }

  /** The main loop of `match` at pattern index `i` and string index `m`. */
  function MatchFrom(b: Brackets, p: seq<Byte>, s: seq<Byte>, i: nat, m: nat): Option<bool>
    requires i <= |p| + 1
    decreases if i <= |p| then |p| - i else 0, 0, 0
  {
    if i >= |p| then Some(m == |s|)
    else if p[i] == QUESTION then
      if m == |s| then Some(false) else MatchFrom(b, p, s, i + 1, m + 1)
    else if p[i] == STAR then
      var j := SkipStars(p, i);
      if j == |p| then Some(true) else StarLoop(b, p[j..], s, m)
    else if p[i] == LBRACKET then
      if m > |s| then None
      else
        var view := if b == AsWritten then p[i..] else p[i + 1..];
        var skip := if b == AsWritten then 0 else 1;
        match RangeResult(view, At(s, m))
        case None => None
        case Some(k) =>
          if k == 0 then Some(false) else MatchFrom(b, p, s, i + skip + k, m + 1)
    else
      var j := if p[i] == BACKSLASH then i + 1 else i;
      if m > |s| then None
      else if At(s, m) != At(p, j) then Some(false)
      else MatchFrom(b, p, s, j + 1, m + 1)
  }

  /** The `*` search: the rest of the pattern against `s[m..]`, `s[m+1..]`, ... up to the last byte. */
  function StarLoop(b: Brackets, q: seq<Byte>, s: seq<Byte>, m: nat): Option<bool>
    decreases |q|, 2, |s| - m
  {
    if m >= |s| then Some(false)
    else
      match Matches(b, q, s[m..])
      case None => None
      case Some(true) => Some(true)
      case Some(false) => StarLoop(b, q, s, m + 1)
  }

  /** `match` as written, for a pattern and string it handles without an undefined read. */
  method Match(p: seq<Byte>, s: seq<Byte>) returns (r: bool)
    requires Matches(AsWritten, p, s).Some?
    ensures Some(r) == Matches(AsWritten, p, s)
    decreases |p|, 1
  {
    var i: nat, m: nat := 0, 0;
    while i < |p|
      invariant i <= |p| + 1
      invariant MatchFrom(AsWritten, p, s, i, m) == Matches(AsWritten, p, s)
      decreases |p| + 1 - i
    {
      if p[i] == QUESTION {
        i := i + 1;
        if m == |s| {
          return false;
        }
        m := m + 1;
      } else if p[i] == STAR {
        ghost var i0 := i;
        while i < |p| && p[i] == STAR
          invariant i0 <= i <= |p| && SkipStars(p, i) == SkipStars(p, i0)
        {
          i := i + 1;
        }
        if i == |p| {
          return true;
        }
        r := MatchStar(p[i..], s, m);
        return;
      } else if p[i] == LBRACKET {
        var ii := RangeMatch(p[i..], At(s, m));
        if ii != 0 {
          i := i + ii;
          m := m + 1;
        } else {
          return false;
        }
      } else {
        if p[i] == BACKSLASH {
          i := i + 1;
        }
        if At(s, m) != At(p, i) {
          return false;
        }
        i := i + 1;
        m := m + 1;
      }
    }
    r := m == |s|;
  }

  /** The `*` loop of `match`: each suffix from `m` to the last byte in turn. */
  method MatchStar(q: seq<Byte>, s: seq<Byte>, m0: nat) returns (r: bool)
    requires q != [] && StarLoop(AsWritten, q, s, m0).Some?
    ensures Some(r) == StarLoop(AsWritten, q, s, m0)
    decreases |q|, 2
  {
    var m := m0;
    while m < |s|
      invariant StarLoop(AsWritten, q, s, m) == StarLoop(AsWritten, q, s, m0)
      decreases |s| - m
    {
      var found := Match(q, s[m..]);
      if found {
        return true;
      }
      m := m + 1;
    }
    r := false;
  }

  // Properties of the matcher.

  /** A byte that stands for itself outside brackets. */
  predicate Plain(c: Byte)
  {
    c != 0 && c != QUESTION && c != STAR && c != LBRACKET && c != BACKSLASH
  }

  /** A pattern of single-byte items: `?` or a plain byte. */
  predicate SingleItems(q: seq<Byte>)
  {
    forall k :: 0 <= k < |q| ==> q[k] == QUESTION || Plain(q[k])
  }

  /** The items of `q` from `i` on accept the bytes of `s` at the same places. */
  predicate AcceptsFrom(q: seq<Byte>, s: seq<Byte>, i: nat)
  {
    |s| >= |q| && forall k :: i <= k < |q| ==> q[k] == QUESTION || q[k] == s[k]
  }

  /**
   * Single-byte items at the front of a pattern consume one byte each: the
   * match from `i` reaches the end of those items, at the same place in `s`,
   * exactly when they accept `s` there.
   */
  lemma {:induction false} ItemsPrefix(b: Brackets, q: seq<Byte>, t: seq<Byte>, s: seq<Byte>, i: nat)
    requires SingleItems(q) && i <= |q| && i <= |s|
    ensures MatchFrom(b, q + t, s, i, i) ==
      if AcceptsFrom(q, s, i) then MatchFrom(b, q + t, s, |q|, |q|) else Some(false)
    decreases |q| - i
  {
    var p := q + t;
    if i < |q| {
      assert p[i] == q[i];
      if i < |s| {
        ItemsPrefix(b, q, t, s, i + 1);
      }
    }
  }

  /**
   * A pattern of `?` and plain bytes matches exactly the strings of its own
   * length that agree with it at every plain byte; so a pattern of plain
   * bytes matches only itself, and `?`s match exactly as many bytes.
   */
  lemma SingleItemsMatch(b: Brackets, q: seq<Byte>, s: seq<Byte>)
    requires SingleItems(q)
    ensures Matches(b, q, s) == Some(|s| == |q| && forall k :: 0 <= k < |q| ==> q[k] == QUESTION || q[k] == s[k])
  {
    assert q + [] == q;
    ItemsPrefix(b, q, [], s, 0);
  }

  lemma LiteralMatchesItself(b: Brackets, q: seq<Byte>, s: seq<Byte>)
    requires forall k :: 0 <= k < |q| ==> Plain(q[k])
    ensures Matches(b, q, s) == Some(s == q)
  {
    SingleItemsMatch(b, q, s);
    if |s| == |q| && forall k :: 0 <= k < |q| ==> q[k] == QUESTION || q[k] == s[k] {
      assert s == q;
    }
  }

  /**
   * Single-byte items followed by a run of `*`: the items must accept the
   * front of `s`, and the stars take whatever is left, even nothing.
   */
  lemma TrailingStarsMatchAnyRest(b: Brackets, q: seq<Byte>, stars: seq<Byte>, s: seq<Byte>)
    requires SingleItems(q) && stars != [] && forall k :: 0 <= k < |stars| ==> stars[k] == STAR
    ensures Matches(b, q + stars, s) == Some(|s| >= |q| && forall k :: 0 <= k < |q| ==> q[k] == QUESTION || q[k] == s[k])
  {
    var p := q + stars;
    if |s| >= |q| {
      ItemsPrefix(b, q, stars, s, 0);
      assert p[|q|] == STAR;
      assert SkipStars(p, |q|) == |p|;
    } else {
      ItemsPrefix(b, q, stars, s, |s|);
      if |s| < |q| {
        ItemsPrefix(b, q, stars, s, 0);
      }
    }
  }

  /** No NUL and no bracket: every read of the matcher stays within the terminators. */
  predicate NoNulNoBracket(p: seq<Byte>)
  {
    forall k :: 0 <= k < |p| ==> p[k] != 0 && p[k] != LBRACKET
  }

  lemma {:induction false} MatchFromDefined(b: Brackets, p: seq<Byte>, s: seq<Byte>, i: nat, m: nat)
    requires NoNulNoBracket(p) && i <= |p| + 1 && (i > |p| || m <= |s|)
    ensures MatchFrom(b, p, s, i, m).Some?
    decreases if i <= |p| then |p| - i else 0, 0, 0
  {
    if i < |p| {
      if p[i] == QUESTION {
        if m < |s| {
          MatchFromDefined(b, p, s, i + 1, m + 1);
        }
      } else if p[i] == STAR {
        var j := SkipStars(p, i);
        if j < |p| {
          StarLoopDefined(b, p[j..], s, m);
        }
      } else {
        var j := if p[i] == BACKSLASH then i + 1 else i;
        if At(s, m) == At(p, j) {
          MatchFromDefined(b, p, s, j + 1, m + 1);
        }
      }
    }
  }

  lemma {:induction false} StarLoopDefined(b: Brackets, q: seq<Byte>, s: seq<Byte>, m: nat)
    requires NoNulNoBracket(q)
    ensures StarLoop(b, q, s, m).Some?
    decreases |q|, 2, |s| - m
  {
    if m < |s| {
      MatchFromDefined(b, q, s[m..], 0, 0);
      StarLoopDefined(b, q, s, m + 1);
    }
  }

  /**
   * The `*` search succeeds exactly when the rest of the pattern matches the
   * string from some index between `m` and the last byte.
   */
  lemma {:induction false} StarLoopSearches(b: Brackets, q: seq<Byte>, s: seq<Byte>, m: nat)
    requires NoNulNoBracket(q)
    ensures StarLoop(b, q, s, m) == Some(true) <==>
      exists m' :: m <= m' < |s| && Matches(b, q, s[m'..]) == Some(true)
    decreases |s| - m
  {
    if m < |s| {
      MatchFromDefined(b, q, s[m..], 0, 0);
      StarLoopSearches(b, q, s, m + 1);
    }
  }

  /**
   * A `*` that is not trailing: the match succeeds exactly when the pattern
   * after the run of stars matches the string from some index between the
   * current one and the last byte.
   */
  lemma StarSearch(b: Brackets, p: seq<Byte>, s: seq<Byte>, i: nat, m: nat)
    requires NoNulNoBracket(p) && i < |p| && p[i] == STAR && SkipStars(p, i) < |p|
    ensures MatchFrom(b, p, s, i, m) == Some(true) <==>
      exists m' :: m <= m' < |s| && Matches(b, p[SkipStars(p, i)..], s[m'..]) == Some(true)
  {
    StarLoopSearches(b, p[SkipStars(p, i)..], s, m);
  }

  /** Every byte of `lit` preceded by a backslash. */
  function Escaped(lit: seq<Byte>): (e: seq<Byte>)
    ensures |e| == 2 * |lit|
  {
    if lit == [] then [] else [BACKSLASH, lit[0]] + Escaped(lit[1..])
  }

  lemma {:induction false} EscapedAt(lit: seq<Byte>, k: nat)
    requires k < |lit|
    ensures Escaped(lit)[2 * k] == BACKSLASH && Escaped(lit)[2 * k + 1] == lit[k]
  {
    if k > 0 {
      EscapedAt(lit[1..], k - 1);
      assert Escaped(lit)[2..] == Escaped(lit[1..]);
    }
  }

  lemma {:induction false} EscapedFrom(b: Brackets, lit: seq<Byte>, s: seq<Byte>, k: nat)
    requires forall j :: 0 <= j < |lit| ==> lit[j] != 0
    requires k <= |lit| && k <= |s|
    ensures MatchFrom(b, Escaped(lit), s, 2 * k, k) == Some(lit[k..] == s[k..])
    decreases |lit| - k
  {
    if k < |lit| {
      EscapedAt(lit, k);
      if k < |s| {
        EscapedFrom(b, lit, s, k + 1);
        assert lit[k..] == [lit[k]] + lit[k + 1..];
        assert s[k..] == [s[k]] + s[k + 1..];
      }
    }
  }

  /**
   * A backslash makes the next byte literal: with every byte escaped, a
   * pattern matches only the bytes it spells, `?`, `*`, `[` and `\` included.
   */
  lemma EscapedMatchesItself(b: Brackets, lit: seq<Byte>, s: seq<Byte>)
    requires forall j :: 0 <= j < |lit| ==> lit[j] != 0
    ensures Matches(b, Escaped(lit), s) == Some(s == lit)
  {
    EscapedFrom(b, lit, s, 0);
  }

  /** Bracket members that stand for themselves: no `]`, `-` or `\`. */
  predicate PlainMembers(ms: seq<Byte>)
  {
    forall k :: 0 <= k < |ms| ==> ms[k] != RBRACKET && ms[k] != DASH && ms[k] != BACKSLASH
  }

  lemma {:induction false} ScanMembers(p: seq<Byte>, t: Byte, i: nat, e: nat, ok: bool)
    requires i <= e < |p| && p[e] == RBRACKET && PlainMembers(p[i..e])
    ensures RangeScan(p, t, i, ok) == Some((e, ok || t in p[i..e]))
    decreases e - i
  {
    if i < e {
      assert p[i] == p[i..e][0];
      assert p[i + 1..e] == p[i..e][1..];
      ScanMembers(p, t, i + 1, e, if ok then ok else p[i] == t);
      assert p[i..e] == [p[i]] + p[i + 1..e];
    } else {
      assert p[i..e] == [];
    }
  }

  /**
   * `range_match` on a bracket of plain members, handed the view from the `[`:
   * the `[` itself counts as a member, and a match advances past the `]`.
   */
  lemma BracketMembers(ms: seq<Byte>, t: Byte)
    requires PlainMembers(ms)
    ensures RangeResult([LBRACKET] + ms + [RBRACKET], t) ==
      Some(if t == LBRACKET || t in ms then |ms| + 2 else 0)
  {
    var p := [LBRACKET] + ms + [RBRACKET];
    assert p[0..|ms| + 1] == [LBRACKET] + ms;
    ScanMembers(p, t, 0, |ms| + 1, false);
  }

  /** A bracket of plain members, as written, matches one byte that is a member or `[`. */
  lemma BracketMatchesOneByte(ms: seq<Byte>, s: seq<Byte>)
    requires PlainMembers(ms)
    ensures Matches(AsWritten, [LBRACKET] + ms + [RBRACKET], s) ==
      Some(|s| == 1 && (s[0] == LBRACKET || s[0] in ms))
  {
    var p := [LBRACKET] + ms + [RBRACKET];
    assert p[0] == LBRACKET && p[0..] == p;
    BracketMembers(ms, At(s, 0));
    if RangeResult(p, At(s, 0)).value != 0 {
      assert MatchFrom(AsWritten, p, s, 0, 0) == MatchFrom(AsWritten, p, s, |p|, 1);
    }
  }

  /**
   * A range `a-c` accepts the bytes between its ends as signed `char`s; as
   * written, `[` and the first end are members too.
   */
  lemma BracketRange(a: Byte, c: Byte, t: Byte)
    requires a != RBRACKET && a != DASH && a != BACKSLASH && c != RBRACKET
    ensures RangeResult([LBRACKET, a, DASH, c, RBRACKET], t) ==
      Some(if t == LBRACKET || t == a || SignedChar(a) <= SignedChar(t) <= SignedChar(c) then 5 else 0)
  {
    var p := [LBRACKET, a, DASH, c, RBRACKET];
    var inRange := SignedChar(a) <= SignedChar(t) <= SignedChar(c);
    assert RangeScan(p, t, 4, true) == Some((4, true));
    assert RangeScan(p, t, 4, false) == Some((4, false));
    assert RangeScan(p, t, 2, false) == RangeScan(p, t, 4, inRange);
    assert RangeScan(p, t, 3, true) == RangeScan(p, t, 4, true);
    assert RangeScan(p, t, 2, true) == RangeScan(p, t, 4, true);
    assert RangeScan(p, t, 1, false) == RangeScan(p, t, 2, a == t);
    assert RangeScan(p, t, 1, true) == RangeScan(p, t, 2, true);
    assert RangeScan(p, t, 0, false) == RangeScan(p, t, 1, LBRACKET == t);
  }

  /**
   * As written, `!` after `[` is an ordinary member: `[!a]` matches `a`, `!`
   * and `[`, and not `b`.
   */
  lemma NegationNeverFires()
    ensures Matches(AsWritten, [LBRACKET, BANG, 0x61, RBRACKET], [0x61]) == Some(true)
    ensures Matches(AsWritten, [LBRACKET, BANG, 0x61, RBRACKET], [BANG]) == Some(true)
    ensures Matches(AsWritten, [LBRACKET, BANG, 0x61, RBRACKET], [LBRACKET]) == Some(true)
    ensures Matches(AsWritten, [LBRACKET, BANG, 0x61, RBRACKET], [0x62]) == Some(false)
  {
    var ms := [BANG, 0x61];
    assert [LBRACKET] + ms + [RBRACKET] == [LBRACKET, BANG, 0x61, RBRACKET];
    BracketMatchesOneByte(ms, [0x61]);
    BracketMatchesOneByte(ms, [BANG]);
    BracketMatchesOneByte(ms, [LBRACKET]);
    BracketMatchesOneByte(ms, [0x62]);
  }

  /**
   * With the view starting after `[`, a bracket of plain members matches one
   * byte that is a member, or one that is not when it opens with `!` or `^`;
   * the `[` is no longer a member.
   */
  lemma IntendedBracket(neg: seq<Byte>, ms: seq<Byte>, s: seq<Byte>)
    requires neg == [] || neg == [BANG] || neg == [CARET]
    requires PlainMembers(ms)
    requires neg != [] || ms == [] || (ms[0] != BANG && ms[0] != CARET)
    ensures Matches(AsIntended, [LBRACKET] + neg + ms + [RBRACKET], s) ==
      Some(|s| == 1 && ((s[0] in ms) != (neg != [])))
  {
    var p := [LBRACKET] + neg + ms + [RBRACKET];
    var view := neg + ms + [RBRACKET];
    assert p[1..] == view && p[0] == LBRACKET;
    var t := At(s, 0);
    IntendedRange(neg, ms, t);
    var k := RangeResult(view, t).value;
    if k != 0 {
      assert 1 + k == |p|;
      assert MatchFrom(AsIntended, p, s, 0, 0) == MatchFrom(AsIntended, p, s, |p|, 1);
    }
  }

  lemma IntendedRange(neg: seq<Byte>, ms: seq<Byte>, t: Byte)
    requires neg == [] || neg == [BANG] || neg == [CARET]
    requires PlainMembers(ms)
    requires neg != [] || ms == [] || (ms[0] != BANG && ms[0] != CARET)
    ensures RangeResult(neg + ms + [RBRACKET], t) ==
      Some(if (t in ms) != (neg != []) then |neg| + |ms| + 1 else 0)
  {
    var view := neg + ms + [RBRACKET];
    assert view[|neg|..|neg| + |ms|] == ms;
    assert view[|neg| + |ms|] == RBRACKET;
    assert (At(view, 0) == CARET || At(view, 0) == BANG) == (neg != []);
    ScanMembers(view, t, |neg|, |neg| + |ms|, false);
  }

  lemma {:induction false} NoMatchPastEnd(b: Brackets, p: seq<Byte>, s: seq<Byte>, i: nat, m: nat)
    requires STAR !in p && i <= |p| + 1 && m > |s|
    ensures MatchFrom(b, p, s, i, m) != Some(true)
    decreases if i <= |p| then |p| - i else 0
  {
    if i < |p| && p[i] == QUESTION {
      NoMatchPastEnd(b, p, s, i + 1, m + 1);
    }
  }

  lemma {:induction false} ConsumesAllFrom(b: Brackets, p: seq<Byte>, s: seq<Byte>, c: Byte, i: nat, m: nat)
    requires STAR !in p && i <= |p| + 1 && MatchFrom(b, p, s, i, m) == Some(true)
    ensures MatchFrom(b, p, s + [c], i, m) == Some(false)
    decreases if i <= |p| then |p| - i else 0, 1
  {
    if i < |p| {
      if m > |s| {
        NoMatchPastEnd(b, p, s, i, m);
      } else if p[i] == QUESTION {
        if m < |s| {
          ConsumesAllFrom(b, p, s, c, i + 1, m + 1);
        }
      } else if p[i] == LBRACKET {
        ConsumesBracket(b, p, s, c, i, m);
      } else {
        ConsumesByte(b, p, s, c, i, m);
      }
    }
  }

  lemma {:induction false} ConsumesBracket(b: Brackets, p: seq<Byte>, s: seq<Byte>, c: Byte, i: nat, m: nat)
    requires STAR !in p && i < |p| && p[i] == LBRACKET && m <= |s|
    requires MatchFrom(b, p, s, i, m) == Some(true)
    ensures MatchFrom(b, p, s + [c], i, m) == Some(false)
    decreases |p| - i, 0
  {
    var view := if b == AsWritten then p[i..] else p[i + 1..];
    var skip := if b == AsWritten then 0 else 1;
    var k := RangeResult(view, At(s, m)).value;
    assert MatchFrom(b, p, s, i, m) == MatchFrom(b, p, s, i + skip + k, m + 1);
    if m == |s| {
      NoMatchPastEnd(b, p, s, i + skip + k, m + 1);
      assert false;
    } else {
      assert At(s + [c], m) == At(s, m);
      assert MatchFrom(b, p, s + [c], i, m) == MatchFrom(b, p, s + [c], i + skip + k, m + 1);
      ConsumesAllFrom(b, p, s, c, i + skip + k, m + 1);
    }
  }

  lemma {:induction false} ConsumesByte(b: Brackets, p: seq<Byte>, s: seq<Byte>, c: Byte, i: nat, m: nat)
    requires STAR !in p && i < |p| && p[i] != QUESTION && p[i] != LBRACKET && m <= |s|
    requires MatchFrom(b, p, s, i, m) == Some(true)
    ensures MatchFrom(b, p, s + [c], i, m) == Some(false)
    decreases |p| - i, 0
  {
    var j := if p[i] == BACKSLASH then i + 1 else i;
    if m == |s| {
      NoMatchPastEnd(b, p, s, j + 1, m + 1);
    } else {
      assert At(s + [c], m) == At(s, m);
      ConsumesAllFrom(b, p, s, c, j + 1, m + 1);
    }
  }

  /**
   * The result is true only when the whole string has been consumed: a
   * pattern without `*` that matches `s` does not match `s` with one more byte.
   */
  lemma MatchConsumesAll(b: Brackets, p: seq<Byte>, s: seq<Byte>, c: Byte)
    requires STAR !in p && Matches(b, p, s) == Some(true)
    ensures Matches(b, p, s + [c]) == Some(false)
  {
    ConsumesAllFrom(b, p, s, c, 0, 0);
  }
}

=== FILE: natural_sort.dfy ===
/**
 * Natural ("version") comparison of file names: names are compared as
 * alternating runs of non-digits and digits, non-digit runs character by
 * character and digit runs by numeric value, so that "img2" sorts before
 * "img10".
 *
 * `NaturalCompare` is the comparator as the code computes it, including the
 * conversion of the 64-bit digit difference to a 32-bit `int`.
 * `NaturalOrder` is the comparison that conversion evidently was meant to
 * return: the sign of the exact difference.
 */
module NaturalSort {
  import opened Common

  const TILDE: Byte := 0x7e
  const DOT: Byte := 0x2e

  /** `compare_non_digit (char, char)`: `~` is greatest, then punctuation, then the `char` value. */
  function CompareNonDigitChar(a: Byte, b: Byte): (c: int)
    ensures c == 0 <==> a == b
  {
    var t := (if a == TILDE then 1 else 0) - (if b == TILDE then 1 else 0);
    if t != 0 then t
    else
      var p := (if IsPunct(a) then 1 else 0) - (if IsPunct(b) then 1 else 0);
      if p != 0 then p else SignedChar(a) - SignedChar(b)
  }

  /** The per-character order: `~` above everything, punctuation above the rest, else by `char` value. */
  lemma CharOrder(a: Byte, b: Byte)
    ensures CompareNonDigitChar(a, b) == -CompareNonDigitChar(b, a)
    ensures CompareNonDigitChar(a, b) == 0 <==> a == b
    ensures a == TILDE && b != TILDE ==> CompareNonDigitChar(a, b) > 0
    ensures a != TILDE && b != TILDE && IsPunct(a) && !IsPunct(b) ==> CompareNonDigitChar(a, b) > 0
    ensures a != TILDE && b != TILDE && IsPunct(a) == IsPunct(b) ==>
              Sign(CompareNonDigitChar(a, b)) == Sign(SignedChar(a) - SignedChar(b))
  {
  }

  /**
   * `compare_non_digit (string_view, string_view)`: the first non-zero
   * character comparison, or else the length difference.
   */
  function CompareNonDigit(a: seq<Byte>, b: seq<Byte>): (c: int)
    ensures c == 0 <==> a == b
    decreases |a|
  {
    if a == [] || b == [] then |a| - |b|
    else
      var c := CompareNonDigitChar(a[0], b[0]);
      if c != 0 then c else CompareNonDigit(a[1..], b[1..])
  }

  /** Non-digit runs compare equal exactly when they are equal, and swapping them flips the sign. */
  lemma {:induction false} CompareNonDigitProps(a: seq<Byte>, b: seq<Byte>)
    ensures CompareNonDigit(a, b) == 0 <==> a == b
    ensures CompareNonDigit(a, b) == -CompareNonDigit(b, a)
    decreases |a|
  {
    if a != [] && b != [] {
      CharOrder(a[0], b[0]);
      CompareNonDigitProps(a[1..], b[1..]);
      if a[0] == b[0] && a[1..] == b[1..] {
        assert a == [a[0]] + a[1..] && b == [b[0]] + b[1..];
      }
    }
  }

  /** A run that is a proper prefix of the other compares smaller. */
  lemma {:induction false} ShorterPrefixIsSmaller(a: seq<Byte>, rest: seq<Byte>)
    requires rest != []
    ensures CompareNonDigit(a, a + rest) < 0
    decreases |a|
  {
    if a != [] {
      CharOrder(a[0], a[0]);
      assert (a + rest)[1..] == a[1..] + rest;
      ShorterPrefixIsSmaller(a[1..], rest);
    }
  }

  /** `find_first_of (digits)`, with "not found" giving the whole length (as `substr (0, npos)` does). */
  function FirstDigit(s: seq<Byte>): (k: nat)
    ensures k <= |s|
    ensures forall i :: 0 <= i < k ==> !IsDigit(s[i])
    ensures k < |s| ==> IsDigit(s[k])
    decreases |s|
  {
    if s == [] then 0 else if IsDigit(s[0]) then 0 else 1 + FirstDigit(s[1..])
  }

  /** Length of the maximal run of digits at the start of `s`. */
  function DigitRun(s: seq<Byte>): (n: nat)
    ensures n <= |s|
    ensures forall i :: 0 <= i < n ==> IsDigit(s[i])
    ensures n < |s| ==> !IsDigit(s[n])
    decreases |s|
  {
    if s == [] || !IsDigit(s[0]) then 0 else 1 + DigitRun(s[1..])
  }

  /** The exact value of a string of decimal digits, most significant first. */
  function DecimalValue(d: seq<Byte>): nat
    decreases |d|
  {
    if d == [] then 0
    else DecimalValue(d[..|d| - 1]) * 10 + (if IsDigit(d[|d| - 1]) then d[|d| - 1] - '0' as int else 0)
  }

  const ULLONG_MAX: nat := 0xFFFF_FFFF_FFFF_FFFF

  /** `strtoull (s, &end, 10)` on a string that starts with a digit: saturates at ULLONG_MAX. */
  function Strtoull(s: seq<Byte>): (v: nat)
    ensures v <= ULLONG_MAX
  {
    var v := DecimalValue(s[..DigitRun(s)]);
    if v <= ULLONG_MAX then v else ULLONG_MAX
  }

  /**
   * What `natural_compare` demands of its arguments: not both empty, and
   * whenever the leading non-digit runs are equal both strings go on with a
   * digit (otherwise `remove_prefix (npos)` is undefined) — at every level of
   * the recursion.
   */
  predicate Defined(a: seq<Byte>, b: seq<Byte>)
    decreases |a| + |b|
  {
    && !(a == [] && b == [])
    && (|| a == [] || b == [] || (a[0] == DOT) != (b[0] == DOT)
        || CompareNonDigit(a[..FirstDigit(a)], b[..FirstDigit(b)]) != 0
        || (&& FirstDigit(a) < |a| && FirstDigit(b) < |b|
            && var ra, rb := a[FirstDigit(a)..], b[FirstDigit(b)..];
               var na, nb := ra[DigitRun(ra)..], rb[DigitRun(rb)..];
               Strtoull(ra) != Strtoull(rb) || |na| + |nb| == 0 || Defined(na, nb)))
  }

  /**
   * `natural_compare` as written.  The digit runs are read by `strtoull`; their
   * unsigned difference is kept in an `intmax_t` (tested against zero) and
   * returned as an `int`, which keeps its low 32 bits.
   */
  function NaturalCompare(a: seq<Byte>, b: seq<Byte>): (c: int)
    requires Defined(a, b)
    decreases |a| + |b|
  {
    var e := (if b == [] then 1 else 0) - (if a == [] then 1 else 0);
    if e != 0 then e
    else
      var d := (if b[0] == DOT then 1 else 0) - (if a[0] == DOT then 1 else 0);
      if d != 0 then d
      else
        var ap, bp := FirstDigit(a), FirstDigit(b);
        var c := CompareNonDigit(a[..ap], b[..bp]);
        if c != 0 then c
        else
          var ra, rb := a[ap..], b[bp..];
          var x, y := Strtoull(ra), Strtoull(rb);
          if x != y then ToInt32(x - y)
          else
            var na, nb := ra[DigitRun(ra)..], rb[DigitRun(rb)..];
            if |na| + |nb| != 0 then NaturalCompare(na, nb) else 0
  }

  /**
   * The comparison `natural_compare` evidently intends: the same runs, digit
   * runs compared by exact value, the sign of the first difference returned,
   * and a string that runs out of characters ordered first.
   */
  function NaturalOrder(a: seq<Byte>, b: seq<Byte>): (c: int)
    ensures -1 <= c <= 1
    decreases |a| + |b|
  {
    if a == [] || b == [] then Sign(|a| - |b|)
    else
      var d := (if b[0] == DOT then 1 else 0) - (if a[0] == DOT then 1 else 0);
      if d != 0 then d
      else
        var ap, bp := FirstDigit(a), FirstDigit(b);
        var c := CompareNonDigit(a[..ap], b[..bp]);
        if c != 0 then Sign(c)
        else
          var ra, rb := a[ap..], b[bp..];
          if ra == [] || rb == [] then Sign(|ra| - |rb|)
          else
            var x, y := DecimalValue(ra[..DigitRun(ra)]), DecimalValue(rb[..DigitRun(rb)]);
            if x != y then Sign(x - y)
            else NaturalOrder(ra[DigitRun(ra)..], rb[DigitRun(rb)..])
  }

  /** The empty name sorts before every other name. */
  lemma EmptyFirst(b: seq<Byte>)
    requires b != []
    ensures Defined([], b) && NaturalCompare([], b) < 0 && NaturalCompare(b, []) > 0
    ensures NaturalOrder([], b) < 0 && NaturalOrder(b, []) > 0
  {
  }

  /** A dotfile sorts before a name that does not start with `.`. */
  lemma DotFirst(a: seq<Byte>, b: seq<Byte>)
    requires a != [] && b != [] && a[0] == DOT && b[0] != DOT
    ensures Defined(a, b) && NaturalCompare(a, b) < 0 && NaturalCompare(b, a) > 0
    ensures NaturalOrder(a, b) < 0 && NaturalOrder(b, a) > 0
  {
  }

  /** Swapping the arguments of the intended comparison flips its sign. */
  lemma {:induction false} NaturalOrderAntisymmetric(a: seq<Byte>, b: seq<Byte>)
    ensures NaturalOrder(a, b) == -NaturalOrder(b, a)
    decreases |a| + |b|
  {
    if a != [] && b != [] {
      var ap, bp := FirstDigit(a), FirstDigit(b);
      CompareNonDigitProps(a[..ap], b[..bp]);
      var d := (if b[0] == DOT then 1 else 0) - (if a[0] == DOT then 1 else 0);
      var c := CompareNonDigit(a[..ap], b[..bp]);
      var ra, rb := a[ap..], b[bp..];
      if d == 0 && c == 0 && ra != [] && rb != [] {
        var na, nb := ra[DigitRun(ra)..], rb[DigitRun(rb)..];
        var x: int, y: int := DecimalValue(ra[..DigitRun(ra)]), DecimalValue(rb[..DigitRun(rb)]);
        assert NaturalOrder(a, b) == if x != y then Sign(x - y) else NaturalOrder(na, nb);
        assert NaturalOrder(b, a) == if y != x then Sign(y - x) else NaturalOrder(nb, na);
        NaturalOrderAntisymmetric(na, nb);
      }
    }
  }

  /** Every name compares equal to itself. */
  lemma {:induction false} NaturalOrderReflexive(a: seq<Byte>)
    ensures NaturalOrder(a, a) == 0
    decreases |a|
  {
    NaturalOrderAntisymmetric(a, a);
  }

  /** The per-character order is transitive. */
  lemma CharOrderTransitive(a: Byte, b: Byte, c: Byte)
    requires CompareNonDigitChar(a, b) < 0 && CompareNonDigitChar(b, c) < 0
    ensures CompareNonDigitChar(a, c) < 0
  {
  }

  /** The order on non-digit runs is transitive. */
  lemma {:induction false} CompareNonDigitTransitive(a: seq<Byte>, b: seq<Byte>, c: seq<Byte>)
    requires CompareNonDigit(a, b) < 0 && CompareNonDigit(b, c) < 0
    ensures CompareNonDigit(a, c) < 0
    decreases |a|
  {
    if a != [] && b != [] && c != [] {
      var x, y := CompareNonDigitChar(a[0], b[0]), CompareNonDigitChar(b[0], c[0]);
      CharOrder(a[0], b[0]);
      CharOrder(b[0], c[0]);
      if x < 0 && y < 0 {
        CharOrderTransitive(a[0], b[0], c[0]);
      } else if x == 0 && y == 0 {
        CompareNonDigitTransitive(a[1..], b[1..], c[1..]);
      }
    }
  }

  /**
   * What `NaturalOrder` compares once two names agree on the leading dot and
   * the leading non-digit run: the rests `ra` and `rb`, which start with a
   * digit when they are not empty.
   */
  function TailOrder(ra: seq<Byte>, rb: seq<Byte>): (c: int)
    ensures -1 <= c <= 1
    decreases |ra| + |rb|
  {
    if ra == [] || rb == [] then Sign(|ra| - |rb|)
    else
      var x, y := DecimalValue(ra[..DigitRun(ra)]), DecimalValue(rb[..DigitRun(rb)]);
      if x != y then Sign(x - y)
      else NaturalOrder(ra[DigitRun(ra)..], rb[DigitRun(rb)..])
  }

  /** Two non-empty names with the same leading dot and equal non-digit runs compare by their rests. */
  lemma SameRunOrder(a: seq<Byte>, b: seq<Byte>)
    requires a != [] && b != [] && (a[0] == DOT) == (b[0] == DOT)
    requires CompareNonDigit(a[..FirstDigit(a)], b[..FirstDigit(b)]) == 0
    ensures NaturalOrder(a, b) == TailOrder(a[FirstDigit(a)..], b[FirstDigit(b)..])
  {
  }

  /**
   * The intended comparison is transitive: `a <= b <= c` gives `a <= c`, and
   * strictly so when either step is strict.
   */
  lemma {:induction false} NaturalOrderTransitive(a: seq<Byte>, b: seq<Byte>, c: seq<Byte>)
    requires NaturalOrder(a, b) <= 0 && NaturalOrder(b, c) <= 0
    ensures NaturalOrder(a, c) <= 0
    ensures NaturalOrder(a, b) < 0 || NaturalOrder(b, c) < 0 ==> NaturalOrder(a, c) < 0
    decreases |a| + |b| + |c|, 1
  {
    if a != [] && b != [] && c != [] {
      var da, db, dc := a[0] == DOT, b[0] == DOT, c[0] == DOT;
      if da == db && db == dc {
        var ap, bp, cp := FirstDigit(a), FirstDigit(b), FirstDigit(c);
        var ab, bc := CompareNonDigit(a[..ap], b[..bp]), CompareNonDigit(b[..bp], c[..cp]);
        CompareNonDigitProps(a[..ap], b[..bp]);
        CompareNonDigitProps(b[..bp], c[..cp]);
        CompareNonDigitProps(a[..ap], c[..cp]);
        if ab == 0 && bc == 0 {
          SameRunOrder(a, b);
          SameRunOrder(b, c);
          SameRunOrder(a, c);
          TailOrderTransitive(a[ap..], b[bp..], c[cp..]);
        } else if ab < 0 && bc < 0 {
          CompareNonDigitTransitive(a[..ap], b[..bp], c[..cp]);
        }
      }
    }
  }

  /** Comparing equal is an equivalence: with reflexivity and symmetry, it is transitive. */
  lemma NaturalOrderEquivalent(a: seq<Byte>, b: seq<Byte>, c: seq<Byte>)
    requires NaturalOrder(a, b) == 0 && NaturalOrder(b, c) == 0
    ensures NaturalOrder(a, c) == 0
  {
    NaturalOrderAntisymmetric(a, b);
    NaturalOrderAntisymmetric(b, c);
    NaturalOrderAntisymmetric(a, c);
    NaturalOrderTransitive(a, b, c);
    NaturalOrderTransitive(c, b, a);
  }

  /** `TailOrder` is transitive in the same sense as `NaturalOrder`. */
  lemma {:induction false} TailOrderTransitive(ra: seq<Byte>, rb: seq<Byte>, rc: seq<Byte>)
    requires ra != [] ==> IsDigit(ra[0])
    requires rb != [] ==> IsDigit(rb[0])
    requires rc != [] ==> IsDigit(rc[0])
    requires TailOrder(ra, rb) <= 0 && TailOrder(rb, rc) <= 0
    ensures TailOrder(ra, rc) <= 0
    ensures TailOrder(ra, rb) < 0 || TailOrder(rb, rc) < 0 ==> TailOrder(ra, rc) < 0
    decreases |ra| + |rb| + |rc|, 0
  {
    if ra != [] && rb != [] && rc != [] {
      var ka, kb, kc := DigitRun(ra), DigitRun(rb), DigitRun(rc);
      var x, y, z := DecimalValue(ra[..ka]), DecimalValue(rb[..kb]), DecimalValue(rc[..kc]);
      if x == y && y == z {
        NaturalOrderTransitive(ra[ka..], rb[kb..], rc[kc..]);
      }
    }
  }

  lemma FirstDigitIs(s: seq<Byte>, k: nat)
    requires k <= |s|
    requires forall i :: 0 <= i < k ==> !IsDigit(s[i])
    requires k < |s| ==> IsDigit(s[k])
    ensures FirstDigit(s) == k
  {
  }

  lemma DigitRunIs(s: seq<Byte>, k: nat)
    requires k <= |s|
    requires forall i :: 0 <= i < k ==> IsDigit(s[i])
    requires k < |s| ==> !IsDigit(s[k])
    ensures DigitRun(s) == k
  {
  }

  /** The shape shared by two names with the same non-digit prefix `p` followed by digit runs. */
  predicate RunShape(p: seq<Byte>, x: seq<Byte>, r: seq<Byte>)
  {
    && (forall i :: 0 <= i < |p| ==> !IsDigit(p[i]))
    && x != [] && (forall i :: 0 <= i < |x| ==> IsDigit(x[i]))
    && (r != [] ==> !IsDigit(r[0]))
  }

  lemma RunShapeSplit(p: seq<Byte>, x: seq<Byte>, r: seq<Byte>)
    requires RunShape(p, x, r)
    ensures var a := p + x + r;
      && a != [] && FirstDigit(a) == |p| && a[..|p|] == p && a[|p|..] == x + r
      && DigitRun(x + r) == |x| && (x + r)[..|x|] == x && (x + r)[|x|..] == r
      && a[0] == (if p == [] then x[0] else p[0])
  {
    var a := p + x + r;
    assert a[|p|] == x[0];
    FirstDigitIs(a, |p|);
    assert a[..|p|] == p && a[|p|..] == x + r;
    if r != [] {
      assert (x + r)[|x|] == r[0];
    }
    DigitRunIs(x + r, |x|);
  }

  /**
   * With equal non-digit prefixes, names compare by the numeric value of the
   * following digit runs ("img2" before "img10").
   */
  lemma NumericRuns(p: seq<Byte>, x: seq<Byte>, r1: seq<Byte>, y: seq<Byte>, r2: seq<Byte>)
    requires RunShape(p, x, r1) && RunShape(p, y, r2)
    requires DecimalValue(x) != DecimalValue(y)
    ensures NaturalOrder(p + x + r1, p + y + r2) == Sign(DecimalValue(x) - DecimalValue(y))
  {
    RunShapeSplit(p, x, r1);
    RunShapeSplit(p, y, r2);
    CompareNonDigitProps(p, p);
  }

  /**
   * The code returns the 32-bit conversion of the difference of the two
   * digit runs (each saturated by `strtoull`).
   */
  lemma NumericRunsAsWritten(p: seq<Byte>, x: seq<Byte>, r1: seq<Byte>, y: seq<Byte>, r2: seq<Byte>)
    requires RunShape(p, x, r1) && RunShape(p, y, r2)
    requires DecimalValue(x) != DecimalValue(y)
    requires DecimalValue(x) <= ULLONG_MAX && DecimalValue(y) <= ULLONG_MAX
    ensures Defined(p + x + r1, p + y + r2)
    ensures NaturalCompare(p + x + r1, p + y + r2) == ToInt32(DecimalValue(x) - DecimalValue(y))
  {
    RunShapeSplit(p, x, r1);
    RunShapeSplit(p, y, r2);
    CompareNonDigitProps(p, p);
    assert Strtoull(x + r1) == DecimalValue(x);
    assert Strtoull(y + r2) == DecimalValue(y);
  }

  /** The intended order, and the code, put "img2" before "img10". */
  lemma Img2BeforeImg10()
    ensures NaturalOrder(Lit("img2"), Lit("img10")) < 0
    ensures Defined(Lit("img2"), Lit("img10")) && NaturalCompare(Lit("img2"), Lit("img10")) < 0
  {
    var p: seq<Byte> := [0x69, 0x6d, 0x67];
    var two: seq<Byte> := [0x32];
    var ten: seq<Byte> := [0x31, 0x30];
    var r: seq<Byte> := [];
    ImgParts(p, two, ten, r);
    NumericRuns(p, two, r, ten, r);
    NumericRunsAsWritten(p, two, r, ten, r);
    ToInt32Small(-8);
  }

  /** "img2" and "img10" split into a common prefix and the digit runs 2 and 10. */
  lemma ImgParts(p: seq<Byte>, two: seq<Byte>, ten: seq<Byte>, r: seq<Byte>)
    requires p == [0x69, 0x6d, 0x67] && two == [0x32] && ten == [0x31, 0x30] && r == []
    ensures DecimalValue(two) == 2 && DecimalValue(ten) == 10
    ensures RunShape(p, two, r) && RunShape(p, ten, r)
    ensures Lit("img2") == p + two + r && Lit("img10") == p + ten + r
  {
    assert DecimalValue(two) == 2 by {
      assert two[..0] == [];
    }
    assert DecimalValue(ten) == 10 by {
      assert ten[..1] == [0x31];
      assert ten[..1][..0] == [];
    }
  }

  lemma DecimalValueSnoc(d: seq<Byte>, c: Byte)
    requires IsDigit(c)
    ensures DecimalValue(d + [c]) == DecimalValue(d) * 10 + (c - '0' as int)
  {
    assert (d + [c])[..|d|] == d;
  }

  /** The digits of 2^31 = 2147483648. */
  lemma DigitsOfTwo31() returns (x: seq<Byte>)
    ensures x == [0x32, 0x31, 0x34, 0x37, 0x34, 0x38, 0x33, 0x36, 0x34, 0x38]
    ensures DecimalValue(x) == TWO_31
  {
    x := [];
    DecimalValueSnoc(x, 0x32); x := x + [0x32];
    DecimalValueSnoc(x, 0x31); x := x + [0x31];
    DecimalValueSnoc(x, 0x34); x := x + [0x34];
    DecimalValueSnoc(x, 0x37); x := x + [0x37];
    DecimalValueSnoc(x, 0x34); x := x + [0x34];
    DecimalValueSnoc(x, 0x38); x := x + [0x38];
    DecimalValueSnoc(x, 0x33); x := x + [0x33];
    DecimalValueSnoc(x, 0x36); x := x + [0x36];
    DecimalValueSnoc(x, 0x34); x := x + [0x34];
    DecimalValueSnoc(x, 0x38); x := x + [0x38];
  }

  /** "a2147483648" and "a0" as the prefix `a` followed by one digit run each. */
  lemma TwoRunNames(big: seq<Byte>, small: seq<Byte>) returns (p: seq<Byte>, x: seq<Byte>, zero: seq<Byte>)
    requires big == Lit("a2147483648") && small == Lit("a0")
    ensures RunShape(p, x, []) && RunShape(p, zero, [])
    ensures big == p + x + [] && small == p + zero + []
    ensures DecimalValue(x) == TWO_31 && DecimalValue(zero) == 0
  {
    p := [0x61];
    x := DigitsOfTwo31();
    zero := [0x30];
    assert DecimalValue(zero) == 0 by {
      assert zero[..0] == [];
    }
  }

  /**
   * The digit difference is returned through a 32-bit `int`: a difference of
   * 2^31 wraps to -2^31, so "a2147483648" and "a0" each compare below the
   * other.
   */
  lemma TruncatedDifference(big: seq<Byte>, small: seq<Byte>)
    requires big == Lit("a2147483648") && small == Lit("a0")
    ensures Defined(big, small) && Defined(small, big)
    ensures NaturalCompare(big, small) < 0 && NaturalCompare(small, big) < 0
  {
    var p, x, zero := TwoRunNames(big, small);
    NumericRunsAsWritten(p, x, [], zero, []);
    NumericRunsAsWritten(p, zero, [], x, []);
    assert ToInt32(TWO_31) == -TWO_31;
    assert ToInt32(-TWO_31) == -TWO_31;
  }

  /** The intended order puts "a0" before "a2147483648". */
  lemma UntruncatedOrder(big: seq<Byte>, small: seq<Byte>)
    requires big == Lit("a2147483648") && small == Lit("a0")
    ensures NaturalOrder(big, small) > 0 && NaturalOrder(small, big) < 0
  {
    var p, x, zero := TwoRunNames(big, small);
    NumericRuns(p, x, [], zero, []);
    NumericRuns(p, zero, [], x, []);
  }

  /** Every digit run of `s` (starting at any position) is below 2^31. */
  predicate SmallRuns(s: seq<Byte>)
    decreases |s|
  {
    s == [] || (DecimalValue(s[..DigitRun(s)]) < TWO_31 && SmallRuns(s[1..]))
  }

  lemma {:induction false} SmallRunsSuffix(s: seq<Byte>, k: nat)
    requires k <= |s| && SmallRuns(s)
    ensures SmallRuns(s[k..])
    decreases k
  {
    if k > 0 {
      SmallRunsSuffix(s[1..], k - 1);
      assert s[1..][k - 1..] == s[k..];
    }
  }

  /** The precondition of `natural_compare` does not depend on the order of its arguments. */
  lemma {:induction false} DefinedSymmetric(a: seq<Byte>, b: seq<Byte>)
    requires Defined(a, b)
    ensures Defined(b, a)
    decreases |a| + |b|
  {
    if a != [] && b != [] && (a[0] == DOT) == (b[0] == DOT) {
      CompareNonDigitProps(a[..FirstDigit(a)], b[..FirstDigit(b)]);
      if CompareNonDigit(a[..FirstDigit(a)], b[..FirstDigit(b)]) == 0 {
        var ra, rb := a[FirstDigit(a)..], b[FirstDigit(b)..];
        var na, nb := ra[DigitRun(ra)..], rb[DigitRun(rb)..];
        if Strtoull(ra) == Strtoull(rb) && |na| + |nb| != 0 {
          DefinedSymmetric(na, nb);
        }
      }
    }
  }

  /**
   * While every digit run is below 2^31 the code's result has the sign of the
   * intended order, so there it is antisymmetric too.
   */
  lemma {:induction false} AsWrittenAgreesWhenSmall(a: seq<Byte>, b: seq<Byte>)
    requires Defined(a, b) && SmallRuns(a) && SmallRuns(b)
    ensures Sign(NaturalCompare(a, b)) == NaturalOrder(a, b)
    decreases |a| + |b|
  {
    if a != [] && b != [] && (a[0] == DOT) == (b[0] == DOT) {
      var ap, bp := FirstDigit(a), FirstDigit(b);
      if CompareNonDigit(a[..ap], b[..bp]) == 0 {
        var ra, rb := a[ap..], b[bp..];
        SmallRunsSuffix(a, ap);
        SmallRunsSuffix(b, bp);
        var x: int, y: int := DecimalValue(ra[..DigitRun(ra)]), DecimalValue(rb[..DigitRun(rb)]);
        assert Strtoull(ra) == x && Strtoull(rb) == y;
        if x != y {
          ToInt32Small(x - y);
        } else {
          var na, nb := ra[DigitRun(ra)..], rb[DigitRun(rb)..];
          SmallRunsSuffix(ra, DigitRun(ra));
          SmallRunsSuffix(rb, DigitRun(rb));
          if |na| + |nb| != 0 {
            AsWrittenAgreesWhenSmall(na, nb);
          }
        }
      }
    }
  }

  /** Swapping the arguments flips the sign of the code's result while digit runs are below 2^31. */
  lemma AsWrittenAntisymmetricWhenSmall(a: seq<Byte>, b: seq<Byte>)
    requires Defined(a, b) && SmallRuns(a) && SmallRuns(b)
    ensures Defined(b, a)
    ensures Sign(NaturalCompare(b, a)) == -Sign(NaturalCompare(a, b))
  {
    DefinedSymmetric(a, b);
    AsWrittenAgreesWhenSmall(a, b);
    AsWrittenAgreesWhenSmall(b, a);
    NaturalOrderAntisymmetric(a, b);
  }
}

=== FILE: options.dfy ===
/** The option values the command line selects (the enumerations of `args.hh`). */
module Options {

  datatype SortMode = SortNone | SortName | SortExtension | SortSize | SortTime | SortVersion

  datatype QuoteMode = QuoteDefault | QuoteLiteral | QuoteDouble

  datatype NongraphicMode = Escape | Hide | Show

  datatype TimeMode = Access | Write | Creation
}

=== FILE: sorting.dfy ===
/**
 * Ordering of the listed files: the byte order of paths, the extension of a
 * path, the case-insensitive three-way comparison, the comparator each sort
 * mode selects, and `sort_files` (a stable list sort followed by an optional
 * stable regrouping with directories first).
 */
module Sorting {
  import opened Common
  import opened Options
  import opened Files

  const DOT: Byte := 0x2e

  /** `<` on file names: lexicographic over the bytes taken as unsigned. */
  predicate PathLess(a: seq<Byte>, b: seq<Byte>)
  {
    if a == [] then b != []
    else if b == [] then false
    else if a[0] != b[0] then a[0] < b[0]
    else PathLess(a[1..], b[1..])
  }

  lemma {:induction false} PathLessIrreflexive(a: seq<Byte>)
    ensures !PathLess(a, a)
  {
    if a != [] {
      PathLessIrreflexive(a[1..]);
    }
  }

  lemma {:induction false} PathLessTransitive(a: seq<Byte>, b: seq<Byte>, c: seq<Byte>)
    requires PathLess(a, b) && PathLess(b, c)
    ensures PathLess(a, c)
  {
    if a != [] && b != [] && c != [] && a[0] == b[0] && b[0] == c[0] {
      PathLessTransitive(a[1..], b[1..], c[1..]);
    }
  }

  /** Distinct names are always ordered one way or the other. */
  lemma {:induction false} PathLessTotal(a: seq<Byte>, b: seq<Byte>)
    requires a != b
    ensures PathLess(a, b) || PathLess(b, a)
  {
    if a != [] && b != [] && a[0] == b[0] {
      assert a == [a[0]] + a[1..] && b == [b[0]] + b[1..];
      PathLessTotal(a[1..], b[1..]);
    }
  }

  /** The index of the last `.` in `p`, if any. */
  function LastDot(p: seq<Byte>): (k: Option<nat>)
    ensures k.Some? ==> k.value < |p| && p[k.value] == DOT && DOT !in p[k.value + 1..]
    ensures k.None? ==> DOT !in p
  {
    if p == [] then None
    else if p[|p| - 1] == DOT then Some(|p| - 1)
    else
      var k := LastDot(p[..|p| - 1]);
      assert p == p[..|p| - 1] + [p[|p| - 1]];
      k
  }

  /**
   * `path::extension` of a file name: from the last `.` to the end, empty when
   * there is no `.`, when the only `.` starts the name, and for `.` and `..`.
   */
  function Extension(p: seq<Byte>): (e: seq<Byte>)
    ensures e != [] ==> 0 < |p| - |e| && e == p[|p| - |e|..] && e[0] == DOT && DOT !in e[1..]
    ensures e == [] <==> p == [] || p == [DOT, DOT] || DOT !in p[1..]
  {
    if p == [DOT] || p == [DOT, DOT] then []
    else match LastDot(p)
      case None => []
      case Some(k) =>
        if k == 0 then []
        else
          assert p[k..][1..] == p[k + 1..];
          p[k..]
  }

  /** A unit of a name as `case_insensitive_compare` compares it: ASCII folded to lower case, as a signed `char`. */
  function Fold(b: Byte): int
  {
    if b < 0x80 then ToLower(b) else SignedChar(b)
  }

  function Folded(s: seq<Byte>): (r: seq<int>)
    ensures |r| == |s|
    ensures forall i :: 0 <= i < |s| ==> r[i] == Fold(s[i])
  {
    if s == [] then [] else [Fold(s[0])] + Folded(s[1..])
  }

  /**
   * `case_insensitive_compare`: -1 or 1 at the first unit that differs after
   * folding, otherwise the length difference taken as an `int`.
   */
  function CaseInsensitiveOrder(a: seq<Byte>, b: seq<Byte>): (r: int)
    ensures -TWO_31 <= r < TWO_31
    ensures a == b ==> r == 0
  {
    if a == [] || b == [] then ToInt32(|a| - |b|)
    else if Fold(a[0]) < Fold(b[0]) then -1
    else if Fold(a[0]) > Fold(b[0]) then 1
    else CaseInsensitiveOrder(a[1..], b[1..])
  }

  /** The loop of `case_insensitive_compare`, computing `CaseInsensitiveOrder`. */
  method CaseInsensitiveCompare(a: seq<Byte>, b: seq<Byte>) returns (r: int)
    ensures r == CaseInsensitiveOrder(a, b)
  {
    var l := if |a| < |b| then |a| else |b|;
    var i := 0;
    while i < l
      invariant 0 <= i <= l
      invariant CaseInsensitiveOrder(a, b) == CaseInsensitiveOrder(a[i..], b[i..])
    {
      var c1 := Fold(a[i]);
      var c2 := Fold(b[i]);
      assert a[i..][1..] == a[i + 1..] && b[i..][1..] == b[i + 1..];
      if c1 < c2 {
        return -1;
      } else if c1 > c2 {
        return 1;
      }
      i := i + 1;
    }
    r := ToInt32(|a| - |b|);
  }

  /**
   * For names shorter than 2^31 bytes the comparison is 0 exactly when both
   * names are equal after folding, and swapping the names flips the sign.
   */
  lemma {:induction false} CaseInsensitiveOrderProps(a: seq<Byte>, b: seq<Byte>)
    requires |a| < TWO_31 && |b| < TWO_31
    ensures CaseInsensitiveOrder(a, b) == 0 <==> Folded(a) == Folded(b)
    ensures CaseInsensitiveOrder(a, b) == -CaseInsensitiveOrder(b, a)
  {
    if a == [] || b == [] {
      ToInt32Small(|a| - |b|);
      ToInt32Small(|b| - |a|);
    } else {
      CaseInsensitiveOrderProps(a[1..], b[1..]);
      assert Folded(a) == [Fold(a[0])] + Folded(a[1..]);
      assert Folded(b) == [Fold(b[0])] + Folded(b[1..]);
      if Folded(a) == Folded(b) {
        assert Folded(a)[1..] == Folded(a[1..]);
        assert Folded(b)[1..] == Folded(b[1..]);
      }
    }
  }

  /** What `sort_files` reads from the command line. */
  datatype SortOptions = SortOptions(mode: SortMode, caseSensitive: bool, reverse: bool, dirsFirst: bool)

  /**
   * The comparator `sort_files` builds for a mode: the name or extension
   * compared with `<` (case-sensitive) or with the negated three-way
   * comparison (case-insensitive), the size compared with `<`, each
   * exclusive-or'ed with `reverse`.  The time comparator falls through into
   * the version one, which answers `true` for every pair.
   */
  function Comes(o: SortOptions, a: FileInfo, b: FileInfo): bool
    requires o.mode != SortNone
  {
    match o.mode
    case SortName =>
      if o.caseSensitive then PathLess(a.path, b.path) != o.reverse
      else (CaseInsensitiveOrder(a.path, b.path) == 0) != o.reverse
    case SortExtension =>
      if o.caseSensitive then PathLess(Extension(a.path), Extension(b.path)) != o.reverse
      else (CaseInsensitiveOrder(Extension(a.path), Extension(b.path)) == 0) != o.reverse
    case SortSize => (a.size < b.size) != o.reverse
    case SortTime => true
    case SortVersion => true
  }

  /**
   * The case-insensitive name comparator holds exactly for names equal after
   * folding (reverse off), so it is not the strict order `std::list::sort`
   * demands: it holds for every file compared with itself.
   */
  lemma CaseInsensitiveComparatorIsEquality(o: SortOptions, a: FileInfo, b: FileInfo)
    requires o.mode == SortName && !o.caseSensitive && !o.reverse
    requires |a.path| < TWO_31 && |b.path| < TWO_31
    ensures Comes(o, a, b) <==> Folded(a.path) == Folded(b.path)
    ensures Comes(o, a, a)
  {
    CaseInsensitiveOrderProps(a.path, b.path);
    CaseInsensitiveOrderProps(a.path, a.path);
  }

  /** Sorting by time never looks at the times: the comparator holds for every pair. */
  lemma TimeComparatorIgnoresTime(o: SortOptions, a: FileInfo, b: FileInfo)
    requires o.mode == SortTime
    ensures Comes(o, a, b) && Comes(o, b, a)
  {
  }

  /** Inserts `x` before the first element it comes before, after all others. */
  function Insert(x: FileInfo, s: seq<FileInfo>, less: (FileInfo, FileInfo) -> bool): (r: seq<FileInfo>)
    ensures multiset(r) == multiset(s) + multiset{x}
  {
    if s == [] then [x]
    else if less(x, s[0]) then [x] + s
    else
      assert s == [s[0]] + s[1..];
      [s[0]] + Insert(x, s[1..], less)
  }

  /**
   * A stable list sort: each element in turn is inserted after every earlier
   * element it does not come before.
   */
  function ListSort(s: seq<FileInfo>, less: (FileInfo, FileInfo) -> bool): (r: seq<FileInfo>)
    ensures multiset(r) == multiset(s)
  {
    if s == [] then []
    else
      assert s == s[..|s| - 1] + [s[|s| - 1]];
      Insert(s[|s| - 1], ListSort(s[..|s| - 1], less), less)
  }

  predicate IsDir(f: FileInfo)
  {
    f.fileType == Directory
  }

  /** The regrouping comparator: directories before everything else. */
  function DirFirst(a: FileInfo, b: FileInfo): bool
  {
    IsDir(a) && !IsDir(b)
  }

  /**
   * `sort_files`: nothing happens for `SortMode::none`; otherwise the list is
   * sorted with the mode's comparator and, with `--group-directories-first`,
   * sorted again so that directories come first.  The result is always a
   * reordering of the input.
   */
  function SortFiles(files: seq<FileInfo>, o: SortOptions): (r: seq<FileInfo>)
    ensures multiset(r) == multiset(files)
    ensures o.mode == SortNone ==> r == files
  {
    if o.mode == SortNone then files
    else
      var sorted := ListSort(files, (a, b) => Comes(o, a, b));
      if o.dirsFirst then ListSort(sorted, DirFirst) else sorted
  }

  /** The directories of `s`, in order. */
  function Dirs(s: seq<FileInfo>): (r: seq<FileInfo>)
    ensures forall i :: 0 <= i < |r| ==> IsDir(r[i])
  {
    if s == [] then []
    else if IsDir(s[|s| - 1]) then Dirs(s[..|s| - 1]) + [s[|s| - 1]]
    else Dirs(s[..|s| - 1])
  }

  /** The other files of `s`, in order. */
  function NonDirs(s: seq<FileInfo>): (r: seq<FileInfo>)
    ensures forall i :: 0 <= i < |r| ==> !IsDir(r[i])
  {
    if s == [] then []
    else if IsDir(s[|s| - 1]) then NonDirs(s[..|s| - 1])
    else NonDirs(s[..|s| - 1]) + [s[|s| - 1]]
  }

  lemma {:induction false} InsertDir(x: FileInfo, d: seq<FileInfo>, n: seq<FileInfo>)
    requires IsDir(x)
    requires forall i :: 0 <= i < |d| ==> IsDir(d[i])
    requires forall i :: 0 <= i < |n| ==> !IsDir(n[i])
    ensures Insert(x, d + n, DirFirst) == d + [x] + n
  {
    if d == [] {
      assert d + n == n;
      if n != [] {
        assert DirFirst(x, n[0]);
      }
    } else {
      assert (d + n)[0] == d[0] && (d + n)[1..] == d[1..] + n;
      InsertDir(x, d[1..], n);
    }
  }

  lemma {:induction false} InsertNonDir(x: FileInfo, s: seq<FileInfo>)
    requires !IsDir(x)
    ensures Insert(x, s, DirFirst) == s + [x]
  {
    if s != [] {
      InsertNonDir(x, s[1..]);
      assert s == [s[0]] + s[1..];
    }
  }

  /**
   * Regrouping with directories first keeps the order inside each group: the
   * result is the directories in their order, then the other files in theirs.
   */
  lemma {:induction false} DirsFirstRegroups(s: seq<FileInfo>)
    ensures ListSort(s, DirFirst) == Dirs(s) + NonDirs(s)
  {
    if s != [] {
      var init, x := s[..|s| - 1], s[|s| - 1];
      DirsFirstRegroups(init);
      if IsDir(x) {
        InsertDir(x, Dirs(init), NonDirs(init));
      } else {
        InsertNonDir(x, Dirs(init) + NonDirs(init));
        assert Dirs(init) + NonDirs(init) + [x] == Dirs(init) + (NonDirs(init) + [x]);
      }
    }
  }

  /**
   * With `--group-directories-first` every directory precedes every other
   * file, and each group keeps the order the mode's sort gave it.
   */
  lemma SortFilesGroupsDirectories(files: seq<FileInfo>, o: SortOptions)
    requires o.mode != SortNone && o.dirsFirst
    ensures var sorted := ListSort(files, (a, b) => Comes(o, a, b));
      SortFiles(files, o) == Dirs(sorted) + NonDirs(sorted)
    ensures var r := SortFiles(files, o);
      forall i, j :: 0 <= i < j < |r| && IsDir(r[j]) ==> IsDir(r[i])
  {
    var sorted := ListSort(files, (a, b) => Comes(o, a, b));
    DirsFirstRegroups(sorted);
    var r := SortFiles(files, o);
    forall i, j | 0 <= i < j < |r| && IsDir(r[j])
      ensures IsDir(r[i])
    {
      var d := Dirs(sorted);
      if i < |d| {
        assert r[i] == d[i];
      }
    }
  }

  /** `less` is irreflexive and transitive. */
  ghost predicate StrictOrder(less: (FileInfo, FileInfo) -> bool)
  {
    && (forall a :: !less(a, a))
    && (forall a, b, c :: less(a, b) && less(b, c) ==> less(a, c))
  }

  /** No element comes before an element earlier in the sequence. */
  predicate SortedBy(s: seq<FileInfo>, less: (FileInfo, FileInfo) -> bool)
  {
    forall i, j :: 0 <= i < j < |s| ==> !less(s[j], s[i])
  }

  lemma {:induction false} InsertSorted(x: FileInfo, s: seq<FileInfo>, less: (FileInfo, FileInfo) -> bool)
    requires StrictOrder(less) && SortedBy(s, less)
    ensures SortedBy(Insert(x, s, less), less)
  {
    if s != [] {
      var r := Insert(x, s, less);
      if less(x, s[0]) {
        forall i, j | 0 <= i < j < |r|
          ensures !less(r[j], r[i])
        {
          if i == 0 {
            assert r[j] == s[j - 1];
          } else {
            assert r[i] == s[i - 1] && r[j] == s[j - 1];
          }
        }
      } else {
        InsertSorted(x, s[1..], less);
        var t := Insert(x, s[1..], less);
        assert multiset(t) == multiset(s[1..]) + multiset{x};
        forall i, j | 0 <= i < j < |r|
          ensures !less(r[j], r[i])
        {
          if i == 0 {
            assert r[j] == t[j - 1];
            assert t[j - 1] in multiset(t);
            if t[j - 1] == x {
            } else {
              var k :| 0 <= k < |s[1..]| && s[1..][k] == t[j - 1];
              assert s[k + 1] == t[j - 1];
            }
          } else {
            assert r[i] == t[i - 1] && r[j] == t[j - 1];
          }
        }
      }
    }
  }

  /** Sorting with a strict order leaves no element before one it should follow. */
  lemma {:induction false} ListSortSorted(s: seq<FileInfo>, less: (FileInfo, FileInfo) -> bool)
    requires StrictOrder(less)
    ensures SortedBy(ListSort(s, less), less)
  {
    if s != [] {
      ListSortSorted(s[..|s| - 1], less);
      InsertSorted(s[|s| - 1], ListSort(s[..|s| - 1], less), less);
    }
  }

  /**
   * Case-sensitive name sorting without `--reverse` or regrouping yields the
   * files in increasing byte order of their names.
   */
  lemma SortByNameOrdersNames(files: seq<FileInfo>, o: SortOptions)
    requires o.mode == SortName && o.caseSensitive && !o.reverse && !o.dirsFirst
    ensures var r := SortFiles(files, o);
      forall i, j :: 0 <= i < j < |r| ==> !PathLess(r[j].path, r[i].path)
  {
    var less := (a, b) => Comes(o, a, b);
    forall a | true
      ensures !less(a, a)
    {
      PathLessIrreflexive(a.path);
    }
    forall a, b, c | less(a, b) && less(b, c)
      ensures less(a, c)
    {
      PathLessTransitive(a.path, b.path, c.path);
    }
    ListSortSorted(files, less);
  }

  /** Size sorting without `--reverse` or regrouping yields non-decreasing sizes. */
  lemma SortBySizeOrdersSizes(files: seq<FileInfo>, o: SortOptions)
    requires o.mode == SortSize && !o.reverse && !o.dirsFirst
    ensures var r := SortFiles(files, o);
      forall i, j :: 0 <= i < j < |r| ==> r[i].size <= r[j].size
  {
    var less := (a, b) => Comes(o, a, b);
    assert StrictOrder(less);
    ListSortSorted(files, less);
  }
}

=== FILE: unicode.dfy ===
/**
 * UTF-8 decoding and terminal display width of file names.
 *
 * Bytes are decoded by looking at the lead byte only: it announces how many
 * bytes the codepoint takes, and the following bytes contribute their low six
 * bits whatever their high bits are.  Malformed input is therefore decoded
 * without complaint; what the decoder cannot survive is a sequence whose last
 * lead byte announces more bytes than remain (it reads past the end).  The
 * predicate `Framed` names the inputs that avoid that.
 */
module Unicode {
  import opened Common

  /** Byte count announced by a lead byte. */
  function LeadSize(b: Byte): (n: nat)
    ensures 1 <= n <= 4
    ensures n == 1 <==> b < 0x80
  {
    if b < 0x80 then 1 else if b < 0xe0 then 2 else if b < 0xf0 then 3 else 4
  }

  /**
   * `utf8_to_codepoint`: the codepoint starting at `bytes[0]` and its size.
   * `x & 0x3f` is written `x % 0x40` and `(x << k) | y` (with y below 2^k) as
   * `x * 2^k + y`.
   */
  function Utf8ToCodepoint(bytes: seq<Byte>): (r: (nat, nat))
    requires |bytes| >= 1 && LeadSize(bytes[0]) <= |bytes|
    ensures r.1 == LeadSize(bytes[0])
    ensures r.1 == 1 ==> r.0 == bytes[0] < 0x80
    ensures r.1 == 2 ==> r.0 < 0x800
    ensures r.0 < 0x200000
  {
    var b0: int := bytes[0];
    if b0 < 0x80 then
      (b0, 1)
    else if b0 < 0xe0 then
      ((b0 % 0x20) * 0x40 + Low6(bytes[1]), 2)
    else if b0 < 0xf0 then
      ((b0 % 0x10) * 0x1000 + Low6(bytes[1]) * 0x40 + Low6(bytes[2]), 3)
    else
      ((b0 % 0x8) * 0x40000 + Low6(bytes[1]) * 0x1000 + Low6(bytes[2]) * 0x40 + Low6(bytes[3]), 4)
  }

  /** `b & 0x3f`: the payload bits of a continuation byte. */
  function Low6(b: Byte): (r: nat)
    ensures r < 0x40
  {
    b as int % 0x40
  }

  /** A Unicode scalar value: a codepoint that is not a surrogate. */
  predicate IsScalar(cp: nat)
  {
    cp <= 0x10FFFF && !(0xD800 <= cp <= 0xDFFF)
  }

  /** The UTF-8 encoding of a scalar value (section 3 of RFC 3629). */
  function Encode(cp: nat): (r: seq<Byte>)
    requires IsScalar(cp)
    ensures 1 <= |r| <= 4
    ensures cp < 0x80 ==> r == [cp]
    ensures cp >= 0x80 ==> forall i :: 0 <= i < |r| ==> r[i] >= 0x80
  {
    if cp < 0x80 then [cp]
    else if cp < 0x800 then [0xC0 + cp / 0x40, 0x80 + cp % 0x40]
    else if cp < 0x10000 then [0xE0 + cp / 0x1000, 0x80 + (cp / 0x40) % 0x40, 0x80 + cp % 0x40]
    else [0xF0 + cp / 0x40000, 0x80 + (cp / 0x1000) % 0x40, 0x80 + (cp / 0x40) % 0x40, 0x80 + cp % 0x40]
  }

  /** The encoding of a sequence of scalar values: a well-formed UTF-8 string. */
  function EncodeAll(cps: seq<nat>): (r: seq<Byte>)
    requires forall i :: 0 <= i < |cps| ==> IsScalar(cps[i])
  {
    if cps == [] then [] else Encode(cps[0]) + EncodeAll(cps[1..])
  }

  lemma SplitSix(x: nat)
    ensures x == (x / 0x40) * 0x40 + x % 0x40
    ensures x / 0x40 == (x / 0x1000) * 0x40 + (x / 0x40) % 0x40
    ensures x / 0x1000 == (x / 0x40000) * 0x40 + (x / 0x1000) % 0x40
  {
  }

  lemma {:induction false} DecodeEncode2(cp: nat, rest: seq<Byte>)
    requires 0x80 <= cp < 0x800
    ensures Utf8ToCodepoint(Encode(cp) + rest) == (cp, 2)
  {
    var s := Encode(cp) + rest;
    var q := cp / 0x40;
    assert s[0] == 0xC0 + q && q < 0x20;
    assert (0xC0 + q) % 0x20 == q;
    assert Low6(s[1]) == cp % 0x40;
  }

  lemma {:induction false} DecodeEncode3(cp: nat, rest: seq<Byte>)
    requires 0x800 <= cp < 0x10000 && IsScalar(cp)
    ensures Utf8ToCodepoint(Encode(cp) + rest) == (cp, 3)
  {
    var s := Encode(cp) + rest;
    var q := cp / 0x1000;
    assert s[0] == 0xE0 + q && q < 0x10;
    assert (0xE0 + q) % 0x10 == q;
    assert Low6(s[1]) == (cp / 0x40) % 0x40;
    assert Low6(s[2]) == cp % 0x40;
    SplitSix(cp);
    calc {
      q * 0x1000 + ((cp / 0x40) % 0x40) * 0x40 + cp % 0x40;
      (q * 0x40 + (cp / 0x40) % 0x40) * 0x40 + cp % 0x40;
      (cp / 0x40) * 0x40 + cp % 0x40;
    }
  }

  lemma {:induction false} DecodeEncode4(cp: nat, rest: seq<Byte>)
    requires 0x10000 <= cp <= 0x10FFFF
    ensures Utf8ToCodepoint(Encode(cp) + rest) == (cp, 4)
  {
    var s := Encode(cp) + rest;
    var q := cp / 0x40000;
    assert s[0] == 0xF0 + q && q <= 4;
    assert (0xF0 + q) % 0x8 == q;
    assert Low6(s[1]) == (cp / 0x1000) % 0x40;
    assert Low6(s[2]) == (cp / 0x40) % 0x40;
    assert Low6(s[3]) == cp % 0x40;
    SplitSix(cp);
    calc {
      q * 0x40000 + ((cp / 0x1000) % 0x40) * 0x1000 + ((cp / 0x40) % 0x40) * 0x40 + cp % 0x40;
      ((q * 0x40 + (cp / 0x1000) % 0x40) * 0x40 + (cp / 0x40) % 0x40) * 0x40 + cp % 0x40;
      ((cp / 0x1000) * 0x40 + (cp / 0x40) % 0x40) * 0x40 + cp % 0x40;
      (cp / 0x40) * 0x40 + cp % 0x40;
    }
  }

  /** Decoding a well-formed sequence yields the encoded scalar and its byte length. */
  lemma {:induction false} DecodeEncode(cp: nat, rest: seq<Byte>)
    requires IsScalar(cp)
    ensures LeadSize(Encode(cp)[0]) == |Encode(cp)|
    ensures Utf8ToCodepoint(Encode(cp) + rest) == (cp, |Encode(cp)|)
  {
    if cp < 0x80 {
    } else if cp < 0x800 {
      DecodeEncode2(cp, rest);
    } else if cp < 0x10000 {
      DecodeEncode3(cp, rest);
    } else {
      DecodeEncode4(cp, rest);
    }
  }

  /**
   * `s` splits into whole steps of the iterator: stepping by the announced
   * sizes lands exactly on the end, so no codepoint is read past it.
   */
  predicate Framed(s: seq<Byte>)
    decreases |s|
  {
    s == [] || (LeadSize(s[0]) <= |s| && Framed(s[LeadSize(s[0])..]))
  }

  /** The codepoints the iterator visits, in order. */
  function Codepoints(s: seq<Byte>): (r: seq<nat>)
    requires Framed(s)
    decreases |s|
  {
    if s == [] then [] else
      var (c, n) := Utf8ToCodepoint(s);
      [c] + Codepoints(s[n..])
  }

  /** Iterating over a well-formed string visits each encoded scalar once, in order, and stops at the end. */
  lemma {:induction false} CodepointsOfEncoding(cps: seq<nat>)
    requires forall i :: 0 <= i < |cps| ==> IsScalar(cps[i])
    ensures Framed(EncodeAll(cps))
    ensures Codepoints(EncodeAll(cps)) == cps
  {
    if cps != [] {
      var s := EncodeAll(cps);
      var e := Encode(cps[0]);
      DecodeEncode(cps[0], EncodeAll(cps[1..]));
      CodepointsOfEncoding(cps[1..]);
      assert s[0] == e[0];
      assert s[|e|..] == EncodeAll(cps[1..]);
    }
  }

  /** The East Asian Wide and Fullwidth ranges the width table approximates (UAX #11). */
  const WIDE_RANGES: seq<(nat, nat)> := [
    (0x1100, 0x115f), (0x2329, 0x232a), (0x2e80, 0x303e), (0x3040, 0xa4cf),
    (0xac00, 0xd7a3), (0xf900, 0xfaff), (0xfe10, 0xfe19), (0xfe30, 0xfe6f),
    (0xff00, 0xff60), (0xffe0, 0xffe6), (0x20000, 0x2fffd), (0x30000, 0x3fffd)
  ]

  predicate InWideRange(ch: nat)
  {
    exists i :: 0 <= i < |WIDE_RANGES| && WIDE_RANGES[i].0 <= ch <= WIDE_RANGES[i].1
  }

  /** `display_width (char32_t)`: columns a codepoint occupies. */
  function CharWidth(ch: nat): (w: nat)
    ensures w <= 2
    ensures w == 0 <==> ch == 0
    ensures ch < 0x1100 ==> w <= 1
  {
    if ch == 0 then 0
    else 1 + (if ch >= 0x1100
                 && (ch <= 0x115f || ch == 0x2329 || ch == 0x232a
                     || (ch >= 0x2e80 && ch <= 0xa4cf && ch != 0x303f)
                     || (ch >= 0xac00 && ch <= 0xd7a3)
                     || (ch >= 0xf900 && ch <= 0xfaff)
                     || (ch >= 0xfe10 && ch <= 0xfe19)
                     || (ch >= 0xfe30 && ch <= 0xfe6f)
                     || (ch >= 0xff00 && ch <= 0xff60)
                     || (ch >= 0xffe0 && ch <= 0xffe6)
                     || (ch >= 0x20000 && ch <= 0x2fffd)
                     || (ch >= 0x30000 && ch <= 0x3fffd))
              then 1 else 0)
  }

  /** A codepoint is 0 columns wide only if it is NUL, 2 exactly inside the wide ranges, else 1. */
  lemma CharWidthTable(ch: nat)
    ensures CharWidth(ch) == 0 <==> ch == 0
    ensures CharWidth(ch) == 2 <==> ch != 0 && InWideRange(ch)
    ensures CharWidth(ch) <= 2
  {
    if ch != 0 && CharWidth(ch) == 2 {
      var i := if ch <= 0x115f then 0
               else if ch <= 0x232a then 1
               else if ch <= 0x303e then 2
               else if ch <= 0xa4cf then 3
               else if ch <= 0xd7a3 then 4
               else if ch <= 0xfaff then 5
               else if ch <= 0xfe19 then 6
               else if ch <= 0xfe6f then 7
               else if ch <= 0xff60 then 8
               else if ch <= 0xffe6 then 9
               else if ch <= 0x2fffd then 10
               else 11;
      assert WIDE_RANGES[i].0 <= ch <= WIDE_RANGES[i].1;
    }
  }

  /** `display_width (string)`: the sum of the widths of the codepoints. */
  function Width(s: seq<Byte>): (w: nat)
    requires Framed(s)
    ensures w <= |s|
    decreases |s|
  {
    if s == [] then 0 else
      var (c, n) := Utf8ToCodepoint(s);
      CharWidth(c) + Width(s[n..])
  }

  /** `padding_offset`: bytes minus columns, summed over the non-NUL codepoints. */
  function Padding(s: seq<Byte>): (o: int)
    requires Framed(s)
    decreases |s|
  {
    if s == [] then 0 else
      var (c, n) := Utf8ToCodepoint(s);
      (if c != 0 then n - CharWidth(c) else 0) + Padding(s[n..])
  }

  function SumWidths(cps: seq<nat>): nat
  {
    if cps == [] then 0 else CharWidth(cps[0]) + SumWidths(cps[1..])
  }

  lemma {:induction false} WidthIsSumOverCodepoints(s: seq<Byte>)
    requires Framed(s)
    ensures Width(s) == SumWidths(Codepoints(s))
  {
    if s != [] {
      var (c, n) := Utf8ToCodepoint(s);
      WidthIsSumOverCodepoints(s[n..]);
      assert Codepoints(s)[1..] == Codepoints(s[n..]);
    }
  }

  /** The width of a well-formed string is the sum of the widths of the scalars it encodes. */
  lemma WidthOfEncoding(cps: seq<nat>)
    requires forall i :: 0 <= i < |cps| ==> IsScalar(cps[i])
    ensures Framed(EncodeAll(cps))
    ensures Width(EncodeAll(cps)) == SumWidths(cps)
  {
    CodepointsOfEncoding(cps);
    WidthIsSumOverCodepoints(EncodeAll(cps));
  }

  /** For a string with no NUL codepoint, columns plus the padding correction give the byte length. */
  lemma {:induction false} WidthPlusPadding(s: seq<Byte>)
    requires Framed(s)
    requires forall i :: 0 <= i < |Codepoints(s)| ==> Codepoints(s)[i] != 0
    ensures Width(s) + Padding(s) == |s|
  {
    if s != [] {
      var (c, n) := Utf8ToCodepoint(s);
      var rest := Codepoints(s[n..]);
      assert Codepoints(s) == [c] + rest;
      assert c == Codepoints(s)[0];
      forall i | 0 <= i < |rest| ensures rest[i] != 0 {
        assert rest[i] == Codepoints(s)[i + 1];
      }
      WidthPlusPadding(s[n..]);
    }
  }

  /** The padding correction is never negative: no codepoint is wider than its encoding is long. */
  lemma {:induction false} PaddingNonNegative(s: seq<Byte>)
    requires Framed(s)
    ensures Padding(s) >= 0
  {
    if s != [] {
      var (c, n) := Utf8ToCodepoint(s);
      CharWidthTable(c);
      if c != 0 && n <= 2 {
        assert CharWidth(c) == 1;
      }
      PaddingNonNegative(s[n..]);
    }
  }

  predicate IsAscii(s: seq<Byte>)
  {
    forall i :: 0 <= i < |s| ==> s[i] < 0x80
  }

  /** An ASCII string needs no padding correction, and without NUL bytes its width is its length. */
  lemma {:induction false} AsciiWidth(s: seq<Byte>)
    requires IsAscii(s)
    ensures Framed(s) && Padding(s) == 0
    ensures (forall i :: 0 <= i < |s| ==> s[i] != 0) ==> Width(s) == |s|
  {
    if s != [] {
      assert IsAscii(s[1..]) by {
        forall i | 0 <= i < |s[1..]| ensures s[1..][i] < 0x80 {
          assert s[1..][i] == s[i + 1];
        }
      }
      AsciiWidth(s[1..]);
      assert (forall i :: 0 <= i < |s| ==> s[i] != 0) ==> (forall i :: 0 <= i < |s[1..]| ==> s[1..][i] != 0) by {
        if forall i :: 0 <= i < |s| ==> s[i] != 0 {
          forall i | 0 <= i < |s[1..]| ensures s[1..][i] != 0 {
            assert s[1..][i] == s[i + 1];
          }
        }
      }
    }
  }

  /** Widths add up over concatenation of framed strings. */
  lemma {:induction false} WidthAppend(a: seq<Byte>, b: seq<Byte>)
    requires Framed(a) && Framed(b)
    ensures Framed(a + b) && Width(a + b) == Width(a) + Width(b)
    decreases |a|
  {
    if a == [] {
      assert a + b == b;
    } else {
      var n := LeadSize(a[0]);
      assert (a + b)[0] == a[0];
      assert (a + b)[..n] == a[..n];
      assert (a + b)[n..] == a[n..] + b;
      WidthAppend(a[n..], b);
      DecodeSeesOneUnit(a + b, a);
    }
  }

  /** The decoder reads only the bytes its lead byte announces. */
  lemma DecodeSeesOneUnit(x: seq<Byte>, y: seq<Byte>)
    requires |x| >= 1 && LeadSize(x[0]) <= |x| && LeadSize(x[0]) <= |y|
    requires x[..LeadSize(x[0])] == y[..LeadSize(x[0])]
    ensures Utf8ToCodepoint(x) == Utf8ToCodepoint(y)
  {
    var n := LeadSize(x[0]);
    assert forall k :: 0 <= k < n ==> x[k] == x[..n][k] == y[..n][k] == y[k];
  }

  /**
   * `utf8_to_codepoint (p, &cp_size)` called on a pointer into a buffer: the
   * codepoint is returned and its byte count stored through the second
   * argument.
   */
  method Utf8ToCodepointAt(buf: seq<Byte>, p: nat) returns (c: nat, cpSize: nat)
    requires p < |buf| && LeadSize(buf[p]) <= |buf| - p
    ensures (c, cpSize) == Utf8ToCodepoint(buf[p..])
    ensures cpSize == LeadSize(buf[p]) && c < 0x200000
  {
    var r := Utf8ToCodepoint(buf[p..]);
    c, cpSize := r.0, r.1;
  }

  /**
   * `CodepointIterator`: a cursor over the bytes of a string.  `pointer` is
   * `M_pointer - M_begin`; `cpSize` is `M_cp_size`, set by dereferencing.
   */
  class CodepointIterator {
    const bytes: seq<Byte>
    var pointer: nat
    var cpSize: int

    constructor (str: seq<Byte>)
      ensures bytes == str && pointer == 0 && cpSize == 0
    {
      bytes := str;
      pointer := 0;
      cpSize := 0;
    }

    /** The iterator compares equal to `end ()`. */
    predicate AtEnd()
      reads this
    {
      pointer == |bytes|
    }

    /** `operator *`: decodes the codepoint under the cursor and records its size. */
    method Current() returns (c: nat)
      requires pointer < |bytes| && LeadSize(bytes[pointer]) <= |bytes| - pointer
      modifies this`cpSize
      ensures (c, cpSize) == Utf8ToCodepoint(bytes[pointer..])
    {
      var r := Utf8ToCodepoint(bytes[pointer..]);
      c := r.0;
      cpSize := r.1;
    }

    /** `operator ++`: steps over as many bytes as the lead byte announces. */
    method Advance()
      requires pointer < |bytes|
      modifies this`pointer
      ensures pointer == old(pointer) + LeadSize(bytes[old(pointer)])
    {
      var b := bytes[pointer];
      pointer := pointer + 1 + (if b >= 0x80 then 1 else 0) + (if b >= 0xe0 then 1 else 0)
                 + (if b >= 0xf0 then 1 else 0);
    }
  }

  /** `display_width (string)`: accumulates the codepoint widths while iterating. */
  method DisplayWidth(str: seq<Byte>) returns (w: int)
    requires Framed(str)
    ensures w == Width(str)
  {
    w := 0;
    var iter := new CodepointIterator(str);
    while !iter.AtEnd()
      invariant iter.bytes == str && iter.pointer <= |str|
      invariant Framed(str[iter.pointer..])
      invariant w + Width(str[iter.pointer..]) == Width(str)
      decreases |str| - iter.pointer
    {
      ghost var rest := str[iter.pointer..];
      var c := iter.Current();
      w := w + CharWidth(c);
      iter.Advance();
      assert str[iter.pointer..] == rest[LeadSize(rest[0])..];
    }
  }

  /** `padding_offset`: accumulates bytes minus columns of the non-NUL codepoints. */
  method PaddingOffset(str: seq<Byte>) returns (o: int)
    requires Framed(str)
    ensures o == Padding(str)
  {
    var iter := new CodepointIterator(str);
    o := 0;
    while !iter.AtEnd()
      invariant iter.bytes == str && iter.pointer <= |str|
      invariant Framed(str[iter.pointer..])
      invariant o + Padding(str[iter.pointer..]) == Padding(str)
      decreases |str| - iter.pointer
    {
      ghost var rest := str[iter.pointer..];
      var c := iter.Current();
      if c != 0 {
        o := o + iter.cpSize - CharWidth(c);
      }
      iter.Advance();
      assert str[iter.pointer..] == rest[LeadSize(rest[0])..];
    }
  }
}
